=== FILE: README.md ===
# 4G base station applications, modelled in Dafny

This project models the core of two MicroPython applications for a 4G
base-station board.

- **Gate control** (`GateControlApp`):
  - a persistent configuration, with parameters and two tiers of phones
    (admins and users), each phone holding a rights string such as
    `:C1:O1:`;
  - an alarm state machine per watched input;
  - an SMS command dispatcher with nine handlers that manage users,
    rights and parameters;
  - the main loop, which:
    - makes the first caller the master;
    - lets authorised callers and SMS senders switch the two outputs;
    - routes SMS commands from admins;
    - turns input alarms into notifications;
    - drains the notification queue one SMS per pass.
- **SMS control** (`SmsControlApp`):
  - a generic SMS command station, with a dispatcher, an `is_auth` hook
    and a last-in-first-out reply queue;
  - the example application built on it, with the `say`, `info`,
    `error`, `punish` and relay handlers.

Everything is pure functions over immutable values. A handler or loop step
returns either a new state or the exception that escaped it
(`Wrappers.Result`). Python exceptions are values (`Errors.Exc`), so these
are proved:

- which `except` clause catches which failure;
- what text the sender and the master receive;
- which failures end the program.

Modules, one per file:

| module | file | what it holds |
|---|---|---|
| `Wrappers` | wrappers.dfy | `Option` and `Result` |
| `Text` | text.dfy | `split`, `join`, `strip`, `upper`, `replace`, `in` on strings, `int()` and `'%i'`, `valid_text`, `is_phone_nr`, MicroPython's `repr` of a string |
| `Errors` | errors.dfy | exceptions and their `repr` |
| `Rights` | rights.dfy | the rights strings, and the proof that the source's `replace`-based edits are set insertion and deletion on the tag list |
| `PlatformConfig` | platformconfig.dfy | `PlatformConfig` of pltconf.py |
| `InAlarm` | inalarm.dfy | `InputAlarm` of inalarm.py |
| `Command` | command.dfy | the SMS format check and the handler table, shared by both dispatchers |
| `GateCtrl` | gatectrl.dfy | notifications, handlers and `run_sms_handler` of gatectrl.py |
| `GateLoop` | gateloop.dfy | `is_output_auth`, `is_out_cmd`, `output_action`, and the call, SMS, alarm and send stages of `_loop` |
| `SmsCtrl` | smsctrl.dfy | `SmsControlApp` of smsctrl.py |
| `SmsApp` | smsapp.dfy | `MyApp` of the sms-control main.py |

Python dictionaries of phones keep insertion order
(`PlatformConfig.Tier`), because `phones_for` and the notification order
depend on it.

The dispatcher and the main loop run the code as written. Two defects are
logged under "## Findings", and each has a corrected definition stated
next to the as-written one, with its intended property proved:

- `GateCtrl.DeleteRightsNormalized` corrects the restriction check of `Rdel`;
- `GateLoop.DenyGuarded` corrects a refusal made before a master exists.

## Model

| member | source | states |
|---|---|---|
| Text.CheckValidText | examples/gate-control/gatectrl.py:35-39 | the character-by-character scan with early exit accepts a text exactly when every character is a digit, a letter, one of `!#+ -.`, or one of the code points 58..64 that the range test lets through |
| Text.ValidTextAdmitsPunctuation | examples/sms-control/smsctrl.py:32-36 | `:;<=>?@` and the empty text pass `valid_text`; `,`, `_` and `*` do not |
| Text.PhoneNrShape | examples/gate-control/gatectrl.py:335-337 | a text `is_phone_nr` accepts is valid text made of a `+` followed only by digits, so the notification queue treats it as a single phone |
| Text.IntToStringRoundTrip | examples/gate-control/gatectrl.py:318-324 | formatting an integer with `'%i'` and parsing it back with `int()` gives the same integer |
| Text.JoinSplit | examples/gate-control/gatectrl.py:120 | joining the fields of any split text with its separator gives the text back: `split` loses nothing |
| Text.SplitJoin | examples/gate-control/gatectrl.py:120 | splitting the join of separator-free fields gives the fields back |
| Text.StripIdempotent | examples/gate-control/gatectrl.py:126-129 | stripping an already stripped text changes nothing |
| Text.UpperIsFolded | examples/gate-control/gatectrl.py:123 | an upper-cased text has no lower-case ASCII letter left, so upper-casing twice is upper-casing once |
| Errors.ReprPlainArg | examples/gate-control/gatectrl.py:155 | an exception raised with a plain printable message is shown as `Name('msg',)`, or with double quotes when the message holds a single quote |
| Rights.DecodeEncode | examples/gate-control/pltconf.py:7-18 | decoding the rights string of a list of tags gives that list back |
| Rights.EncodeDecode | examples/gate-control/pltconf.py:7-18 | a string that decodes is exactly the encoding of its tags, so the string form and the tag-list form are interchangeable |
| Rights.MarkerIffTag | examples/gate-control/pltconf.py:149-150 | the source's substring test for `:X:` in a rights string is membership of X in its tags |
| Rights.AppendMarker | examples/gate-control/pltconf.py:151-152 | appending `:X:` and collapsing `::` appends X to the tag list |
| Rights.RemoveMarker | examples/gate-control/pltconf.py:159 | replacing `:X:` by `:` in a duplicate-free rights string removes X and keeps the other tags in order |
| Rights.DefaultMasterRights | examples/gate-control/pltconf.py:20-22 | the master's default rights string holds every known right, in declaration order |
| Rights.DefaultAdminRights | examples/gate-control/pltconf.py:20-22 | an admin's default rights are every right except `AU`, well formed |
| Rights.DefaultUserRights | examples/gate-control/pltconf.py:20-22 | a user's default rights are `C1` alone, well formed |
| PlatformConfig.CreateConfig | examples/gate-control/pltconf.py:27-75 | a fresh configuration is consistent and has no admins and no users |
| PlatformConfig.DefaultConfigHasNoPhones | examples/gate-control/pltconf.py:27-75 | a fresh configuration is version 1, has no master and no password, and `phones_for` lists nobody for any right |
| PlatformConfig.DefaultAlarmsDisabled | examples/gate-control/pltconf.py:27-75 | the four inputs start in mode `D` |
| PlatformConfig.DefaultOutputModes | examples/gate-control/pltconf.py:24-25 | both outputs start in pulse mode |
| PlatformConfig.DefaultOutputCommands | examples/gate-control/pltconf.py:27-75 | the SMS commands of the outputs are `OUT1` and `OUT2` |
| PlatformConfig.Put | examples/gate-control/pltconf.py:135-142 | storing under a key maps it to the new value, keeps an existing key in place and appends a new key last |
| PlatformConfig.Remove | examples/gate-control/gatectrl.py:186-189 | deleting a key drops it from the map and from the order, and the other keys keep their order |
| PlatformConfig.RemoveUndoesPut | examples/gate-control/gatectrl.py:164-190 | deleting a key just inserted gives the tier back unchanged |
| PlatformConfig.SetValue | examples/gate-control/pltconf.py:100-109 | after `set_value`, `value` reports the new value for that key and the old value for every other key, and the phones are untouched |
| PlatformConfig.GetRights | examples/gate-control/pltconf.py:126-133 | a phone has rights exactly when it is registered, and the admins entry wins over the users entry |
| PlatformConfig.SetRights | examples/gate-control/pltconf.py:135-142 | an unknown phone raises; otherwise the phone then reads the new rights and nothing else changed |
| PlatformConfig.AddRight | examples/gate-control/pltconf.py:144-152 | fails exactly for a phone without rights or an unknown right; a right already held changes nothing; otherwise only this phone's rights string changes |
| PlatformConfig.DelRight | examples/gate-control/pltconf.py:154-159 | fails exactly for a phone without rights or an unknown right; otherwise only this phone's rights string changes |
| PlatformConfig.AddRightInserts | examples/gate-control/pltconf.py:144-152 | on a well-formed rights string, `add_right` is set insertion: the tags become the old tags plus X, with X appended when it was missing |
| PlatformConfig.AddRightIdempotent | examples/gate-control/pltconf.py:144-152 | adding the same right twice is the same as adding it once |
| PlatformConfig.DelRightRemoves | examples/gate-control/pltconf.py:154-159 | on a well-formed rights string, `del_right` is set deletion: X is gone, the other tags keep their order, and an absent X changes nothing |
| PlatformConfig.PhonesFor | examples/gate-control/pltconf.py:162-172 | `phones_for` lists the admins holding the marker and then the users holding it, each tier in insertion order, and no one else |
| PlatformConfig.PhonesForIsReverseIndex | examples/gate-control/pltconf.py:162-172 | with well-formed rights, a phone is listed for X exactly when one of its entries holds the tag X |
| PlatformConfig.PhonesForNoDuplicates | examples/gate-control/pltconf.py:162-172 | when no phone sits in both tiers, no phone is listed twice |
| InAlarm.Init | examples/gate-control/inalarm.py:38-55 | initialisation succeeds exactly when the mode is H, L or D in any case and the timings are integers; the machine starts Off with the flag down |
| InAlarm.InitDisabled | examples/gate-control/inalarm.py:38-55 | mode `D` with integer timings yields a disabled input |
| InAlarm.DefaultInput1Disabled | examples/gate-control/inalarm.py:38-55 | the first input of a fresh configuration starts disabled |
| InAlarm.AlarmSignal | examples/gate-control/inalarm.py:58-64 | the signal is never on in disabled mode; it follows the pin level in mode H and its negation in mode L |
| InAlarm.Update | examples/gate-control/inalarm.py:68-109 | an update keeps the settings, leaves a disabled input untouched, and raises the flag only when moving from Alarm to Idle |
| InAlarm.OffStep | examples/gate-control/inalarm.py:73-80 | from Off, the signal starts an observation stamped now; without it nothing changes |
| InAlarm.ObsStep | examples/gate-control/inalarm.py:82-91 | from Obs, Alarm is reached exactly when the signal holds and strictly more than `obs` seconds have passed; a dropped signal returns to Off |
| InAlarm.AlarmStep | examples/gate-control/inalarm.py:93-98 | from Alarm, the next update always moves to Idle, stamps the idle start and raises the flag |
| InAlarm.IdleStep | examples/gate-control/inalarm.py:100-106 | from Idle, the machine returns to Off exactly when idle reset is on and the signal is gone, or when more than `idl` minutes have passed |
| InAlarm.FlagRaisedOnlyLeavingAlarm | examples/gate-control/inalarm.py:93-98 | the flag rises on an update exactly when an enabled input leaves Alarm with the flag down |
| InAlarm.NotifOnce | examples/gate-control/inalarm.py:113-120 | reading the flag returns it and clears it, changing nothing else |
| InAlarm.NotifReadTwice | examples/gate-control/inalarm.py:113-120 | two reads with no update between them never both report an alarm |
| InAlarm.UpdateKeepsInv | examples/gate-control/inalarm.py:68-109 | while observing or alarmed, no notification is ever pending |
| InAlarm.AlarmLastsOneUpdate | examples/gate-control/inalarm.py:82-98 | Alarm is entered only from Obs and lasts exactly one update, which raises the flag |
| InAlarm.Episode | examples/gate-control/inalarm.py:68-120 | a signal held past the observation time gives Obs, then Alarm, then exactly one notification |
| InAlarm.DisabledNeverNotifies | examples/gate-control/inalarm.py:70-71 | a disabled input never changes and never notifies, whatever its pin does |
| Command.Parse | examples/gate-control/gatectrl.py:119-141 | more than three fields leave the code unbound; the code is the upper-cased first field; the format holds exactly when the code has 1 to max characters and the parameters fit their 20 and 30 character limits |
| Command.ParseJoin | examples/gate-control/gatectrl.py:119-129 | an SMS built from one to three comma-free fields parses back into them: the code folded to upper case, the parameters stripped, missing ones `None` |
| Command.ParseTooManyFields | examples/gate-control/gatectrl.py:121-122 | four or more fields leave the code unbound |
| Command.ParseBareCode | examples/sms-control/smsctrl.py:93-115 | a comma-free SMS has no parameters and passes the format check exactly when its length is admissible |
| Command.Find | examples/gate-control/gatectrl.py:144-157 | the lookup finds the first entry registered under the code, or reports that no entry has it |
| Command.FindAfterRegister | examples/gate-control/gatectrl.py:113-114 | registering never shadows an earlier handler: only a new upper-cased code finds the new entry |
| Command.FindRegisteredAnyCase | examples/sms-control/smsctrl.py:87-88 | a handler registered under a new name is reached by that name typed in any case |
| GateCtrl.RegisterNotifications | examples/gate-control/gatectrl.py:100-110 | an empty or non-text target raises; otherwise the entries are appended after the existing queue |
| GateCtrl.NotifyPhone | examples/gate-control/gatectrl.py:105-106 | a phone-number target queues exactly one entry, for that phone |
| GateCtrl.NotifyRight | examples/gate-control/gatectrl.py:107-110 | a right target queues one entry per holder of the right in `phones_for` order, and a phone is among the recipients exactly when it holds the right |
| GateCtrl.AddUser | examples/gate-control/gatectrl.py:164-178 | succeeds exactly when the sender holds `AU` and the parameter is a new phone number, which is then registered last among the users with rights `:C1:`, all other phones unchanged; each refusal gives its own message and leaves the configuration alone |
| GateCtrl.DeleteUser | examples/gate-control/gatectrl.py:180-190 | succeeds exactly when the sender holds `AU` and the target is not the master admin; the master always stays an admin and other phones are unchanged |
| GateCtrl.AddThenDeleteUser | examples/gate-control/gatectrl.py:164-190 | registering a new phone and then deleting it gives the original configuration back |
| GateCtrl.ListUsers | examples/gate-control/gatectrl.py:192-206 | the listing fails exactly for a sender without `AU` and changes nothing |
| GateCtrl.ViewRights | examples/gate-control/gatectrl.py:215-225 | viewing fails exactly when the parameter is not a phone number and changes nothing |
| GateCtrl.SaveConfig | examples/gate-control/gatectrl.py:208-213 | saving changes nothing, and `REBOOT` in any case raises an exception that `except Exception` does not catch |
| GateCtrl.CheckRightChange | examples/gate-control/gatectrl.py:227-292 | the target and tag checks of `Radd` and `Rdel` pass exactly when the target is registered, only the master touches the master or an admin, and the literal tag `AU`, checked only as typed, is granted or revoked only by a holder |
| GateCtrl.AddRightsGrants | examples/gate-control/gatectrl.py:227-261 | an allowed `Radd` leaves the target holding exactly its old rights plus the requested ones, with a well-formed string |
| GateCtrl.DeleteRightsRevokes | examples/gate-control/gatectrl.py:263-292 | an allowed `Rdel` of known rights leaves the target holding exactly its old rights minus the requested ones |
| GateCtrl.DeleteRightsStopsHalfway | examples/gate-control/gatectrl.py:282-290 | `Rdel` checks no tag up front: a known first tag is revoked before an unknown second one raises, and the change is kept |
| GateCtrl.AddRights | examples/gate-control/gatectrl.py:227-261 | a refused `Radd` changes nothing, and no phone other than the target changes |
| GateCtrl.DeleteRights | examples/gate-control/gatectrl.py:263-292 | `_right_del` as written: a refused `Rdel` changes nothing, and no phone other than the target changes |
| GateCtrl.CheckRightChangeNormalized | examples/gate-control/gatectrl.py:284-288 | the corrected `Rdel` check passes exactly when the source's checks pass and, if any requested tag strips to `AU`, the sender holds `AU`; what it returns is the source's target and tag list |
| GateCtrl.DeleteRightsNormalized | examples/gate-control/gatectrl.py:263-292 | the corrected `Rdel`, stated next to the source's: a refused request changes nothing, and no phone other than the target changes |
| GateCtrl.NormalizedAgrees | examples/gate-control/gatectrl.py:284-288 | the corrected `Rdel` gives the source's result whenever no requested tag strips to `AU` or the sender holds `AU` |
| GateCtrl.NormalizedDeleteKeepsWellFormed | examples/gate-control/gatectrl.py:263-292 | the corrected `Rdel` keeps every rights string well formed |
| GateCtrl.AddStepKeepsAu | examples/gate-control/pltconf.py:144-152 | granting one tag other than `AU` keeps the rights well formed and changes no phone's `AU` |
| GateCtrl.DelStepKeepsAu | examples/gate-control/pltconf.py:154-159 | revoking one tag other than `AU` keeps the rights well formed and changes no phone's `AU` |
| GateCtrl.AddAllKeepsAu | examples/gate-control/gatectrl.py:259-261 | granting a list of tags none of which strips to `AU` changes no phone's `AU` |
| GateCtrl.DelAllKeepsAu | examples/gate-control/gatectrl.py:290-292 | revoking a list of tags none of which strips to `AU` changes no phone's `AU` |
| GateCtrl.NoAuChangeWithoutAu | examples/gate-control/gatectrl.py:284-288 | a sender without `AU` changes no phone's `AU`, through `Radd` or through the corrected `Rdel` |
| GateCtrl.TabbedSlipsThrough | examples/gate-control/gatectrl.py:271 | the parameter `AU<tab> C1` splits into tags of which none is `AU` as typed, although the first strips to `AU` |
| GateCtrl.RdelBypassesAu | examples/gate-control/gatectrl.py:284-292 | as written, such a parameter from an admin without `AU` passes the restriction test and revokes the target's `AU`; the corrected `Rdel` refuses it and changes nothing |
| GateCtrl.SetParam | examples/gate-control/gatectrl.py:308-330 | succeeds exactly for a known parameter other than the master and password with a value of the right kind; a missing parameter raises `NameError`; only that one parameter changes and it keeps its integer-or-text kind |
| GateCtrl.SetParamInt | examples/gate-control/gatectrl.py:318-324 | setting an integer parameter to the decimal text of i stores the integer i |
| GateCtrl.SetParamText | examples/gate-control/gatectrl.py:325-329 | setting a text parameter to a stripped valid text stores that text |
| GateCtrl.SetParamKeepsSecrets | examples/gate-control/gatectrl.py:308-330 | `Pset` never changes the master phone or the password |
| GateCtrl.RunHandler | examples/gate-control/gatectrl.py:164-330 | no handler changes the master, the read-only handlers change nothing, and the master stays an admin |
| GateCtrl.HandlerKeepsRightsWellFormed | examples/gate-control/gatectrl.py:164-330 | whatever a handler does, and wherever it stops, every rights string stays well formed |
| GateCtrl.RunSmsHandler | examples/gate-control/gatectrl.py:116-160 | a dispatch that returns keeps the configuration valid and only appends to the queue; an SMS whose code is unbound always raises; an unknown code leaves the configuration unchanged |
| GateCtrl.DispatchKeepsRightsWellFormed | examples/gate-control/gatectrl.py:116-160 | a dispatch that returns leaves every rights string well formed |
| GateCtrl.GateTableReachesEveryHandler | examples/gate-control/gatectrl.py:65-73 | the nine registered shortcodes are distinct, so each reaches its own handler |
| GateCtrl.DispatchHandled | examples/gate-control/gatectrl.py:144-157 | a registered shortcode runs its handler; on success the sender gets `Done`, on failure the master gets the text and the error and the sender gets `ERROR!` |
| GateCtrl.DispatchUnknownCode | examples/gate-control/gatectrl.py:158-160 | an unknown shortcode reports `Invalid … shortcode!` to the master and `ERROR!` to the sender, with the configuration unchanged |
| GateCtrl.DispatchTooManyFields | examples/gate-control/gatectrl.py:119-146 | an SMS of more than three fields reaches the handler loop with `code` unbound, and the raised `NameError` escapes the dispatcher |
| GateCtrl.FailureReported | examples/gate-control/gatectrl.py:151-156 | with a usable master and sender, the dispatcher reports every exception class a handler can raise, and `SystemExit` escapes |
| GateCtrl.ExceptionReported | examples/gate-control/gatectrl.py:151-156 | with a usable master and sender, any exception that `except Exception` catches is reported |
| GateCtrl.RebootEndsProgram | examples/gate-control/gatectrl.py:144-157 | `Save,reboot` ends the program: `SystemExit` passes through the dispatcher's `except Exception` |
| GateLoop.Start | examples/gate-control/gatectrl.py:400-407 | at power-on the station waits for a first caller exactly when no master is set; otherwise it sends one SMS to the master, starting with the version |
| GateLoop.FreshStationWaitsForMaster | examples/gate-control/gatectrl.py:400-404 | a factory-fresh station sends nothing and waits for its master |
| GateLoop.FirstCallerBecomesMaster | examples/gate-control/gatectrl.py:445-455 | a station waiting for a master makes the first caller master and admin, holding every right, and stops waiting |
| GateLoop.IsOutputAuth | examples/gate-control/gatectrl.py:339-343 | on well-formed rights, output 1 or 2 may be switched exactly by a registered phone whose tag list holds `C1` or `C2` |
| GateLoop.OutputTagHeld | examples/gate-control/gatectrl.py:343 | on well-formed rights, the substring test for `:C1:` or `:C2:` holds exactly when that tag is in the phone's tag list |
| GateLoop.OutputAction | examples/gate-control/gatectrl.py:345-357 | succeeds exactly when `out<n>-mode` is text whose upper-cased form is the pulse or the toggle mode; the mode `P` gives a pulse of output n lasting `out<n>-sec`, and `T` a toggle of output n |
| GateLoop.OutputActionByMode | examples/gate-control/gatectrl.py:347-357 | the mode is read case-blind: `p` pulses, `t` toggles, and an unknown mode raises `Undefined mode` with its upper-cased name |
| GateLoop.IsOutCmd | examples/gate-control/gatectrl.py:359-371 | gives 1 exactly when the upper-cased `out1-cmd` occurs in the stripped, upper-cased first comma field; 2 exactly when it does not and `out2-cmd` does; raises exactly when a command it reaches is not text |
| GateLoop.OutputAuthIffRight | examples/gate-control/gatectrl.py:339-343 | output n may be switched exactly by the registered phones whose rights hold `Cn` |
| GateLoop.OutCmdIgnoresParameters | examples/gate-control/gatectrl.py:359-371 | only the first comma field of an SMS selects an output |
| GateLoop.DefaultOutputsPulse | examples/gate-control/gatectrl.py:345-357 | with the factory configuration both outputs pulse for 3 seconds |
| GateLoop.AuthorizedCallSwitches | examples/gate-control/gatectrl.py:457-465 | a call from a holder of `C1` switches output 1, and exactly the holders of `O1` are told who did it |
| GateLoop.UnauthorizedCallRefused | examples/gate-control/gatectrl.py:457-465 | a call from anyone not allowed to switch output 1 gets `Denied!`, and the reason goes to the master |
| GateLoop.OutputCommandRouted | examples/gate-control/gatectrl.py:480-491 | an output command from a phone allowed to switch that output goes to the output, whoever the sender is |
| GateLoop.OutputStepQueues | examples/gate-control/gatectrl.py:480-491 | an authorised output command thanks the sender, then tells the holders of `O1` which label changed |
| GateLoop.SecondOutputReportsToO1 | examples/gate-control/gatectrl.py:480-491 | an output-2 command reports to the holders of `O1`, not `O2` |
| GateLoop.NonAdminSmsRefused | examples/gate-control/gatectrl.py:493-497 | an SMS that is not an output command, from a phone that is not an admin, is refused and reported to the master |
| GateLoop.SmsWithoutMasterHalts | examples/gate-control/gatectrl.py:493-497 | before a master exists, that refusal indexes `None` and ends the loop |
| GateLoop.DenyGuarded | examples/gate-control/gatectrl.py:488-497 | the corrected refusal changes only the queue |
| GateLoop.DenyGuardedNeverHalts | examples/gate-control/gatectrl.py:488-497 | the corrected refusal of a phone never raises: without a master only the sender gets `Denied!`, and with a master it is the source's refusal |
| GateLoop.OnlyAdminsReconfigure | examples/gate-control/gatectrl.py:475-507 | SMS from phones that are not admins never change the configuration |
| GateLoop.AlarmIdOfPrefix | examples/gate-control/gatectrl.py:512-515 | the alarm of input `in<n>` is numbered n |
| GateLoop.SmsAlarmNotifiesHolders | examples/gate-control/gatectrl.py:532-535 | an SMS-type alarm of input n sends its label to every holder of `In`, in `phones_for` order |
| GateLoop.CallAlarmCallsFirstHolder | examples/gate-control/gatectrl.py:521-531 | a call-type alarm of input n calls the first holder of `In` and queues nothing |
| GateLoop.QuietScan | examples/gate-control/gatectrl.py:509-535 | a scan in which no alarm fired changes nothing |
| GateLoop.QuietPass | examples/gate-control/gatectrl.py:440-548 | a pass with no call, no SMS, no alarm and an empty queue only updates the alarm machines |
| GateLoop.SendResolvesReference | examples/gate-control/gatectrl.py:540-548 | an `@key` entry about a phone is sent as that phone, ` : `, then the current value of parameter `key`, and leaves the queue |
| GateLoop.SendPlainText | examples/gate-control/gatectrl.py:540-548 | a plain entry is sent as queued and leaves the queue |
| SmsCtrl.RegisterMessage | examples/sms-control/smsctrl.py:79-84 | an entry is appended after the existing queue and nothing is sent |
| SmsCtrl.Report | examples/sms-control/smsctrl.py:125-133 | every exception except `SystemExit` is caught, and nothing is sent on the spot |
| SmsCtrl.ReportCatches | examples/sms-control/smsctrl.py:125-133 | a `HandlerError` sends back exactly its text, every other class a handler can raise is reported, and only `SystemExit` escapes |
| SmsCtrl.ReportInternal | examples/sms-control/smsctrl.py:129-133 | an exception other than a `HandlerError` reaches the sender as `ERROR!` followed by its repr |
| SmsCtrl.Conclude | examples/sms-control/smsctrl.py:122-133 | a handler that returns gets `Done` appended; a `HandlerError` gets its text; any other `Exception` gets `ERROR!` and then its repr; only an exception outside `Exception` escapes, unchanged |
| SmsCtrl.RunSmsHandler | examples/sms-control/smsctrl.py:90-136 | an SMS whose format leaves the code unbound can only fail with an unbound-local error, and an unknown code is always answered |
| SmsCtrl.DispatchHandled | examples/sms-control/smsctrl.py:112-134 | an SMS whose code is bound reaches the first handler registered under it, with its two parameters, after an `Invalid format!` reply when the format check failed; then `Done`, the error's text, or `ERROR!` and the repr |
| SmsCtrl.DispatchUnknownCode | examples/sms-control/smsctrl.py:135-136 | a well-formed SMS with an unregistered code gets exactly one `ERROR!` |
| SmsCtrl.DispatchTooManyFields | examples/sms-control/smsctrl.py:93-118 | more than three fields: with any handler registered the unbound code escapes; with none the sender just gets the format error and `ERROR!` |
| SmsCtrl.UnauthorisedDenied | examples/sms-control/smsctrl.py:204-210 | an SMS from a phone `is_auth` refuses only gets `Denied!` |
| SmsCtrl.DefaultAuthDispatches | examples/sms-control/smsctrl.py:145-147 | with the base class's `is_auth`, every SMS goes to the dispatcher |
| SmsCtrl.HandleMsgs | examples/sms-control/smsctrl.py:201-217 | when no sender is authorised, the application's own state never changes |
| SmsCtrl.SendOne | examples/sms-control/smsctrl.py:222-233 | one pass sends the newest entry and removes it from the queue; an empty queue sends nothing |
| SmsCtrl.DrainIsLastInFirstOut | examples/sms-control/smsctrl.py:222-233 | n passes send the last n queued entries newest first and leave the older ones queued in order |
| SmsCtrl.SentAfterRegistering | examples/sms-control/smsctrl.py:79-84 | a reply about another phone is sent as the text, ` : `, then that phone |
| SmsApp.MyTableReachesEveryHandler | examples/sms-control/main.py:26-33 | the eight registered shortcodes are distinct, so each reaches its own handler |
| SmsApp.DispatchUsesMyTable | examples/sms-control/main.py:26-33 | dispatching runs over exactly the table the registrations build |
| SmsApp.SayAnswers | examples/sms-control/main.py:49-55 | a well-formed `say` SMS is answered with the greeting for its parameter, or `Hello`, then `Done` |
| SmsApp.InfoAnswers | examples/sms-control/main.py:58-69 | a well-formed `info` SMS is answered with the two versions, the input levels and the reprs of the parameters, then `Done` |
| SmsApp.ErrorReportsDivision | examples/sms-control/main.py:72-78 | the `error` code always ends in `ERROR!` and the repr of the division by zero, never in its own `HandlerError` |
| SmsApp.PunishTextsTarget | examples/sms-control/main.py:81-88 | `punish` with a phone number queues the punishment for that phone, naming the sender, then `Done` |
| SmsApp.PunishRefusesNonPhone | examples/sms-control/main.py:83-84 | `punish` without a parameter gets the `TypeError` of `len(None)`, and with a non-phone it gets the `HandlerError` message |
| SmsApp.RelayAnswers | examples/sms-control/main.py:91-107 | the relay codes switch by the whole text: relay 1 when it holds a `1`, else relay 2; on or off by `ON` in the upper-cased text; no relay digit raises `NameError` because `HandleError` is not defined |

## Left out

- Modem, SMS, voice and GPIO I/O are not modelled. Each pass's incoming calls, SMS and pin levels are parameters. A sent SMS is a value appended to a list.
- The clock (`time.ticks_ms`) is a parameter. `ticks_diff` wrap-around is not modelled.
- LEDs, `sleep`/`idle`, `power_up`, and call answering and hang-up are not modelled, since they have no effect on the modelled state.
- Loading and saving the configuration file (`json`) and `upgrade_config` are file I/O and are not modelled. `Save` is modelled only through its effect on the program (`REBOOT`).
- `_user_list`, `_right_view` and `_param_list` send their answers directly with `sms.send` and `slice_by`. Only their checks and failures are modelled, not the texts they send.
- `run()`, the wrapper that restarts or halts the application after an exception, is not modelled. A model step that fails returns the exception that ends `_loop`.
- SmsCtrl.SendOne: an `SMSError` while sending is not modelled. The entry is dropped either way, and the station carries on.
- The `main` parameter dictionary is a map with no order, since only the left-out `_param_list` shows its order.
- Text.ReprText: MicroPython's `repr` of a string is modelled for printable ASCII and the `\n`, `\r`, `\t` and `\\` escapes. Every other character is shown escaped (`\xNN`, `\uNNNN`). MicroPython printing printable non-ASCII characters as they are is not modelled.
- Relays are booleans on the board. The basic examples and `lib/station.py` are not part of this model.
- GateCtrl.DeleteRightsRevokes: it covers `Rdel` of known tags only. For unknown tags, DeleteRightsStopsHalfway covers only the two-tag case.
- GateCtrl.AddRights and GateCtrl.DeleteRights: their own contracts state only the refusals and the frame. What an allowed change grants or revokes is stated by AddRightsGrants and DeleteRightsRevokes, on well-formed rights.
- GateCtrl.RunHandler, GateCtrl.RunSmsHandler and SmsCtrl.RunSmsHandler: their own contracts are frame and failure properties. The answers they queue are stated case by case by the Dispatch lemmas.
- Text.ParseInt: Python's `int()` is reduced to an optional sign followed by decimal digits. Underscores between digits, non-ASCII digits and inner whitespace are not modelled.
- GateLoop.OutputAction: the `TypeError` that `time.sleep` raises for a non-integer `out<n>-sec` is not modelled. A pulse carries the parameter's value as it is.
- InAlarm: in the observation state `update` reads the pin twice. The model takes one level per step.

## Findings

| source | as written | input that shows it | evidently intended | confidence | as-written member | corrected member |
|---|---|---|---|---|---|---|
| examples/gate-control/gatectrl.py:271-292 | `_right_del` splits the parameter on spaces only and tests the raw tags for `AU`. `del_right` then strips each tag before revoking it. | `Rdel,<user>,AU<tab> C1` from an admin without `AU`, for a user who holds `AU`: the tags are `AU<tab>` and `C1`, the test misses `AU`, and the user loses `AU` | only a holder of `AU` grants or revokes it (the comment at line 284) | not executed | GateCtrl.RdelBypassesAu | GateCtrl.NoAuChangeWithoutAu |
| examples/gate-control/gatectrl.py:488-497 | a refused SMS is reported to `value('master')` even before a master is set, and `register_notifications` indexes that `None` | an SMS that is not an output command, from a phone that is not an admin, before the first call: `None[0]` raises a `TypeError`, which ends `_loop` | the sender is refused, and the master is told only once there is one | not executed | GateLoop.SmsWithoutMasterHalts | GateLoop.DenyGuardedNeverHalts |

=== FILE: command.dfy ===
/** The SMS command format shared by both applications.

    An SMS `code,param1,param2` is split on commas into at most three
    fields; the code is case-folded, the parameters are stripped. The code
    length bound differs per application, the parameter bounds do not.
    Handlers are kept in a table in registration order under their
    upper-cased shortcode, and the first matching entry is the one run. */
module Command {
  import opened Wrappers
  import opened Text

  const GATE_CODE_MAX := 6
  const SMS_CODE_MAX := 41
  const PARAM1_MAX := 20
  const PARAM2_MAX := 30

  /** The replies both applications send. */
  const DENIED_STR := "Denied!"
  const DONE_STR := "Done"
  const ERROR_STR := "ERROR!"

  /** An SMS read from the modem: the sender and the text. */
  datatype Sms = Sms(phone: string, message: string)

  /** The variables `run_sms_handler` binds while checking the format.
      `code == None` means the code was never bound: the text had more
      than three fields, so the check raised before reaching it.
      `ok` is false exactly when the check raised. */
  datatype Parsed = Parsed(code: Option<string>, p1: Option<string>, p2: Option<string>, ok: bool)

  /** The format check with code-length bound `maxCode`. */
  function Parse(text: string, maxCode: nat): (r: Parsed)
    ensures r.code.None? <==> |Split(text, ',')| > 3
    ensures r.code.None? ==> !r.ok && r.p1.None? && r.p2.None?
    ensures r.code.Some? ==> r.code.value == Upper(Split(text, ',')[0])
    ensures r.ok <==>
      && r.code.Some? && 1 <= |r.code.value| <= maxCode
      && (r.p1.Some? ==> |r.p1.value| <= PARAM1_MAX)
      && (r.p2.Some? ==> |r.p2.value| <= PARAM2_MAX)
  {
    var f := Split(text, ',');
    if |f| > 3 then Parsed(None, None, None, false)
    else
      var code := Upper(f[0]);
      var p1 := if |f| > 1 then Some(Strip(f[1])) else None;
      var p2 := if |f| > 2 then Some(Strip(f[2])) else None;
      var ok := 1 <= |code| <= maxCode
        && (p1.None? || |p1.value| <= PARAM1_MAX)
        && (p2.None? || |p2.value| <= PARAM2_MAX);
      Parsed(Some(code), p1, p2, ok)
  }

  /** A text built from comma-free fields parses back into those fields:
      the first case-folded, the others stripped, absent ones `None`. */
  lemma ParseJoin(fields: seq<string>, maxCode: nat)
    requires 1 <= |fields| <= 3
    requires forall i | 0 <= i < |fields| :: ',' !in fields[i]
    ensures var r := Parse(Join(fields, ','), maxCode);
      && r.code == Some(Upper(fields[0]))
      && r.p1 == (if |fields| > 1 then Some(Strip(fields[1])) else None)
      && r.p2 == (if |fields| > 2 then Some(Strip(fields[2])) else None)
  {
    SplitJoin(fields, ',');
  }

  /** A text with more than three comma-free fields leaves the code
      unbound. */
  lemma ParseTooManyFields(fields: seq<string>, maxCode: nat)
    requires |fields| > 3
    requires forall i | 0 <= i < |fields| :: ',' !in fields[i]
    ensures Parse(Join(fields, ','), maxCode).code.None?
  {
    SplitJoin(fields, ',');
  }

  /** A comma-free text is all code: no parameters, and the format holds
      exactly when the folded text has an admissible length. */
  lemma ParseBareCode(text: string, maxCode: nat)
    requires ',' !in text
    ensures var r := Parse(text, maxCode);
      && r.code == Some(Upper(text)) && r.p1.None? && r.p2.None?
      && (r.ok <==> 1 <= |text| <= maxCode)
  {
    assert IndexOf(text, ',').None?;
  }

  /** The index of the first entry registered under `code`. */
  function Find<H>(table: seq<(string, H)>, code: string): (r: Option<nat>)
    ensures r.None? <==> forall i | 0 <= i < |table| :: table[i].0 != code
    ensures r.Some? ==>
      && r.value < |table| && table[r.value].0 == code
      && forall j | 0 <= j < r.value :: table[j].0 != code
  {
    if |table| == 0 then None
    else if table[0].0 == code then Some(0)
    else match Find(table[1..], code)
      case None => None
      case Some(k) => Some(k + 1)
  }

  /** `register_sms_handler`: the shortcode is stored upper-cased, after
      the entries already there. */
  function Register<H>(table: seq<(string, H)>, code: string, h: H): (r: seq<(string, H)>)
    ensures |r| == |table| + 1 && r[..|table|] == table
  {
    table + [(Upper(code), h)]
  }

  /** Registering never shadows an earlier handler: a code already in the
      table still finds its first entry, a new code finds the new one, and
      every other code finds what it found before. */
  lemma {:induction false} FindAfterRegister<H>(table: seq<(string, H)>, code: string, h: H, probe: string)
    ensures var r := Register(table, code, h);
      Find(r, probe) ==
        if probe == Upper(code) && Find(table, probe).None? then Some(|table|)
        else Find(table, probe)
  {
    var r := Register(table, code, h);
    assert r[|table|] == (Upper(code), h);
    match Find(table, probe)
    case Some(k) =>
      assert r[k] == table[k];
      assert forall j | 0 <= j < k :: r[j] == table[j];
    case None =>
      assert forall j | 0 <= j < |table| :: r[j] == table[j];
  }

  /** A registered handler is reached by its name typed in any case,
      unless an earlier entry already claims that shortcode. */
  lemma FindRegisteredAnyCase<H>(table: seq<(string, H)>, name: string, h: H, typed: string)
    requires Upper(typed) == Upper(name)
    requires Find(table, Upper(name)).None?
    ensures Find(Register(table, name, h), Upper(typed)) == Some(|table|)
  {
    FindAfterRegister(table, name, h, Upper(typed));
  }
}

=== FILE: errors.dfy ===
/** Python exceptions as values.

    A `HandlerError` is the applications' own exception class; every other
    exception (an `assert` that fails, a `KeyError`, a `NameError` from a
    misspelt name, a `TypeError` from a `None` operand) is `Internal`, named
    by its Python class. */
module Errors {
  import opened Text

  datatype Exc =
    | HandlerError(msg: string)
    | Internal(name: string, msg: string)
  {
    /** The class name Python reports. */
    function ClassName(): string {
      match this
      case HandlerError(_) => "HandlerError"
      case Internal(n, _) => n
    }

    /** The single argument the exception was raised with; `'%s' % err`. */
    function Arg(): string {
      match this
      case HandlerError(m) => m
      case Internal(_, m) => m
    }

    /** `'%r' % err` in MicroPython: the class name and the tuple of
        arguments, `Name('arg',)`, or `Name()` for an exception raised
        without an argument (a bare `assert`). */
    function Repr(): string {
      if Arg() == "" then ClassName() + "()" else ClassName() + "(" + ReprText(Arg()) + ",)"
    }
  }

  /** The exceptions the model raises, by class. */
  function AssertionError(): Exc {
    Internal("AssertionError", "")
  }

  function TypeError(msg: string): Exc {
    Internal("TypeError", msg)
  }

  function IndexError(msg: string): Exc {
    Internal("IndexError", msg)
  }

  function KeyError(key: string): Exc {
    Internal("KeyError", key)
  }

  function AttributeError(msg: string): Exc {
    Internal("AttributeError", msg)
  }

  function NameError(name: string): Exc {
    Internal("NameError", "name '" + name + "' isn't defined")
  }

  const NO_LEN_MSG := "object of type 'NoneType' has no len()"
  const DIVIDE_BY_ZERO_MSG := "divide by zero"

  /** `len(None)`. */
  function NoLen(): Exc {
    TypeError(NO_LEN_MSG)
  }

  function ZeroDivisionError(): Exc {
    Internal("ZeroDivisionError", DIVIDE_BY_ZERO_MSG)
  }

  /** A plain `Exception(msg)`. */
  function GenericError(msg: string): Exc {
    Internal("Exception", msg)
  }

  /** What MicroPython raises on reading a local that was never bound. */
  function UnboundLocal(): Exc {
    Internal("NameError", "local variable referenced before assignment")
  }

  /** `sys.exit()`; it derives from `BaseException` only. */
  function SystemExit(): Exc {
    Internal("SystemExit", "")
  }

  /** Whether an `except Exception` clause catches `e`. */
  predicate IsException(e: Exc) {
    e.ClassName() != "SystemExit"
  }

  /** An exception raised with a printable message that holds neither a
      backslash nor a double quote shows that message unescaped: between
      single quotes, or between double quotes when it holds a single
      quote. */
  lemma ReprPlainArg(e: Exc)
    requires e.Arg() != ""
    requires forall i | 0 <= i < |e.Arg()| :: 32 <= e.Arg()[i] as int <= 126 && e.Arg()[i] != '\\' && e.Arg()[i] != '"'
    ensures '\'' !in e.Arg() ==> e.Repr() == e.ClassName() + "('" + e.Arg() + "',)"
    ensures '\'' in e.Arg() ==> e.Repr() == e.ClassName() + "(\"" + e.Arg() + "\",)"
  {
    var n, m := e.ClassName(), e.Arg();
    ReprPlain(m);
    if '\'' in m {
      assert n + "(" + ("\"" + m + "\"") + ",)" == n + "(\"" + m + "\",)";
    } else {
      assert n + "(" + ("'" + m + "'") + ",)" == n + "('" + m + "',)";
    }
  }
}

=== FILE: gatectrl.dfy ===
/** The gate controller's SMS configuration commands (`GateControlApp`).

    An admin sends `CODE,param1,param2`; the code selects one of nine
    handlers. Each handler is a pure function from the configuration, the
    sender and the two parameters to the configuration afterwards and the
    exception it raised, if any: a handler that raises half-way keeps the
    changes it made before. The dispatcher reports the outcome through the
    notification queue, which the main loop drains. */
module GateCtrl {
  import opened Wrappers
  import opened Text
  import opened Errors
  import opened Rights
  import opened PlatformConfig
  import opened Command

  // ---------------------------------------------------------------------
  // The notification queue
  // ---------------------------------------------------------------------

  /** A queued SMS: the recipient, the message (a text, an `@key`
      reference to a parameter, or any parameter value), and the phone the
      message is about. */
  datatype Notif = Notif(to: string, msg: Value, source: Option<string>)

  function EmptyIndex(): Exc {
    IndexError("string index out of range")
  }

  /** One notification per phone, in order. */
  function Fanout(phones: seq<string>, msg: Value, source: Option<string>): (r: seq<Notif>)
    ensures |r| == |phones|
    ensures forall i | 0 <= i < |r| :: r[i] == Notif(phones[i], msg, source)
  {
    seq(|phones|, i requires 0 <= i < |phones| => Notif(phones[i], msg, source))
  }

  /** The recipients of a run of notifications. */
  function Recipients(ns: seq<Notif>): (r: seq<string>)
    ensures |r| == |ns|
    ensures forall i | 0 <= i < |r| :: r[i] == ns[i].to
  {
    seq(|ns|, i requires 0 <= i < |ns| => ns[i].to)
  }

  /** What indexing `target[0]` raises, if anything. */
  function TargetError(target: Value): (r: Option<Exc>)
    ensures r.None? <==> target.Str? && target.s != ""
  {
    if !target.Str? then Some(NotSubscriptable(target))
    else if target.s == "" then Some(EmptyIndex())
    else None
  }

  /** The entries `register_notifications` appends for a non-empty text
      target: a target starting with `+` is a phone and gets one entry;
      any other text is a right and every phone holding it gets one. */
  function Enqueue(c: Config, q: seq<Notif>, target: string, msg: Value, source: Option<string>): (r: seq<Notif>)
    requires c.Valid() && target != ""
    ensures |q| <= |r| && r[..|q|] == q
    ensures forall i | |q| <= i < |r| :: r[i].msg == msg && r[i].source == source
  {
    if target[0] == '+' then q + [Notif(target, msg, source)]
    else q + Fanout(PhonesFor(c, target), msg, source)
  }

  /** `register_notifications(target, msg, source)`: the target is indexed
      first, so a non-text or empty target raises and queues nothing. */
  function RegisterNotifications(c: Config, q: seq<Notif>, target: Value, msg: Value, source: Option<string>)
    : (r: Result<seq<Notif>, Exc>)
    requires c.Valid()
    ensures r.Failure? <==> TargetError(target).Some?
    ensures r.Failure? ==> r.error == TargetError(target).value
    ensures r.Success? ==> r.value == Enqueue(c, q, target.s, msg, source)
  {
    match TargetError(target)
    case Some(e) => Failure(e)
    case None => Success(Enqueue(c, q, target.s, msg, source))
  }

  /** A phone number target queues exactly one entry for that phone. */
  lemma NotifyPhone(c: Config, q: seq<Notif>, phone: string, msg: Value, source: Option<string>)
    requires c.Valid() && IsPhoneNr(phone)
    ensures RegisterNotifications(c, q, Str(phone), msg, source) == Success(q + [Notif(phone, msg, source)])
  {
    PhoneNrShape(phone);
  }

  /** A right target queues one entry per holder of the right, in the
      order of `phones_for`; with well-formed rights, a phone is notified
      exactly when one of its entries holds the right. */
  lemma NotifyRight(c: Config, q: seq<Notif>, x: string, msg: Value, source: Option<string>, p: string)
    requires c.Valid() && RightsWellFormed(c) && IsTag(x) && x[0] != '+'
    ensures RegisterNotifications(c, q, Str(x), msg, source).Success?
    ensures var r := RegisterNotifications(c, q, Str(x), msg, source).value;
      && Recipients(r[|q|..]) == PhonesFor(c, x)
      && (p in Recipients(r[|q|..]) <==>
           || (p in c.admins.rights && x in Tags(c.admins.rights[p]))
           || (p in c.users.rights && x in Tags(c.users.rights[p])))
  {
    var r := RegisterNotifications(c, q, Str(x), msg, source).value;
    assert r[|q|..] == Fanout(PhonesFor(c, x), msg, source);
    PhonesForIsReverseIndex(c, x, p);
  }

  // ---------------------------------------------------------------------
  // Handlers
  // ---------------------------------------------------------------------

  /** The configuration after a handler, and what it raised. */
  datatype HResult = HResult(config: Config, err: Option<Exc>)

  /** The phone's rights contain `:x:`, the test the handlers use. */
  predicate Holds(c: Config, phone: string, x: string) {
    GetRights(c, phone).Some? && IsSubstring(Marker(x), GetRights(c, phone).value)
  }

  /** `':x:' in get_rights(phone)`, which raises for an unknown phone. */
  function HasMarker(c: Config, phone: string, x: string): (r: Result<bool, Exc>)
    ensures r.Failure? <==> !IsRegistered(c, phone)
    ensures r.Failure? ==> r.error == NotIterable()
    ensures r.Success? ==> (r.value <==> Holds(c, phone, x))
  {
    match GetRights(c, phone)
    case None => Failure(NotIterable())
    case Some(s) => Success(IsSubstring(Marker(x), s))
  }

  /** `_save_config`: saving is file output; `REBOOT` in any case ends the
      program with `sys.exit()`, which no `except Exception` catches. */
  function SaveConfig(c: Config, p1: Option<string>): (r: HResult)
    ensures r.config == c
    ensures r.err.Some? <==> p1.Some? && Upper(p1.value) == "REBOOT"
    ensures r.err.Some? ==> !IsException(r.err.value)
  {
    if p1.Some? && Upper(p1.value) == "REBOOT" then HResult(c, Some(SystemExit())) else HResult(c, None)
  }

  /** `_user_add`: a holder of `AU` registers a new phone as a user with
      the default user rights. */
  function AddUser(c: Config, sender: string, p1: Option<string>): (r: HResult)
    requires c.Valid()
    ensures r.config.Valid()
    ensures r.err.None? <==>
      Holds(c, sender, ADD_USER) && p1.Some? && IsPhoneNr(p1.value) && !IsRegistered(c, p1.value)
    ensures r.err.Some? ==> r.config == c
    ensures IsRegistered(c, sender) && !Holds(c, sender, ADD_USER) ==>
      r.err == Some(HandlerError("Requires the ADD_USER right"))
    ensures Holds(c, sender, ADD_USER) && p1.Some? && !IsPhoneNr(p1.value) ==>
      r.err == Some(HandlerError("Invalid phone Number!"))
    ensures Holds(c, sender, ADD_USER) && p1.Some? && IsPhoneNr(p1.value) && IsRegistered(c, p1.value) ==>
      r.err == Some(HandlerError("Already registered!"))
    ensures r.err.None? ==>
      && GetRights(r.config, p1.value) == Some(DEFAULT_USERS)
      && r.config.main == c.main && r.config.admins == c.admins
      && r.config.users.order == c.users.order + [p1.value]
      && forall p | p != p1.value :: GetRights(r.config, p) == GetRights(c, p)
  {
    match HasMarker(c, sender, ADD_USER)
    case Failure(e) => HResult(c, Some(e))
    case Success(ok) =>
      if !ok then HResult(c, Some(HandlerError("Requires the ADD_USER right")))
      else if p1.None? then HResult(c, Some(NoLen()))
      else if !IsPhoneNr(p1.value) then HResult(c, Some(HandlerError("Invalid phone Number!")))
      else if GetRights(c, p1.value).Some? then HResult(c, Some(HandlerError("Already registered!")))
      else HResult(c.(users := Put(c.users, p1.value, DEFAULT_USERS)), None)
  }

  /** The phone `p1` names is the master, and only an admin. */
  predicate IsProtectedMaster(c: Config, p1: Option<string>) {
    && p1.Some? && p1.value !in c.users.rights && p1.value in c.admins.rights
    && Str(p1.value) == ValueOf(c, "master", Null)
  }

  /** `_user_del`: a holder of `AU` removes a phone, users first; the
      master's admin entry is never removed, and an unknown phone (or none)
      is left alone. */
  function DeleteUser(c: Config, sender: string, p1: Option<string>): (r: HResult)
    requires c.Valid()
    ensures r.config.Valid()
    ensures r.err.None? <==> Holds(c, sender, ADD_USER) && !IsProtectedMaster(c, p1)
    ensures r.err.Some? ==> r.config == c
    ensures IsRegistered(c, sender) && !Holds(c, sender, ADD_USER) ==>
      r.err == Some(HandlerError("Requires the ADD_USER right"))
    ensures Holds(c, sender, ADD_USER) && IsProtectedMaster(c, p1) ==>
      r.err == Some(HandlerError("Cannot delete Master!"))
    ensures r.err.None? && p1.Some? ==>
      && p1.value !in r.config.users.rights
      && (p1.value !in c.users.rights ==> !IsRegistered(r.config, p1.value))
    ensures r.config.main == c.main
    ensures forall p | p1 != Some(p) :: GetRights(r.config, p) == GetRights(c, p)
    ensures forall p | Str(p) == ValueOf(c, "master", Null) && p in c.admins.rights :: p in r.config.admins.rights
  {
    match HasMarker(c, sender, ADD_USER)
    case Failure(e) => HResult(c, Some(e))
    case Success(ok) =>
      if !ok then HResult(c, Some(HandlerError("Requires the ADD_USER right")))
      else if p1.None? then HResult(c, None)
      else
        var p := p1.value;
        if p in c.users.rights then HResult(c.(users := Remove(c.users, p)), None)
        else if p in c.admins.rights then
          if Str(p) == ValueOf(c, "master", Null) then HResult(c, Some(HandlerError("Cannot delete Master!")))
          else HResult(c.(admins := Remove(c.admins, p)), None)
        else HResult(c, None)
  }

  /** `_user_list`: only the `AU` check can fail; the listing is sent
      directly. */
  function ListUsers(c: Config, sender: string): (r: HResult)
    ensures r.config == c
    ensures r.err.None? <==> Holds(c, sender, ADD_USER)
    ensures IsRegistered(c, sender) && !Holds(c, sender, ADD_USER) ==>
      r.err == Some(HandlerError("Requires the ADD_USER right"))
  {
    match HasMarker(c, sender, ADD_USER)
    case Failure(e) => HResult(c, Some(e))
    case Success(ok) =>
      if ok then HResult(c, None) else HResult(c, Some(HandlerError("Requires the ADD_USER right")))
  }

  /** `_right_view`: only the phone check can fail; the answer is sent
      directly. */
  function ViewRights(c: Config, p1: Option<string>): (r: HResult)
    ensures r.config == c
    ensures r.err.None? <==> p1.Some? && IsPhoneNr(p1.value)
    ensures p1.Some? && !IsPhoneNr(p1.value) ==> r.err == Some(HandlerError("Invalid phone Number!"))
  {
    if p1.None? then HResult(c, Some(NoLen()))
    else if !IsPhoneNr(p1.value) then HResult(c, Some(HandlerError("Invalid phone Number!")))
    else HResult(c, None)
  }

  // ---------------------------------------------------------------------
  // _right_add / _right_del
  // ---------------------------------------------------------------------

  /** `param1.upper().strip().split(' ')`. */
  function RequestedTags(p: string): seq<string> {
    Split(Strip(Upper(p)), ' ')
  }

  /** The first requested tag that is not a known right. */
  function FirstUnknown(tags: seq<string>): (r: Option<string>)
    ensures r.None? <==> forall i | 0 <= i < |tags| :: tags[i] in ALL_RIGHTS
    ensures r.Some? ==> r.value in tags && r.value !in ALL_RIGHTS
  {
    if |tags| == 0 then None
    else if tags[0] !in ALL_RIGHTS then Some(tags[0])
    else FirstUnknown(tags[1..])
  }

  /** Only the master may change the master's or an admin's rights. */
  predicate MayChangeRightsOf(c: Config, sender: string, target: string) {
    var master := ValueOf(c, "master", Null);
    Str(sender) == master || (Str(target) != master && target !in c.admins.rights)
  }

  /** The target checks of `_right_add` and `_right_del`: the target
      must be registered (the `HandleError` typo turns that refusal into a
      `NameError`), and only the master may change the master or an
      admin. */
  function CheckTarget(c: Config, sender: string, p0: Option<string>): (r: Result<string, Exc>)
    ensures r.Success? <==> p0.Some? && IsRegistered(c, p0.value) && MayChangeRightsOf(c, sender, p0.value)
    ensures r.Success? ==> r.value == p0.value
    ensures p0.Some? && IsRegistered(c, p0.value) && !MayChangeRightsOf(c, sender, p0.value) ==>
      r == Failure(HandlerError(DENIED_STR))
  {
    if p0.None? || GetRights(c, p0.value).None? then Failure(NameError("HandleError"))
    else
      var target := p0.value;
      var master := ValueOf(c, "master", Null);
      if Str(target) == master && Str(sender) != master then Failure(HandlerError(DENIED_STR))
      else if target in c.admins.rights && Str(sender) != master then Failure(HandlerError(DENIED_STR))
      else Success(target)
  }

  /** The tag checks: with `known` (for `_right_add`) every tag must be a
      right, and only a holder of `AU` may pass `AU` on or take it away. */
  predicate TagsAllowed(c: Config, sender: string, tags: seq<string>, known: bool) {
    && (known ==> forall i | 0 <= i < |tags| :: tags[i] in ALL_RIGHTS)
    && (ADD_USER in tags ==> Holds(c, sender, ADD_USER))
  }

  function CheckTags(c: Config, sender: string, tags: seq<string>, known: bool): (r: Option<Exc>)
    ensures r.None? <==> TagsAllowed(c, sender, tags, known)
    ensures known && FirstUnknown(tags).Some? ==> r == Some(HandlerError("Invalid right " + FirstUnknown(tags).value + "!"))
    ensures (known ==> FirstUnknown(tags).None?) && ADD_USER in tags && IsRegistered(c, sender) && !Holds(c, sender, ADD_USER) ==>
      r == Some(HandlerError("User does own the AU right"))
  {
    if known && FirstUnknown(tags).Some? then Some(HandlerError("Invalid right " + FirstUnknown(tags).value + "!"))
    else if ADD_USER in tags then
      match HasMarker(c, sender, ADD_USER)
      case Failure(e) => Some(e)
      case Success(ok) => if ok then None else Some(HandlerError("User does own the AU right"))
    else None
  }

  /** Everything `_right_add` (with `known`) and `_right_del` check before
      changing a right. */
  predicate RightChangeAllowed(c: Config, sender: string, p0: Option<string>, p1: Option<string>, known: bool) {
    && p0.Some? && p1.Some? && IsRegistered(c, p0.value)
    && MayChangeRightsOf(c, sender, p0.value)
    && TagsAllowed(c, sender, RequestedTags(p1.value), known)
  }

  /** All checks, in the source's order, giving the target and the tags. */
  function CheckRightChange(c: Config, sender: string, p0: Option<string>, p1: Option<string>, known: bool)
    : (r: Result<(string, seq<string>), Exc>)
    ensures r.Success? <==> RightChangeAllowed(c, sender, p0, p1, known)
    ensures r.Success? ==> r.value == (p0.value, RequestedTags(p1.value))
  {
    if p1.None? then Failure(NoUpper(Null))
    else
      var tags := RequestedTags(p1.value);
      match CheckTarget(c, sender, p0)
      case Failure(e) => Failure(e)
      case Success(target) =>
        match CheckTags(c, sender, tags, known)
        case Some(e) => Failure(e)
        case None => Success((target, tags))
  }

  /** The tags as `add_right`/`del_right` normalise them. */
  function NormalizeAll(tags: seq<string>): (r: seq<string>)
    ensures |r| == |tags|
    ensures forall i | 0 <= i < |r| :: r[i] == NormalizeTag(tags[i])
  {
    seq(|tags|, i requires 0 <= i < |tags| => NormalizeTag(tags[i]))
  }

  /** A phone keeps a non-empty rights string through `add_right`... */
  lemma AddRightKeepsRights(c: Config, target: string, tag: string)
    requires c.Valid() && AddRight(c, target, tag).Success?
    ensures HasRights(AddRight(c, target, tag).value, target)
  {
    var s := GetRights(c, target).value;
    var m := Marker(NormalizeTag(tag));
    if !IsSubstring(m, s) {
      ReplaceNonEmpty(s + m, "::", ":");
    }
  }

  /** ...and through `del_right`. */
  lemma DelRightKeepsRights(c: Config, target: string, tag: string)
    requires c.Valid() && DelRight(c, target, tag).Success?
    ensures HasRights(DelRight(c, target, tag).value, target)
  {
    ReplaceNonEmpty(GetRights(c, target).value, Marker(NormalizeTag(tag)), ":");
  }

  /** `for right in rights: add_right(target, right)`: stops at the first
      assertion that fails, keeping what was added before. */
  function AddAll(c: Config, target: string, tags: seq<string>): (r: HResult)
    requires c.Valid()
    ensures r.config.Valid() && r.config.main == c.main
    ensures forall p | p != target :: GetRights(r.config, p) == GetRights(c, p)
    ensures r.config.admins.rights.Keys == c.admins.rights.Keys && r.config.users.rights.Keys == c.users.rights.Keys
    ensures r.err.Some? ==> r.err == Some(AssertionError())
    ensures HasRights(c, target) && (forall i | 0 <= i < |tags| :: NormalizeTag(tags[i]) in ALL_RIGHTS) ==>
      r.err.None? && HasRights(r.config, target)
    decreases |tags|
  {
    if |tags| == 0 then HResult(c, None)
    else match AddRight(c, target, tags[0])
      case Failure(e) => HResult(c, Some(e))
      case Success(c1) =>
        AddRightKeepsRights(c, target, tags[0]);
        AddAll(c1, target, tags[1..])
  }

  /** `for right in rights: del_right(target, right)`: stops at the first
      assertion that fails, keeping what was removed before. */
  function DelAll(c: Config, target: string, tags: seq<string>): (r: HResult)
    requires c.Valid()
    ensures r.config.Valid() && r.config.main == c.main
    ensures forall p | p != target :: GetRights(r.config, p) == GetRights(c, p)
    ensures r.config.admins.rights.Keys == c.admins.rights.Keys && r.config.users.rights.Keys == c.users.rights.Keys
    ensures r.err.Some? ==> r.err == Some(AssertionError())
    ensures HasRights(c, target) && (forall i | 0 <= i < |tags| :: NormalizeTag(tags[i]) in ALL_RIGHTS) ==>
      r.err.None? && HasRights(r.config, target)
    decreases |tags|
  {
    if |tags| == 0 then HResult(c, None)
    else match DelRight(c, target, tags[0])
      case Failure(e) => HResult(c, Some(e))
      case Success(c1) =>
        DelRightKeepsRights(c, target, tags[0]);
        DelAll(c1, target, tags[1..])
  }

  /** `_right_add`: grant the requested rights once every check passed. */
  function AddRights(c: Config, sender: string, p0: Option<string>, p1: Option<string>): (r: HResult)
    requires c.Valid()
    ensures r.config.Valid() && r.config.main == c.main
    ensures !RightChangeAllowed(c, sender, p0, p1, true) ==> r.config == c && r.err.Some?
    ensures forall p | p0 != Some(p) :: GetRights(r.config, p) == GetRights(c, p)
  {
    match CheckRightChange(c, sender, p0, p1, true)
    case Failure(e) => HResult(c, Some(e))
    case Success(v) => AddAll(c, v.0, v.1)
  }

  /** `_right_del`: revoke the requested rights once the checks passed;
      the tags are not validated up front. */
  function DeleteRights(c: Config, sender: string, p0: Option<string>, p1: Option<string>): (r: HResult)
    requires c.Valid()
    ensures r.config.Valid() && r.config.main == c.main
    ensures !RightChangeAllowed(c, sender, p0, p1, false) ==> r.config == c && r.err.Some?
    ensures forall p | p0 != Some(p) :: GetRights(r.config, p) == GetRights(c, p)
  {
    match CheckRightChange(c, sender, p0, p1, false)
    case Failure(e) => HResult(c, Some(e))
    case Success(v) => DelAll(c, v.0, v.1)
  }

  // ---------------------------------------------------------------------
  // _param_list / _param_set
  // ---------------------------------------------------------------------

  /** `_param_list` sends the listing directly and cannot fail. */
  function ListParams(c: Config): (r: HResult)
  {
    HResult(c, None)
  }

  /** What `_param_set` accepts: a known parameter other than the master
      phone and the password, and a value of the stored value's kind. */
  predicate ParamAccepted(c: Config, p0: Option<string>, p1: Option<string>) {
    && p0.Some? && p1.Some?
    && var name := Strip(p0.value);
    && name in c.main && name != "master" && name != "pswd"
    && (c.main[name].Int? ==> ParseInt(Strip(p1.value)).Some?)
    && (!c.main[name].Int? ==> ValidText(Strip(p1.value)))
  }

  /** `_param_set`. The missing-parameter test calls the undefined
      `HandleError`, which raises a `NameError`. */
  function SetParam(c: Config, p0: Option<string>, p1: Option<string>): (r: HResult)
    ensures r.err.None? <==> ParamAccepted(c, p0, p1)
    ensures r.err.Some? ==> r.config == c
    ensures p0.None? || p1.None? ==> r.err == Some(NameError("HandleError"))
    ensures p0.Some? && p1.Some? && Strip(p0.value) !in c.main ==>
      r.err == Some(HandlerError("Invalid " + Strip(p0.value) + " parameter name"))
    ensures r.err.None? ==>
      && r.config.admins == c.admins && r.config.users == c.users
      && r.config.main.Keys == c.main.Keys
      && (forall k, d | k != Strip(p0.value) :: ValueOf(r.config, k, d) == ValueOf(c, k, d))
      && (forall k | k in c.main :: r.config.main[k].Int? <==> c.main[k].Int?)
  {
    if p0.None? || p1.None? then HResult(c, Some(NameError("HandleError")))
    else
      var name := Strip(p0.value);
      if name !in c.main then HResult(c, Some(HandlerError("Invalid " + name + " parameter name")))
      else if name == "master" || name == "pswd" then HResult(c, Some(HandlerError("forbidden " + name + " parameter name")))
      else
        var v := Strip(p1.value);
        if c.main[name].Int? then
          match ParseInt(v)
          case None => HResult(c, Some(HandlerError("integer value expected!")))
          case Some(i) => HResult(SetValue(c, name, Int(i)), None)
        else if !ValidText(v) then HResult(c, Some(HandlerError("Valid text expected!")))
        else HResult(SetValue(c, name, Str(v)), None)
  }

  /** Handlers never touch the master phone or the password. */
  lemma SetParamKeepsSecrets(c: Config, p0: Option<string>, p1: Option<string>, d: Value)
    ensures ValueOf(SetParam(c, p0, p1).config, "master", d) == ValueOf(c, "master", d)
    ensures ValueOf(SetParam(c, p0, p1).config, "pswd", d) == ValueOf(c, "pswd", d)
  {
  }

  // ---------------------------------------------------------------------
  // The handler table and the dispatcher
  // ---------------------------------------------------------------------

  datatype Handler = Save | UAdd | UDel | UList | RView | RAdd | RDel | PList | PSet

  /** The registrations of `__init__`, in order. */
  function GateTable(): seq<(string, Handler)> {
    var t := Register([], "Save", Save);
    var t := Register(t, "UAdd", UAdd);
    var t := Register(t, "UDel", UDel);
    var t := Register(t, "Ulist", UList);
    var t := Register(t, "Rview", RView);
    var t := Register(t, "Radd", RAdd);
    var t := Register(t, "Rdel", RDel);
    var t := Register(t, "Plist", PList);
    Register(t, "Pset", PSet)
  }

  /** Run handler `h` for an SMS from `sender` with parameters `p1`,
      `p2`. */
  function RunHandler(h: Handler, c: Config, sender: string, p1: Option<string>, p2: Option<string>): (r: HResult)
    requires c.Valid()
    ensures r.config.Valid()
    ensures ValueOf(r.config, "master", Null) == ValueOf(c, "master", Null)
    ensures h in {Save, UList, RView, PList} ==> r.config == c
    ensures forall p | Str(p) == ValueOf(c, "master", Null) && p in c.admins.rights :: p in r.config.admins.rights
  {
    match h
    case Save => SaveConfig(c, p1)
    case UAdd => AddUser(c, sender, p1)
    case UDel => DeleteUser(c, sender, p1)
    case UList => ListUsers(c, sender)
    case RView => ViewRights(c, p1)
    case RAdd => AddRights(c, sender, p1, p2)
    case RDel => DeleteRights(c, sender, p1, p2)
    case PList => ListParams(c)
    case PSet =>
      SetParamKeepsSecrets(c, p1, p2, Null);
      SetParam(c, p1, p2)
  }

  /** The application state the dispatcher works on. */
  datatype App = App(config: Config, queue: seq<Notif>)

  /** The `except` branch of the dispatcher: the text and the error go to
      the master, `ERROR!` to the sender. `SystemExit` is not caught. */
  function ReportFailure(c: Config, q: seq<Notif>, phone: string, text: string, e: Exc): (r: Result<seq<Notif>, Exc>)
    requires c.Valid()
    ensures !IsException(e) ==> r == Failure(e)
    ensures r.Success? ==> |q| <= |r.value| && r.value[..|q|] == q
  {
    var master := ValueOf(c, "master", Null);
    if !IsException(e) then Failure(e)
    else match TargetError(master)
      case Some(x) => Failure(x)
      case None =>
        var q1 := Enqueue(c, q, master.s, Str("Fail! : " + text), Some(phone));
        var q2 := Enqueue(c, q1, master.s, Str(e.Repr()), Some(phone));
        if phone == "" then Failure(EmptyIndex())
        else Success(Enqueue(c, q2, phone, Str(ERROR_STR), None))
  }

  /** With a usable master and a sender, the dispatcher's `except
      Exception` reports every class a handler can raise, and lets
      `SystemExit` (the `Reboot` handler's soft reset) escape. */
  lemma FailureReported(c: Config, q: seq<Notif>, phone: string, text: string, msg: string)
    requires c.Valid() && TargetError(ValueOf(c, "master", Null)).None? && phone != ""
    ensures ReportFailure(c, q, phone, text, HandlerError(msg)).Success?
    ensures ReportFailure(c, q, phone, text, AssertionError()).Success?
    ensures ReportFailure(c, q, phone, text, TypeError(msg)).Success?
    ensures ReportFailure(c, q, phone, text, IndexError(msg)).Success?
    ensures ReportFailure(c, q, phone, text, KeyError(msg)).Success?
    ensures ReportFailure(c, q, phone, text, AttributeError(msg)).Success?
    ensures ReportFailure(c, q, phone, text, NameError(msg)).Success?
    ensures ReportFailure(c, q, phone, text, ZeroDivisionError()).Success?
    ensures ReportFailure(c, q, phone, text, GenericError(msg)).Success?
    ensures ReportFailure(c, q, phone, text, UnboundLocal()).Success?
    ensures ReportFailure(c, q, phone, text, SystemExit()) == Failure(SystemExit())
  {
    forall e | IsException(e)
      ensures ReportFailure(c, q, phone, text, e).Success?
    {
      ExceptionReported(c, q, phone, text, e);
    }
  }

  /** Any exception is reported once the master and the sender are usable. */
  lemma ExceptionReported(c: Config, q: seq<Notif>, phone: string, text: string, e: Exc)
    requires c.Valid() && TargetError(ValueOf(c, "master", Null)).None? && phone != ""
    requires IsException(e)
    ensures ReportFailure(c, q, phone, text, e).Success?
  {
  }

  /** A handler ran: `Done` to the sender, or the failure report. Queuing
      `Done` sits inside the `try`, so if it raises, that is reported as
      the handler's failure. */
  function Matched(c: Config, q: seq<Notif>, phone: string, text: string, h: HResult): (r: Result<App, Exc>)
    requires h.config.Valid()
    ensures r.Success? ==> r.value.config == h.config
    ensures r.Success? ==> |q| <= |r.value.queue| && r.value.queue[..|q|] == q
  {
    if h.err.None? && phone != "" then Success(App(h.config, Enqueue(h.config, q, phone, Str(DONE_STR), None)))
    else
      var e := if h.err.Some? then h.err.value else EmptyIndex();
      match ReportFailure(h.config, q, phone, text, e)
      case Failure(x) => Failure(x)
      case Success(q1) => Success(App(h.config, q1))
  }

  /** No handler has the code: the master hears of it, the sender gets
      `ERROR!`. */
  function Unmatched(c: Config, q: seq<Notif>, phone: string, code: string): (r: Result<App, Exc>)
    requires c.Valid()
    ensures r.Success? ==> r.value.config == c
    ensures r.Success? ==> |q| <= |r.value.queue| && r.value.queue[..|q|] == q
  {
    var master := ValueOf(c, "master", Null);
    match TargetError(master)
    case Some(x) => Failure(x)
    case None =>
      var q1 := Enqueue(c, q, master.s, Str("Invalid " + code + " shortcode!"), Some(phone));
      if phone == "" then Failure(EmptyIndex())
      else Success(App(c, Enqueue(c, q1, phone, Str(ERROR_STR), None)))
  }

  /** `run_sms_handler` over the handler table `table` for an SMS `text`
      from `phone`. A failure is an exception escaping to the main loop,
      which halts the program. A format error is reported and the code is
      dispatched all the same; a text with more than three fields leaves
      the code unbound, and reading it raises. */
  function RunSmsHandler(a: App, table: seq<(string, Handler)>, phone: string, text: string): (r: Result<App, Exc>)
    requires a.config.Valid()
    ensures r.Success? ==> r.value.config.Valid()
    ensures r.Success? ==> |a.queue| <= |r.value.queue| && r.value.queue[..|a.queue|] == a.queue
    ensures Parse(text, GATE_CODE_MAX).code.None? ==> r.Failure?
    ensures var p := Parse(text, GATE_CODE_MAX);
      r.Success? && p.code.Some? && Find(table, p.code.value).None? ==> r.value.config == a.config
  {
    var p := Parse(text, GATE_CODE_MAX);
    if !p.ok && phone == "" then Failure(EmptyIndex())
    else
      var q0 := if p.ok then a.queue else Enqueue(a.config, a.queue, phone, Str("Invalid format!"), None);
      if p.code.None? then Failure(UnboundLocal())
      else
        match Find(table, p.code.value)
        case None => Unmatched(a.config, q0, phone, p.code.value)
        case Some(i) => Matched(a.config, q0, phone, text, RunHandler(table[i].1, a.config, phone, p.p1, p.p2))
  }

  // ---------------------------------------------------------------------
  // Properties of the handlers
  // ---------------------------------------------------------------------

  /** A phone target is a single entry. */
  lemma EnqueuePhone(c: Config, q: seq<Notif>, phone: string, msg: Value, source: Option<string>)
    requires c.Valid() && IsPhoneNr(phone)
    ensures phone != "" && Enqueue(c, q, phone, msg, source) == q + [Notif(phone, msg, source)]
  {
    PhoneNrShape(phone);
  }

  /** Registering a new phone and deleting it again restores the
      configuration; in between the phone holds exactly `C1`. */
  lemma AddThenDeleteUser(c: Config, sender: string, p: string)
    requires c.Valid() && Holds(c, sender, ADD_USER) && IsPhoneNr(p) && !IsRegistered(c, p)
    ensures var a := AddUser(c, sender, Some(p));
      && a.err.None?
      && WellFormed(GetRights(a.config, p).value) && Tags(GetRights(a.config, p).value) == [CAN_OUT1]
      && DeleteUser(a.config, sender, Some(p)) == HResult(c, None)
  {
    DefaultUserRights();
    var a := AddUser(c, sender, Some(p));
    assert sender != p;
    assert GetRights(a.config, sender) == GetRights(c, sender);
    RemoveUndoesPut(c.users, p, DEFAULT_USERS);
  }

  /** A known right is its own normal form. */
  lemma KnownNormalized(x: string)
    requires x in ALL_RIGHTS
    ensures NormalizeTag(x) == x
  {
    NormalizedIsTag(x);
    StripUnchanged(x);
  }

  /** The tags a phone with well-formed rights holds. */
  function TagsOf(c: Config, phone: string): seq<string>
    requires HasRights(c, phone) && WellFormed(GetRights(c, phone).value)
  {
    Tags(GetRights(c, phone).value)
  }

  /** Rights that are there and well formed, as the folds need them. */
  ghost predicate GoodRights(c: Config, phone: string) {
    c.Valid() && HasRights(c, phone) && WellFormed(GetRights(c, phone).value)
  }

  /** One `add_right` of a known tag, seen as a set operation. */
  lemma AddStep(c: Config, target: string, tag: string)
    requires GoodRights(c, target) && NormalizeTag(tag) in ALL_RIGHTS
    ensures AddRight(c, target, tag).Success?
    ensures var c1 := AddRight(c, target, tag).value;
      && GoodRights(c1, target)
      && forall x :: x in TagsOf(c1, target) <==> x in TagsOf(c, target) || x == NormalizeTag(tag)
  {
    AddRightInserts(c, target, tag);
    AddRightIdempotent(c, target, tag);
  }

  /** One `del_right` of a known tag, seen as a set operation. */
  lemma DelStep(c: Config, target: string, tag: string)
    requires GoodRights(c, target) && NormalizeTag(tag) in ALL_RIGHTS
    ensures DelRight(c, target, tag).Success?
    ensures var c1 := DelRight(c, target, tag).value;
      && GoodRights(c1, target)
      && forall x :: x in TagsOf(c1, target) <==> x in TagsOf(c, target) && x != NormalizeTag(tag)
  {
    DelRightRemoves(c, target, tag);
    DelRightKeepsRights(c, target, tag);
  }

  lemma KnownTail(tags: seq<string>)
    requires |tags| > 0 && forall i | 0 <= i < |tags| :: NormalizeTag(tags[i]) in ALL_RIGHTS
    ensures forall i | 0 <= i < |tags[1..]| :: NormalizeTag(tags[1..][i]) in ALL_RIGHTS
    ensures NormalizeAll(tags) == [NormalizeTag(tags[0])] + NormalizeAll(tags[1..])
  {
    forall i | 0 <= i < |tags[1..]| ensures NormalizeTag(tags[1..][i]) in ALL_RIGHTS {
      assert tags[1..][i] == tags[i + 1];
    }
  }

  /** On well-formed rights, granting known tags one after the other is
      set union. */
  lemma {:induction false} AddAllGrants(c: Config, target: string, tags: seq<string>)
    requires GoodRights(c, target)
    requires forall i | 0 <= i < |tags| :: NormalizeTag(tags[i]) in ALL_RIGHTS
    ensures var r := AddAll(c, target, tags);
      && r.err.None? && GoodRights(r.config, target)
      && forall x :: x in TagsOf(r.config, target) <==> x in TagsOf(c, target) || x in NormalizeAll(tags)
    decreases |tags|
  {
    if |tags| > 0 {
      AddStep(c, target, tags[0]);
      var c1 := AddRight(c, target, tags[0]).value;
      KnownTail(tags);
      AddAllGrants(c1, target, tags[1..]);
      assert AddAll(c, target, tags) == AddAll(c1, target, tags[1..]);
    }
  }

  /** On well-formed rights, revoking known tags one after the other is
      set difference. */
  lemma {:induction false} DelAllRevokes(c: Config, target: string, tags: seq<string>)
    requires GoodRights(c, target)
    requires forall i | 0 <= i < |tags| :: NormalizeTag(tags[i]) in ALL_RIGHTS
    ensures var r := DelAll(c, target, tags);
      && r.err.None? && GoodRights(r.config, target)
      && forall x :: x in TagsOf(r.config, target) <==> x in TagsOf(c, target) && x !in NormalizeAll(tags)
    decreases |tags|
  {
    if |tags| > 0 {
      DelStep(c, target, tags[0]);
      var c1 := DelRight(c, target, tags[0]).value;
      KnownTail(tags);
      DelAllRevokes(c1, target, tags[1..]);
      assert DelAll(c, target, tags) == DelAll(c1, target, tags[1..]);
    }
  }

  /** The checks passed: the change reaches the folds with the requested
      tags. */
  lemma AllowedChangeRuns(c: Config, sender: string, target: string, p1: string, known: bool)
    requires RightChangeAllowed(c, sender, Some(target), Some(p1), known)
    ensures CheckRightChange(c, sender, Some(target), Some(p1), known) == Success((target, RequestedTags(p1)))
  {
  }

  /** An allowed `Radd` grants exactly the requested rights on top of the
      ones the target held. */
  lemma AddRightsGrants(c: Config, sender: string, target: string, p1: string)
    requires RightChangeAllowed(c, sender, Some(target), Some(p1), true) && GoodRights(c, target)
    ensures var r := AddRights(c, sender, Some(target), Some(p1));
      && r.err.None? && GoodRights(r.config, target)
      && forall x :: x in TagsOf(r.config, target) <==> x in TagsOf(c, target) || x in RequestedTags(p1)
  {
    var tags := RequestedTags(p1);
    AllowedChangeRuns(c, sender, target, p1, true);
    forall i | 0 <= i < |tags| ensures NormalizeTag(tags[i]) == tags[i] {
      KnownNormalized(tags[i]);
    }
    assert NormalizeAll(tags) == tags;
    AddAllGrants(c, target, tags);
  }

  /** An allowed `Rdel` of known rights takes exactly those away. */
  lemma DeleteRightsRevokes(c: Config, sender: string, target: string, p1: string)
    requires RightChangeAllowed(c, sender, Some(target), Some(p1), false) && GoodRights(c, target)
    requires forall i | 0 <= i < |RequestedTags(p1)| :: RequestedTags(p1)[i] in ALL_RIGHTS
    ensures var r := DeleteRights(c, sender, Some(target), Some(p1));
      && r.err.None? && GoodRights(r.config, target)
      && forall x :: x in TagsOf(r.config, target) <==> x in TagsOf(c, target) && x !in RequestedTags(p1)
  {
    var tags := RequestedTags(p1);
    AllowedChangeRuns(c, sender, target, p1, false);
    forall i | 0 <= i < |tags| ensures NormalizeTag(tags[i]) == tags[i] {
      KnownNormalized(tags[i]);
    }
    assert NormalizeAll(tags) == tags;
    DelAllRevokes(c, target, tags);
  }

  /** `Rdel` checks no tag up front: a known first tag is revoked before
      the unknown second one fails its assertion, and the revocation
      stays. */
  lemma DeleteRightsStopsHalfway(c: Config, sender: string, target: string, p1: string)
    requires c.Valid() && RightChangeAllowed(c, sender, Some(target), Some(p1), false) && HasRights(c, target)
    requires |RequestedTags(p1)| == 2
    requires NormalizeTag(RequestedTags(p1)[0]) in ALL_RIGHTS && NormalizeTag(RequestedTags(p1)[1]) !in ALL_RIGHTS
    ensures var r := DeleteRights(c, sender, Some(target), Some(p1));
      && r.err == Some(AssertionError())
      && DelRight(c, target, RequestedTags(p1)[0]).Success?
      && r.config == DelRight(c, target, RequestedTags(p1)[0]).value
  {
    var tags := RequestedTags(p1);
    AllowedChangeRuns(c, sender, target, p1, false);
    DelRightKeepsRights(c, target, tags[0]);
    var c1 := DelRight(c, target, tags[0]).value;
    assert tags[1..][0] == tags[1];
    assert DelAll(c, target, tags) == DelAll(c1, target, tags[1..]);
    assert DelAll(c1, target, tags[1..]) == HResult(c1, Some(AssertionError()));
  }

  /** `Pset` of an integer parameter to a formatted integer stores that
      integer. */
  lemma SetParamInt(c: Config, name: string, i: int)
    requires name in c.main && c.main[name].Int? && name != "master" && name != "pswd"
    requires Strip(name) == name
    ensures var r := SetParam(c, Some(name), Some(IntToString(i)));
      r.err.None? && ValueOf(r.config, name, Null) == Int(i)
  {
    var t := IntToString(i);
    var n := if i < 0 then -i else i;
    var d := NatToString(n);
    assert t[|t| - 1] == d[|d| - 1];
    StripUnchanged(t);
    IntToStringRoundTrip(i);
  }

  /** `Pset` of a text parameter to a valid stripped text stores it. */
  lemma SetParamText(c: Config, name: string, v: string)
    requires name in c.main && !c.main[name].Int? && name != "master" && name != "pswd"
    requires Strip(name) == name && Strip(v) == v && ValidText(v)
    ensures var r := SetParam(c, Some(name), Some(v));
      r.err.None? && ValueOf(r.config, name, Null) == Str(v)
  {
  }

  // ---------------------------------------------------------------------
  // The rights stay well formed
  // ---------------------------------------------------------------------

  lemma {:induction false} AddAllKeepsWellFormed(c: Config, target: string, tags: seq<string>)
    requires c.Valid() && RightsWellFormed(c)
    ensures RightsWellFormed(AddAll(c, target, tags).config)
    decreases |tags|
  {
    if |tags| > 0 && AddRight(c, target, tags[0]).Success? {
      var c1 := AddRight(c, target, tags[0]).value;
      if !IsSubstring(Marker(NormalizeTag(tags[0])), GetRights(c, target).value) {
        RightsOfRegistered(c, target);
        AddRightInserts(c, target, tags[0]);
        OnlyRightsOfKeepsWellFormed(c, c1, target);
      }
      AddAllKeepsWellFormed(c1, target, tags[1..]);
    }
  }

  lemma {:induction false} DelAllKeepsWellFormed(c: Config, target: string, tags: seq<string>)
    requires c.Valid() && RightsWellFormed(c)
    ensures RightsWellFormed(DelAll(c, target, tags).config)
    decreases |tags|
  {
    if |tags| > 0 && DelRight(c, target, tags[0]).Success? {
      var c1 := DelRight(c, target, tags[0]).value;
      RightsOfRegistered(c, target);
      DelRightRemoves(c, target, tags[0]);
      OnlyRightsOfKeepsWellFormed(c, c1, target);
      DelAllKeepsWellFormed(c1, target, tags[1..]);
    }
  }

  lemma RightChangeKeepsWellFormed(c: Config, sender: string, p0: Option<string>, p1: Option<string>)
    requires c.Valid() && RightsWellFormed(c)
    ensures RightsWellFormed(AddRights(c, sender, p0, p1).config)
    ensures RightsWellFormed(DeleteRights(c, sender, p0, p1).config)
  {
    var v := CheckRightChange(c, sender, p0, p1, true);
    if v.Success? {
      AddAllKeepsWellFormed(c, v.value.0, v.value.1);
    }
    var w := CheckRightChange(c, sender, p0, p1, false);
    if w.Success? {
      DelAllKeepsWellFormed(c, w.value.0, w.value.1);
    }
  }

  lemma NormalizedDeleteKeepsWellFormed(c: Config, sender: string, p0: Option<string>, p1: Option<string>)
    requires c.Valid() && RightsWellFormed(c)
    ensures RightsWellFormed(DeleteRightsNormalized(c, sender, p0, p1).config)
  {
    var w := CheckRightChangeNormalized(c, sender, p0, p1, false);
    if w.Success? {
      DelAllKeepsWellFormed(c, w.value.0, w.value.1);
    }
  }

  lemma AddUserKeepsWellFormed(c: Config, sender: string, p1: Option<string>)
    requires c.Valid() && RightsWellFormed(c)
    ensures RightsWellFormed(AddUser(c, sender, p1).config)
  {
    var r := AddUser(c, sender, p1);
    if r.err.None? {
      DefaultUserRights();
      assert r.config == c.(users := Put(c.users, p1.value, DEFAULT_USERS));
    }
  }

  lemma DeleteUserKeepsWellFormed(c: Config, sender: string, p1: Option<string>)
    requires c.Valid() && RightsWellFormed(c)
    ensures RightsWellFormed(DeleteUser(c, sender, p1).config)
  {
    var d := DeleteUser(c, sender, p1).config;
    if d != c {
      var p := p1.value;
      if p in c.users.rights {
        assert d == c.(users := Remove(c.users, p));
      } else {
        assert d == c.(admins := Remove(c.admins, p));
      }
    }
  }

  /** Whatever a handler does, and wherever it stops, every rights string
      stays well formed. */
  lemma HandlerKeepsRightsWellFormed(h: Handler, c: Config, sender: string, p1: Option<string>, p2: Option<string>)
    requires c.Valid() && RightsWellFormed(c)
    ensures RightsWellFormed(RunHandler(h, c, sender, p1, p2).config)
  {
    match h
    case RAdd => RightChangeKeepsWellFormed(c, sender, p1, p2);
    case RDel => RightChangeKeepsWellFormed(c, sender, p1, p2);
    case UAdd => AddUserKeepsWellFormed(c, sender, p1);
    case UDel => DeleteUserKeepsWellFormed(c, sender, p1);
    case _ =>
  }

  /** A dispatch that returns leaves every rights string well formed. */
  lemma DispatchKeepsRightsWellFormed(a: App, table: seq<(string, Handler)>, phone: string, text: string)
    requires a.config.Valid() && RightsWellFormed(a.config)
    ensures var r := RunSmsHandler(a, table, phone, text);
      r.Success? ==> RightsWellFormed(r.value.config)
  {
    var p := Parse(text, GATE_CODE_MAX);
    if p.code.Some? {
      match Find(table, p.code.value)
      case None =>
      case Some(i) => HandlerKeepsRightsWellFormed(table[i].1, a.config, phone, p.p1, p.p2);
    }
  }

  // ---------------------------------------------------------------------
  // Who may pass `AU` on
  // ---------------------------------------------------------------------

  /** One `add_right` of a tag that does not normalise to `AU` keeps the
      rights well formed and leaves every phone's `AU` as it was. */
  lemma AddStepKeepsAu(c: Config, target: string, tag: string, p: string)
    requires c.Valid() && RightsWellFormed(c) && NormalizeTag(tag) != ADD_USER
    requires AddRight(c, target, tag).Success?
    ensures RightsWellFormed(AddRight(c, target, tag).value)
    ensures Holds(AddRight(c, target, tag).value, p, ADD_USER) <==> Holds(c, p, ADD_USER)
  {
    var c1 := AddRight(c, target, tag).value;
    var s := GetRights(c, target).value;
    if !IsSubstring(Marker(NormalizeTag(tag)), s) {
      RightsOfRegistered(c, target);
      AddRightInserts(c, target, tag);
      OnlyRightsOfKeepsWellFormed(c, c1, target);
      if p == target {
        NormalizedIsTag(ADD_USER);
        MarkerIffHeld(s, ADD_USER);
        MarkerIffHeld(GetRights(c1, target).value, ADD_USER);
      }
    }
  }

  /** One `del_right` of a tag that does not normalise to `AU` keeps the
      rights well formed and leaves every phone's `AU` as it was. */
  lemma DelStepKeepsAu(c: Config, target: string, tag: string, p: string)
    requires c.Valid() && RightsWellFormed(c) && NormalizeTag(tag) != ADD_USER
    requires DelRight(c, target, tag).Success?
    ensures RightsWellFormed(DelRight(c, target, tag).value)
    ensures Holds(DelRight(c, target, tag).value, p, ADD_USER) <==> Holds(c, p, ADD_USER)
  {
    var c1 := DelRight(c, target, tag).value;
    RightsOfRegistered(c, target);
    DelRightRemoves(c, target, tag);
    OnlyRightsOfKeepsWellFormed(c, c1, target);
    if p == target {
      NormalizedIsTag(ADD_USER);
      MarkerIffHeld(GetRights(c, target).value, ADD_USER);
      MarkerIffHeld(GetRights(c1, target).value, ADD_USER);
    }
  }

  /** Granting tags none of which normalises to `AU` moves nobody's `AU`,
      wherever the fold stops. */
  lemma {:induction false} AddAllKeepsAu(c: Config, target: string, tags: seq<string>, p: string)
    requires c.Valid() && RightsWellFormed(c) && ADD_USER !in NormalizeAll(tags)
    ensures Holds(AddAll(c, target, tags).config, p, ADD_USER) <==> Holds(c, p, ADD_USER)
    decreases |tags|
  {
    if |tags| > 0 && AddRight(c, target, tags[0]).Success? {
      assert NormalizeAll(tags)[0] == NormalizeTag(tags[0]);
      AddStepKeepsAu(c, target, tags[0], p);
      var c1 := AddRight(c, target, tags[0]).value;
      assert forall i | 0 <= i < |tags| - 1 :: NormalizeAll(tags[1..])[i] == NormalizeAll(tags)[i + 1];
      AddAllKeepsAu(c1, target, tags[1..], p);
    }
  }

  /** Revoking tags none of which normalises to `AU` moves nobody's `AU`,
      wherever the fold stops. */
  lemma {:induction false} DelAllKeepsAu(c: Config, target: string, tags: seq<string>, p: string)
    requires c.Valid() && RightsWellFormed(c) && ADD_USER !in NormalizeAll(tags)
    ensures Holds(DelAll(c, target, tags).config, p, ADD_USER) <==> Holds(c, p, ADD_USER)
    decreases |tags|
  {
    if |tags| > 0 && DelRight(c, target, tags[0]).Success? {
      assert NormalizeAll(tags)[0] == NormalizeTag(tags[0]);
      DelStepKeepsAu(c, target, tags[0], p);
      var c1 := DelRight(c, target, tags[0]).value;
      assert forall i | 0 <= i < |tags| - 1 :: NormalizeAll(tags[1..])[i] == NormalizeAll(tags)[i + 1];
      DelAllKeepsAu(c1, target, tags[1..], p);
    }
  }

  /** The restriction `_right_add` and `_right_del` mean to enforce (only
      a holder of `AU` passes it on or takes it away), applied to the tags
      as `add_right` and `del_right` will read them. */
  function CheckRightChangeNormalized(c: Config, sender: string, p0: Option<string>, p1: Option<string>, known: bool)
    : (r: Result<(string, seq<string>), Exc>)
    ensures r.Success? <==>
      && RightChangeAllowed(c, sender, p0, p1, known)
      && (ADD_USER in NormalizeAll(RequestedTags(p1.value)) ==> Holds(c, sender, ADD_USER))
    ensures r.Success? ==> r.value == (p0.value, RequestedTags(p1.value))
    ensures CheckRightChange(c, sender, p0, p1, known).Success? && r.Failure? && IsRegistered(c, sender) ==>
      r.error == HandlerError("User does own the AU right")
  {
    match CheckRightChange(c, sender, p0, p1, known)
    case Failure(e) => Failure(e)
    case Success(v) =>
      if ADD_USER !in NormalizeAll(v.1) then Success(v)
      else match HasMarker(c, sender, ADD_USER)
        case Failure(e) => Failure(e)
        case Success(ok) => if ok then Success(v) else Failure(HandlerError("User does own the AU right"))
  }

  /** `_right_del` with the corrected restriction test. */
  function DeleteRightsNormalized(c: Config, sender: string, p0: Option<string>, p1: Option<string>): (r: HResult)
    requires c.Valid()
    ensures r.config.Valid() && r.config.main == c.main
    ensures CheckRightChangeNormalized(c, sender, p0, p1, false).Failure? ==> r.config == c && r.err.Some?
    ensures forall p | p0 != Some(p) :: GetRights(r.config, p) == GetRights(c, p)
  {
    match CheckRightChangeNormalized(c, sender, p0, p1, false)
    case Failure(e) => HResult(c, Some(e))
    case Success(v) => DelAll(c, v.0, v.1)
  }

  /** With the corrected test, a sender without `AU` changes nobody's `AU`
      through `Radd` (whose tags must already be exact rights) or `Rdel`. */
  lemma NoAuChangeWithoutAu(c: Config, sender: string, p0: Option<string>, p1: Option<string>, p: string)
    requires c.Valid() && RightsWellFormed(c) && !Holds(c, sender, ADD_USER)
    ensures Holds(AddRights(c, sender, p0, p1).config, p, ADD_USER) <==> Holds(c, p, ADD_USER)
    ensures Holds(DeleteRightsNormalized(c, sender, p0, p1).config, p, ADD_USER) <==> Holds(c, p, ADD_USER)
  {
    var a := CheckRightChange(c, sender, p0, p1, true);
    if a.Success? {
      var tags := a.value.1;
      forall i | 0 <= i < |tags| ensures NormalizeTag(tags[i]) == tags[i] {
        KnownNormalized(tags[i]);
      }
      assert NormalizeAll(tags) == tags;
      AddAllKeepsAu(c, a.value.0, tags, p);
    }
    var d := CheckRightChangeNormalized(c, sender, p0, p1, false);
    if d.Success? {
      DelAllKeepsAu(c, d.value.0, d.value.1, p);
    }
  }

  /** A `Rdel` parameter whose first tag carries a tab: the source's
      `split(' ')` keeps the tab, `del_right` strips it. */
  const TABBED_AU := "AU\t C1"

  lemma TabbedUnchanged()
    ensures Upper(TABBED_AU) == TABBED_AU
    ensures Strip(TABBED_AU) == TABBED_AU
  {
    StripUnchanged(TABBED_AU);
  }

  lemma TabbedSplit()
    ensures Split(TABBED_AU, ' ') == ["AU\t", "C1"]
  {
    assert Join(["AU\t", "C1"], ' ') == TABBED_AU;
    SplitJoin(["AU\t", "C1"], ' ');
  }

  lemma TabbedHead()
    ensures NormalizeTag("AU\t") == ADD_USER
  {
    assert LeadingSpaces("AU\t") == 0;
    assert TrailingSpaces("AU\t") == 1 by {
      assert "AU\t"[..2] == "AU";
    }
    assert Strip("AU\t") == "AU";
  }

  lemma TabbedRequested()
    ensures RequestedTags(TABBED_AU) == ["AU\t", "C1"]
  {
    TabbedUnchanged();
    TabbedSplit();
  }

  lemma NormalizePair(a: string, b: string)
    ensures NormalizeAll([a, b]) == [NormalizeTag(a), NormalizeTag(b)]
  {
  }

  /** The split tags hold no `AU` as typed, yet normalise to `AU` and
      `C1`. */
  lemma TabbedTagsNormalize()
    ensures ADD_USER !in ["AU\t", "C1"]
    ensures NormalizeAll(["AU\t", "C1"]) == [ADD_USER, CAN_OUT1]
  {
    TabbedHead();
    KnownNormalized(CAN_OUT1);
    NormalizePair("AU\t", "C1");
  }

  /** The corrected `Rdel` differs from the source's only where the
      bypass lies: when no requested tag strips to `AU`, or the sender
      holds `AU`, the two agree. */
  lemma NormalizedAgrees(c: Config, sender: string, p0: Option<string>, p1: Option<string>)
    requires c.Valid()
    requires p1.None? || ADD_USER !in NormalizeAll(RequestedTags(p1.value)) || Holds(c, sender, ADD_USER)
    ensures DeleteRightsNormalized(c, sender, p0, p1) == DeleteRights(c, sender, p0, p1)
  {
  }

  /** The parameter `TABBED_AU` passes the source's restriction test
      although one of its tags becomes `AU`. */
  lemma TabbedSlipsThrough(p1: string)
    requires p1 == TABBED_AU
    ensures ADD_USER !in RequestedTags(p1) && ADD_USER in NormalizeAll(RequestedTags(p1))
    ensures forall i | 0 <= i < |RequestedTags(p1)| :: NormalizeTag(RequestedTags(p1)[i]) in ALL_RIGHTS
  {
    TabbedRequested();
    TabbedTagsNormalize();
    var n := NormalizeAll(RequestedTags(p1));
    assert n[0] == ADD_USER && n[1] == CAN_OUT1;
  }

  /** As written, an `Rdel` whose tags hold no `AU` as typed but one that
      `del_right` strips to `AU` (such as `TABBED_AU`), from a sender
      without `AU`, passes the restriction test and revokes the target's
      `AU`; the corrected test refuses it and changes nothing. */
  lemma RdelBypassesAu(c: Config, sender: string, target: string, p1: string)
    requires c.Valid() && RightsWellFormed(c)
    requires IsRegistered(c, target) && MayChangeRightsOf(c, sender, target) && Holds(c, target, ADD_USER)
    requires IsRegistered(c, sender) && !Holds(c, sender, ADD_USER)
    requires ADD_USER !in RequestedTags(p1) && ADD_USER in NormalizeAll(RequestedTags(p1))
    requires forall i | 0 <= i < |RequestedTags(p1)| :: NormalizeTag(RequestedTags(p1)[i]) in ALL_RIGHTS
    ensures var r := DeleteRights(c, sender, Some(target), Some(p1));
      r.err.None? && !Holds(r.config, target, ADD_USER)
    ensures DeleteRightsNormalized(c, sender, Some(target), Some(p1))
      == HResult(c, Some(HandlerError("User does own the AU right")))
  {
    var tags := RequestedTags(p1);
    RightsOfRegistered(c, target);
    assert GoodRights(c, target);
    assert RightChangeAllowed(c, sender, Some(target), Some(p1), false);
    AllowedChangeRuns(c, sender, target, p1, false);
    DelAllRevokes(c, target, tags);
    var r := DelAll(c, target, tags).config;
    NormalizedIsTag(ADD_USER);
    MarkerIffHeld(GetRights(r, target).value, ADD_USER);
  }


  // ---------------------------------------------------------------------
  // What the dispatcher queues
  // ---------------------------------------------------------------------

  /** The master parameter holds a phone number, so each report to it is a
      single entry. */
  predicate MasterIsPhone(c: Config) {
    ValueOf(c, "master", Null).Str? && IsPhoneNr(ValueOf(c, "master", Null).s)
  }

  /** The handler table of `GateControlApp` as its registrations leave
      it: nine shortcodes, upper-cased. */
  const GATE_CODES := [("SAVE", Save), ("UADD", UAdd), ("UDEL", UDel), ("ULIST", UList), ("RVIEW", RView),
                       ("RADD", RAdd), ("RDEL", RDel), ("PLIST", PList), ("PSET", PSet)]

  lemma UpperCodesA()
    ensures Upper("Save") == "SAVE" && Upper("UAdd") == "UADD" && Upper("UDel") == "UDEL"
  {
  }

  lemma UpperCodesB()
    ensures Upper("Ulist") == "ULIST" && Upper("Rview") == "RVIEW" && Upper("Radd") == "RADD"
  {
  }

  lemma UpperCodesC()
    ensures Upper("Rdel") == "RDEL" && Upper("Plist") == "PLIST" && Upper("Pset") == "PSET"
  {
  }

  lemma GateTableShape()
    ensures GateTable() == GATE_CODES
  {
    UpperCodesA();
    UpperCodesB();
    UpperCodesC();
    var t1 := Register([], "Save", Save);
    var t2 := Register(t1, "UAdd", UAdd);
    var t3 := Register(t2, "UDel", UDel);
    var t4 := Register(t3, "Ulist", UList);
    assert t4 == GATE_CODES[..4];
    var t5 := Register(t4, "Rview", RView);
    var t6 := Register(t5, "Radd", RAdd);
    var t7 := Register(t6, "Rdel", RDel);
    var t8 := Register(t7, "Plist", PList);
    assert t8 == GATE_CODES[..8];
  }

  /** The nine shortcodes are pairwise different. */
  lemma GateCodesDistinct()
    ensures forall i, j | 0 <= i < j < |GATE_CODES| :: GATE_CODES[i].0 != GATE_CODES[j].0
  {
    var t := GATE_CODES;
    forall i, j | 0 <= i < j < |t| ensures t[i].0 != t[j].0 {
      var a, b := t[i].0, t[j].0;
      assert |a| != |b| || a[0] != b[0] || a[1] != b[1];
    }
  }

  /** No shortcode shadows another: each one reaches its own handler. */
  lemma GateTableReachesEveryHandler()
    ensures forall i | 0 <= i < |GateTable()| :: Find(GateTable(), GateTable()[i].0) == Some(i)
  {
    GateTableShape();
    GateCodesDistinct();
  }

  /** The queue after the format check: `Invalid format!` goes to the
      sender first when the format is broken, and dispatch goes on. */
  function AfterFormatCheck(a: App, phone: string, text: string): seq<Notif> {
    if Parse(text, GATE_CODE_MAX).ok then a.queue else a.queue + [Notif(phone, Str("Invalid format!"), None)]
  }

  /** What `Matched` queues when sender and master are phone numbers. */
  lemma MatchedOutcome(q0: seq<Notif>, phone: string, text: string, h: HResult)
    requires h.config.Valid() && IsPhoneNr(phone) && MasterIsPhone(h.config)
    ensures var m := ValueOf(h.config, "master", Null).s;
      var r := Matched(h.config, q0, phone, text, h);
      && (h.err.None? ==> r == Success(App(h.config, q0 + [Notif(phone, Str(DONE_STR), None)])))
      && (h.err.Some? && IsException(h.err.value) ==>
            r == Success(App(h.config, q0 + [Notif(m, Str("Fail! : " + text), Some(phone)),
                                             Notif(m, Str(h.err.value.Repr()), Some(phone)),
                                             Notif(phone, Str(ERROR_STR), None)])))
      && (h.err.Some? && !IsException(h.err.value) ==> r == Failure(h.err.value))
  {
    var m := ValueOf(h.config, "master", Null).s;
    EnqueuePhone(h.config, q0, phone, Str(DONE_STR), None);
    if h.err.Some? && IsException(h.err.value) {
      var q1 := q0 + [Notif(m, Str("Fail! : " + text), Some(phone))];
      var q2 := q1 + [Notif(m, Str(h.err.value.Repr()), Some(phone))];
      EnqueuePhone(h.config, q0, m, Str("Fail! : " + text), Some(phone));
      EnqueuePhone(h.config, q1, m, Str(h.err.value.Repr()), Some(phone));
      EnqueuePhone(h.config, q2, phone, Str(ERROR_STR), None);
      assert q2 + [Notif(phone, Str(ERROR_STR), None)]
          == q0 + [Notif(m, Str("Fail! : " + text), Some(phone)), Notif(m, Str(h.err.value.Repr()), Some(phone)),
                   Notif(phone, Str(ERROR_STR), None)];
    }
  }

  /** A registered shortcode reaches its handler with the parameters of
      the text, after the format check. */
  lemma DispatchReachesHandler(a: App, table: seq<(string, Handler)>, phone: string, text: string, i: nat)
    requires a.config.Valid() && IsPhoneNr(phone)
    requires Parse(text, GATE_CODE_MAX).code.Some? && Find(table, Parse(text, GATE_CODE_MAX).code.value) == Some(i)
    ensures var p := Parse(text, GATE_CODE_MAX);
      RunSmsHandler(a, table, phone, text)
        == Matched(a.config, AfterFormatCheck(a, phone, text), phone, text, RunHandler(table[i].1, a.config, phone, p.p1, p.p2))
  {
    EnqueuePhone(a.config, a.queue, phone, Str("Invalid format!"), None);
  }

  /** A command whose shortcode is registered: on success the sender gets
      `Done`; on an exception the master gets the text and the error and
      the sender gets `ERROR!`; `SystemExit` escapes. The configuration is
      the one the handler left, even when it failed, and a format error
      only adds its own reply first. */
  lemma DispatchHandled(a: App, table: seq<(string, Handler)>, phone: string, text: string, i: nat)
    requires a.config.Valid() && IsPhoneNr(phone) && MasterIsPhone(a.config)
    requires Parse(text, GATE_CODE_MAX).code.Some? && Find(table, Parse(text, GATE_CODE_MAX).code.value) == Some(i)
    ensures var p := Parse(text, GATE_CODE_MAX);
      var h := RunHandler(table[i].1, a.config, phone, p.p1, p.p2);
      var m := ValueOf(a.config, "master", Null).s;
      var q0 := AfterFormatCheck(a, phone, text);
      var r := RunSmsHandler(a, table, phone, text);
      && (h.err.None? ==> r == Success(App(h.config, q0 + [Notif(phone, Str(DONE_STR), None)])))
      && (h.err.Some? && IsException(h.err.value) ==>
            r == Success(App(h.config, q0 + [Notif(m, Str("Fail! : " + text), Some(phone)),
                                             Notif(m, Str(h.err.value.Repr()), Some(phone)),
                                             Notif(phone, Str(ERROR_STR), None)])))
      && (h.err.Some? && !IsException(h.err.value) ==> r == Failure(h.err.value))
  {
    var p := Parse(text, GATE_CODE_MAX);
    var h := RunHandler(table[i].1, a.config, phone, p.p1, p.p2);
    DispatchReachesHandler(a, table, phone, text, i);
    MatchedOutcome(AfterFormatCheck(a, phone, text), phone, text, h);
  }

  /** A command with an unknown shortcode: the master hears of it, the
      sender gets `ERROR!`, the configuration is unchanged. */
  lemma DispatchUnknownCode(a: App, table: seq<(string, Handler)>, phone: string, text: string)
    requires a.config.Valid() && IsPhoneNr(phone) && MasterIsPhone(a.config)
    requires Parse(text, GATE_CODE_MAX).code.Some? && Find(table, Parse(text, GATE_CODE_MAX).code.value).None?
    ensures var m := ValueOf(a.config, "master", Null).s;
      var code := Parse(text, GATE_CODE_MAX).code.value;
      RunSmsHandler(a, table, phone, text) ==
        Success(App(a.config, AfterFormatCheck(a, phone, text) + [Notif(m, Str("Invalid " + code + " shortcode!"), Some(phone)),
                                                                  Notif(phone, Str(ERROR_STR), None)]))
  {
    var m := ValueOf(a.config, "master", Null).s;
    var code := Parse(text, GATE_CODE_MAX).code.value;
    var q0 := AfterFormatCheck(a, phone, text);
    var q1 := q0 + [Notif(m, Str("Invalid " + code + " shortcode!"), Some(phone))];
    EnqueuePhone(a.config, a.queue, phone, Str("Invalid format!"), None);
    EnqueuePhone(a.config, q0, m, Str("Invalid " + code + " shortcode!"), Some(phone));
    EnqueuePhone(a.config, q1, phone, Str(ERROR_STR), None);
    assert q1 + [Notif(phone, Str(ERROR_STR), None)]
        == q0 + [Notif(m, Str("Invalid " + code + " shortcode!"), Some(phone)), Notif(phone, Str(ERROR_STR), None)];
  }

  /** More than three fields: the unbound code is read and the
      `NameError` stops the program. */
  lemma DispatchTooManyFields(a: App, table: seq<(string, Handler)>, phone: string, text: string)
    requires a.config.Valid() && phone != "" && |Split(text, ',')| > 3
    ensures RunSmsHandler(a, table, phone, text) == Failure(UnboundLocal())
  {
  }

  /** `Save,reboot` ends the program: `SystemExit` passes through the
      dispatcher's `except Exception`. */
  lemma RebootEndsProgram(a: App, table: seq<(string, Handler)>, phone: string, text: string)
    requires a.config.Valid() && IsPhoneNr(phone)
    requires var p := Parse(text, GATE_CODE_MAX);
      && p.ok && Find(table, p.code.value).Some? && table[Find(table, p.code.value).value].1 == Save
      && p.p1.Some? && Upper(p.p1.value) == "REBOOT"
    ensures RunSmsHandler(a, table, phone, text) == Failure(SystemExit())
  {
    PhoneNrShape(phone);
  }
}

=== FILE: gateloop.dfy ===
/** The body of the gate controller's main loop (`GateControlApp._loop`).

    Each pass updates the input monitors, then, when the modem reported
    something new, handles the pending calls and SMS (each list popped from
    its end), then scans the monitors for alarms to notify, and finally
    sends one queued notification. An exception anywhere ends the loop: the
    caller blinks an error forever. Relay switching, calls placed and SMS
    sent are recorded as effects instead of being performed. */
module GateLoop {
  import opened Wrappers
  import opened Text
  import opened Errors
  import opened Rights
  import opened PlatformConfig
  import opened InAlarm
  import opened Command
  import opened GateCtrl

  /** What the loop does to the outside world. */
  datatype Effect =
    | Pulse(out: nat, sec: Value)
    | Toggle(out: nat)
    | Call(phone: string)
    | Send(to: Value, msg: Value)

  /** The loop's state: the application (configuration and notification
      queue), whether the first caller is to become the master, and the
      effects so far. */
  datatype Station = Station(app: App, waitMaster: bool, effects: seq<Effect>)

  /** The parameter `out<n><suffix>`. */
  function OutKey(n: nat, suffix: string): string {
    "out" + NatToString(n) + suffix
  }

  lemma OutKeys()
    ensures OutKey(1, "-mode") == "out1-mode" && OutKey(2, "-mode") == "out2-mode"
    ensures OutKey(1, "-sec") == "out1-sec" && OutKey(2, "-sec") == "out2-sec"
    ensures OutKey(1, "-label") == "out1-label" && OutKey(2, "-label") == "out2-label"
  {
    assert NatToString(1) == "1" && NatToString(2) == "2";
  }

  // ---------------------------------------------------------------------
  // is_output_auth / is_out_cmd / output_action
  // ---------------------------------------------------------------------

  /** `is_output_auth(n, phone)`: the phone's rights contain `:C<n>:`. */
  function IsOutputAuth(c: Config, n: nat, phone: string): (r: bool)
    ensures r == Holds(c, phone, "C" + NatToString(n))
    ensures RightsWellFormed(c) && 1 <= n <= 2 ==>
              (r <==> IsRegistered(c, phone) && WellFormed(GetRights(c, phone).value)
                      && "C" + NatToString(n) in Tags(GetRights(c, phone).value))
  {
    OutputTagHeld(c, n, phone);
    match GetRights(c, phone)
    case None => false
    case Some(s) =>
      assert Marker("C" + NatToString(n)) == ":C" + NatToString(n) + ":";
      IsSubstring(":C" + NatToString(n) + ":", s)
  }

  /** On well-formed rights, holding the marker of `C1` or `C2` is having
      that tag. */
  lemma OutputTagHeld(c: Config, n: nat, phone: string)
    ensures RightsWellFormed(c) && 1 <= n <= 2 ==>
              (Holds(c, phone, "C" + NatToString(n)) <==>
                 IsRegistered(c, phone) && WellFormed(GetRights(c, phone).value)
                 && "C" + NatToString(n) in Tags(GetRights(c, phone).value))
  {
    if RightsWellFormed(c) && 1 <= n <= 2 && IsRegistered(c, phone) {
      var x := "C" + NatToString(n);
      RightsOfRegistered(c, phone);
      KnownRightsAreTags();
      if n == 1 {
        assert NatToString(1) == "1";
        assert x == ALL_RIGHTS[7];
      } else {
        assert NatToString(2) == "2";
        assert x == ALL_RIGHTS[8];
      }
      MarkerIffHeld(GetRights(c, phone).value, x);
    }
  }

  /** The mode is read case-blind: `p` pulses for `out<n>-sec` and `t`
      toggles, while an unknown mode raises naming its upper-cased form. */
  lemma OutputActionByMode(c: Config, n: nat)
    ensures ValueOf(c, OutKey(n, "-mode"), Null) == Str("p") ==>
      OutputAction(c, n) == Success(Pulse(n, ValueOf(c, OutKey(n, "-sec"), Null)))
    ensures ValueOf(c, OutKey(n, "-mode"), Null) == Str("t") ==> OutputAction(c, n) == Success(Toggle(n))
    ensures ValueOf(c, OutKey(n, "-mode"), Null) == Str("x") ==>
      OutputAction(c, n) == Failure(GenericError("output_action: Undefined mode X!"))
  {
    assert Upper("p") == MODE_PULSE && Upper("t") == MODE_TOGGLE && Upper("x") == "X";
    assert "output_action: Undefined mode " + "X" + "!" == "output_action: Undefined mode X!";
  }

  /** The output switched by an SMS command: 1 when the upper-cased
      `out1-cmd` occurs in the first comma field (stripped, upper-cased),
      else 2 for `out2-cmd`, else 0. A command parameter that is not text
      raises. */
  function IsOutCmd(c: Config, message: string): (r: Result<nat, Exc>)
    ensures r.Success? ==> r.value <= 2
    ensures r.Success? <==>
      ValueOf(c, "out1-cmd", Null).Str? && (IsSubstring(Upper(ValueOf(c, "out1-cmd", Null).s), CommandField(message))
                                            || ValueOf(c, "out2-cmd", Null).Str?)
    ensures r == Success(1) <==>
      ValueOf(c, "out1-cmd", Null).Str? && IsSubstring(Upper(ValueOf(c, "out1-cmd", Null).s), CommandField(message))
    ensures r == Success(2) <==>
      && ValueOf(c, "out1-cmd", Null).Str? && !IsSubstring(Upper(ValueOf(c, "out1-cmd", Null).s), CommandField(message))
      && ValueOf(c, "out2-cmd", Null).Str? && IsSubstring(Upper(ValueOf(c, "out2-cmd", Null).s), CommandField(message))
  {
    var s := CommandField(message);
    var c1 := ValueOf(c, "out1-cmd", Null);
    var c2 := ValueOf(c, "out2-cmd", Null);
    if !c1.Str? then Failure(NoUpper(c1))
    else if IsSubstring(Upper(c1.s), s) then Success(1)
    else if !c2.Str? then Failure(NoUpper(c2))
    else if IsSubstring(Upper(c2.s), s) then Success(2)
    else Success(0)
  }

  /** The first comma field of an SMS, stripped and upper-cased. */
  function CommandField(message: string): string {
    Upper(Strip(Split(message, ',')[0]))
  }

  /** `output_action(n)`: the upper-cased `out<n>-mode` selects a pulse of
      `out<n>-sec` seconds or a toggle; any other mode raises. */
  function OutputAction(c: Config, n: nat): (r: Result<Effect, Exc>)
    ensures r.Success? <==> (ValueOf(c, OutKey(n, "-mode"), Null).Str?
      && Upper(ValueOf(c, OutKey(n, "-mode"), Null).s) in {MODE_PULSE, MODE_TOGGLE})
    ensures r.Success? ==> (r.value.Pulse? || r.value.Toggle?) && r.value.out == n
    ensures r.Success? ==> (r.value.Pulse? <==> Upper(ValueOf(c, OutKey(n, "-mode"), Null).s) == MODE_PULSE)
    ensures r.Success? && r.value.Pulse? ==> r.value.sec == ValueOf(c, OutKey(n, "-sec"), Null)
  {
    var mode := ValueOf(c, OutKey(n, "-mode"), Null);
    if !mode.Str? then Failure(NoUpper(mode))
    else
      var m := Upper(mode.s);
      if m == MODE_PULSE then Success(Pulse(n, ValueOf(c, OutKey(n, "-sec"), Null)))
      else if m == MODE_TOGGLE then Success(Toggle(n))
      else Failure(GenericError("output_action: Undefined mode " + m + "!"))
  }

  // ---------------------------------------------------------------------
  // Incoming calls
  // ---------------------------------------------------------------------

  /** A refusal: `Denied!` to the phone, `reason` to the master about the
      phone. */
  function Deny(st: Station, phone: string, reason: string): (r: Result<Station, Exc>)
    requires st.app.config.Valid()
    ensures r.Success? ==> r.value == st.(app := r.value.app) && r.value.app.config == st.app.config
  {
    var c := st.app.config;
    match RegisterNotifications(c, st.app.queue, Str(phone), Str(DENIED_STR), None)
    case Failure(e) => Failure(e)
    case Success(q1) =>
      match RegisterNotifications(c, q1, ValueOf(c, "master", Null), Str(reason), Some(phone))
      case Failure(e) => Failure(e)
      case Success(q2) => Success(st.(app := App(c, q2)))
  }

  /** The first call of a station without master: the caller becomes the
      master, as an admin with every right, and is told so directly. */
  function AssignMaster(st: Station, phone: string): (r: Station)
    requires st.app.config.Valid()
    ensures r.app.config.Valid()
  {
    var c := SetValue(st.app.config, "master", Str(phone));
    var c := c.(admins := Put(c.admins, phone, DEFAULT_MASTER));
    Station(App(c, st.app.queue), false, st.effects + [Send(Str(phone), Str("You are master now!"))])
  }

  /** A call once a master exists: a holder of `C1` switches output 1 and
      the holders of `O1` hear of it; anyone else is refused. */
  function CallStep(st: Station, phone: string): (r: Result<Station, Exc>)
    requires st.app.config.Valid()
    ensures r.Success? ==> r.value.app.config == st.app.config && r.value.waitMaster == st.waitMaster
  {
    var c := st.app.config;
    if IsOutputAuth(c, 1, phone) then
      match OutputAction(c, 1)
      case Failure(e) => Failure(e)
      case Success(eff) =>
        match RegisterNotifications(c, st.app.queue, Str(NOTIF_OUT1), Str("@out1-label"), Some(phone))
        case Failure(e) => Failure(e)
        case Success(q) => Success(Station(App(c, q), st.waitMaster, st.effects + [eff]))
    else Deny(st, phone, "CAN_OUT1 denied")
  }

  /** The pending calls, last first, returning the station and the SMS
      still pending. Assigning the master empties both lists. */
  function Calls(st: Station, calls: seq<string>, msgs: seq<Sms>): (r: Result<(Station, seq<Sms>), Exc>)
    requires st.app.config.Valid()
    ensures r.Success? ==> r.value.0.app.config.Valid()
    ensures r.Success? && !st.waitMaster ==>
      r.value.0.app.config == st.app.config && !r.value.0.waitMaster && r.value.1 == msgs
    decreases |calls|
  {
    if |calls| == 0 then Success((st, msgs))
    else
      var phone := calls[|calls| - 1];
      if st.waitMaster then Success((AssignMaster(st, phone), []))
      else match CallStep(st, phone)
        case Failure(e) => Failure(e)
        case Success(st1) => Calls(st1, calls[..|calls| - 1], msgs)
  }

  // ---------------------------------------------------------------------
  // Incoming SMS
  // ---------------------------------------------------------------------

  /** An SMS: an output command from a holder of `C<n>` switches output n
      (the holders of `O1` hear of it, whichever output it was); a command
      SMS from an admin goes to the dispatcher; anything else is
      refused. */
  function MsgStep(st: Station, m: Sms): (r: Result<Station, Exc>)
    requires st.app.config.Valid()
    ensures r.Success? ==> r.value.app.config.Valid() && r.value.waitMaster == st.waitMaster
    ensures r.Success? && m.phone !in st.app.config.admins.rights ==> r.value.app.config == st.app.config
  {
    var c := st.app.config;
    match IsOutCmd(c, m.message)
    case Failure(e) => Failure(e)
    case Success(n) =>
      if n > 0 then
        if IsOutputAuth(c, n, m.phone) then OutputStep(st, n, m.phone)
        else Deny(st, m.phone, "CAN_OUT" + NatToString(n) + " denied")
      else if m.phone !in c.admins.rights then Deny(st, m.phone, "Denied SMS")
      else match RunSmsHandler(st.app, GateTable(), m.phone, m.message)
        case Failure(e) => Failure(e)
        case Success(a) => Success(Station(a, st.waitMaster, st.effects))
  }

  /** An authorised output command: switch, `Done` to the sender, and the
      output's label to the holders of `O1`. */
  function OutputStep(st: Station, n: nat, phone: string): (r: Result<Station, Exc>)
    requires st.app.config.Valid()
    ensures r.Success? ==> r.value.app.config == st.app.config && r.value.waitMaster == st.waitMaster
    ensures r.Success? ==> OutputAction(st.app.config, n).Success? && r.value.effects == st.effects + [OutputAction(st.app.config, n).value]
  {
    var c := st.app.config;
    match OutputAction(c, n)
    case Failure(e) => Failure(e)
    case Success(eff) =>
      match RegisterNotifications(c, st.app.queue, Str(phone), Str(DONE_STR), None)
      case Failure(e) => Failure(e)
      case Success(q1) =>
        match RegisterNotifications(c, q1, Str(NOTIF_OUT1), Str("@" + OutKey(n, "-label")), Some(phone))
        case Failure(e) => Failure(e)
        case Success(q2) => Success(Station(App(c, q2), st.waitMaster, st.effects + [eff]))
  }

  /** The pending SMS, last first. */
  function Msgs(st: Station, msgs: seq<Sms>): (r: Result<Station, Exc>)
    requires st.app.config.Valid()
    ensures r.Success? ==> r.value.app.config.Valid() && r.value.waitMaster == st.waitMaster
    decreases |msgs|
  {
    if |msgs| == 0 then Success(st)
    else match MsgStep(st, msgs[|msgs| - 1])
      case Failure(e) => Failure(e)
      case Success(st1) => Msgs(st1, msgs[..|msgs| - 1])
  }

  // ---------------------------------------------------------------------
  // Alarms
  // ---------------------------------------------------------------------

  /** The digits of an input prefix read as a decimal number: `in3`
      gives 3. */
  function AlarmId(prefix: string): nat
    decreases |prefix|
  {
    if |prefix| == 0 then 0
    else
      var last := prefix[|prefix| - 1];
      var rest := AlarmId(prefix[..|prefix| - 1]);
      if IsDigitChar(last) then rest * 10 + DigitValue(last) else rest
  }

  /** `register_notifications(phone, msg)` for each phone in turn. */
  function NotifyEach(c: Config, q: seq<Notif>, phones: seq<string>, msg: Value): (r: Result<seq<Notif>, Exc>)
    requires c.Valid()
    ensures r.Success? ==> |q| <= |r.value| && r.value[..|q|] == q
    decreases |phones|
  {
    if |phones| == 0 then Success(q)
    else match RegisterNotifications(c, q, Str(phones[0]), msg, None)
      case Failure(e) => Failure(e)
      case Success(q1) => NotifyEach(c, q1, phones[1..], msg)
  }

  /** Phone numbers get one notification each, in order. */
  lemma {:induction false} NotifyEachPhone(c: Config, q: seq<Notif>, phones: seq<string>, msg: Value)
    requires c.Valid() && forall i | 0 <= i < |phones| :: IsPhoneNr(phones[i])
    ensures NotifyEach(c, q, phones, msg) == Success(q + Fanout(phones, msg, None))
    decreases |phones|
  {
    if |phones| == 0 {
      assert q + Fanout(phones, msg, None) == q;
    } else {
      var q1 := q + [Notif(phones[0], msg, None)];
      NotifyEachStep(c, q, phones, msg);
      NotifyEachPhone(c, q1, phones[1..], msg);
      AppendFanout(q, phones, msg);
    }
  }

  /** A phone number at the head is notified first. */
  lemma NotifyEachStep(c: Config, q: seq<Notif>, phones: seq<string>, msg: Value)
    requires c.Valid() && |phones| > 0 && IsPhoneNr(phones[0])
    ensures NotifyEach(c, q, phones, msg) == NotifyEach(c, q + [Notif(phones[0], msg, None)], phones[1..], msg)
  {
    NotifyPhone(c, q, phones[0], msg, None);
  }

  lemma AppendFanout(q: seq<Notif>, phones: seq<string>, msg: Value)
    requires |phones| > 0
    ensures q + Fanout(phones, msg, None) == (q + [Notif(phones[0], msg, None)]) + Fanout(phones[1..], msg, None)
  {
    FanoutCons(phones, msg, None);
    assert (q + [Notif(phones[0], msg, None)]) + Fanout(phones[1..], msg, None)
      == q + ([Notif(phones[0], msg, None)] + Fanout(phones[1..], msg, None));
  }

  lemma FanoutCons(phones: seq<string>, msg: Value, source: Option<string>)
    requires |phones| > 0
    ensures Fanout(phones, msg, source) == [Notif(phones[0], msg, source)] + Fanout(phones[1..], msg, source)
  {
  }

  /** An input's alarm fired: with notification type `C` the first holder
      of `I<id>` is called; otherwise each holder is sent the input's label
      (`no-msg` when there is none). */
  function AlarmNotify(st: Station, prefix: string): (r: Result<Station, Exc>)
    requires st.app.config.Valid()
    ensures r.Success? ==> r.value.app.config == st.app.config && r.value.waitMaster == st.waitMaster
  {
    var c := st.app.config;
    var id := AlarmId(prefix);
    var phones := PhonesFor(c, "I" + NatToString(id));
    var ntyp := ValueOf(c, prefix + "-ntyp", Null);
    if !ntyp.Str? then Failure(NoUpper(ntyp))
    else if Upper(ntyp.s) == "C" then
      Success(if |phones| > 0 then st.(effects := st.effects + [Call(phones[0])]) else st)
    else
      match NotifyEach(c, st.app.queue, phones, ValueOf(c, "in" + NatToString(id) + "-label", Str("no-msg")))
      case Failure(e) => Failure(e)
      case Success(q) => Success(st.(app := App(c, q)))
  }

  /** `for alarm in self.alarms: if alarm.alarm_notif_once: ...`: every
      flag is read, and so cleared, in order. */
  function Scan(st: Station, monitors: seq<Monitor>): (r: Result<(Station, seq<Monitor>), Exc>)
    requires st.app.config.Valid()
    ensures r.Success? ==> r.value.0.app.config == st.app.config && r.value.0.waitMaster == st.waitMaster
    ensures r.Success? ==> (|r.value.1| == |monitors|
      && forall i | 0 <= i < |monitors| :: r.value.1[i] == monitors[i].(notif := false))
    decreases |monitors|
  {
    if |monitors| == 0 then Success((st, []))
    else
      var (m, fired) := NotifOnce(monitors[0]);
      var st1 :- if fired then AlarmNotify(st, m.prefix) else Success(st);
      var (st2, rest) :- Scan(st1, monitors[1..]);
      Success((st2, [m] + rest))
  }

  // ---------------------------------------------------------------------
  // Sending one notification
  // ---------------------------------------------------------------------

  /** `'%s' % v`. */
  function Format(v: Value): string {
    match v
    case Str(s) => s
    case Int(i) => IntToString(i)
    case Null => "None"
  }

  /** The label to send: an `@key` label is the parameter `key`. Indexing
      the label raises for anything but a non-empty text. */
  function Resolve(c: Config, lbl: Value): (r: Result<Value, Exc>)
    ensures r.Failure? <==> TargetError(lbl).Some?
    ensures r.Success? && lbl.s[0] == '@' ==> r.value == ValueOf(c, lbl.s[1..], Null)
    ensures r.Success? && lbl.s[0] != '@' ==> r.value == lbl
  {
    match TargetError(lbl)
    case Some(e) => Failure(e)
    case None => Success(if lbl.s[0] == '@' then ValueOf(c, lbl.s[1..], Null) else lbl)
  }

  /** Send the last queued notification, prefixed with the phone it is
      about. */
  function SendOne(st: Station): (r: Result<Station, Exc>)
    ensures |st.app.queue| == 0 ==> r == Success(st)
    ensures r.Success? && |st.app.queue| > 0 ==>
      && r.value.app == App(st.app.config, st.app.queue[..|st.app.queue| - 1])
      && r.value.waitMaster == st.waitMaster
      && |r.value.effects| == |st.effects| + 1 && r.value.effects[..|st.effects|] == st.effects
      && r.value.effects[|st.effects|].Send? && r.value.effects[|st.effects|].to == Str(st.app.queue[|st.app.queue| - 1].to)
  {
    var q := st.app.queue;
    if |q| == 0 then Success(st)
    else
      var n := q[|q| - 1];
      match Resolve(st.app.config, n.msg)
      case Failure(e) => Failure(e)
      case Success(lbl) =>
        var text := if n.source.Some? then Str(n.source.value + " : " + Format(lbl)) else lbl;
        Success(Station(App(st.app.config, q[..|q| - 1]), st.waitMaster, st.effects + [Send(Str(n.to), text)]))
  }

  // ---------------------------------------------------------------------
  // One pass
  // ---------------------------------------------------------------------

  /** Every monitor updated with its input's level at time `now`. */
  function UpdateAll(monitors: seq<Monitor>, levels: seq<bool>, now: int): (r: seq<Monitor>)
    requires |levels| == |monitors|
    ensures |r| == |monitors| && forall i | 0 <= i < |r| :: r[i] == Update(monitors[i], levels[i], now)
  {
    seq(|monitors|, i requires 0 <= i < |monitors| => Update(monitors[i], levels[i], now))
  }

  /** One pass of the loop. `levels` are the inputs' levels at `now`;
      `news` says whether the modem reported new events, and `calls` and
      `msgs` are the calls and SMS they brought. */
  function Pass(st: Station, monitors: seq<Monitor>, levels: seq<bool>, now: int,
                news: bool, calls: seq<string>, msgs: seq<Sms>): (r: Result<(Station, seq<Monitor>), Exc>)
    requires st.app.config.Valid() && |levels| == |monitors|
    ensures r.Success? ==> r.value.0.app.config.Valid() && |r.value.1| == |monitors|
  {
    var ms := UpdateAll(monitors, levels, now);
    match if news then HandleEvents(st, calls, msgs) else Success(st)
    case Failure(e) => Failure(e)
    case Success(st1) => ScanAndSend(st1, ms)
  }

  /** The alarm scan, then one notification sent. */
  function ScanAndSend(st: Station, monitors: seq<Monitor>): (r: Result<(Station, seq<Monitor>), Exc>)
    requires st.app.config.Valid()
    ensures r.Success? ==> r.value.0.app.config == st.app.config && |r.value.1| == |monitors|
  {
    match Scan(st, monitors)
    case Failure(e) => Failure(e)
    case Success(p) =>
      match SendOne(p.0)
      case Failure(e) => Failure(e)
      case Success(st1) => Success((st1, p.1))
  }

  /** The calls, then the SMS that are still pending. */
  function HandleEvents(st: Station, calls: seq<string>, msgs: seq<Sms>): (r: Result<Station, Exc>)
    requires st.app.config.Valid()
    ensures r.Success? ==> r.value.app.config.Valid()
  {
    var (st1, rest) :- Calls(st, calls, msgs);
    Msgs(st1, rest)
  }

  /** The station at power-on: without a master it waits for the first
      caller; otherwise the master is told the version and the power-on
      label. */
  function Start(c: Config): (r: Station)
    requires c.Valid()
    ensures r.app == App(c, []) && r.app.config.Valid()
    ensures r.waitMaster <==> ValueOf(c, "master", Null) == Null
    ensures r.waitMaster ==> r.effects == []
    ensures !r.waitMaster ==>
              && |r.effects| == 1 && r.effects[0].Send?
              && r.effects[0].to == ValueOf(c, "master", Null)
              && r.effects[0].msg.Str? && "v0.1.0 " <= r.effects[0].msg.s
  {
    var master := ValueOf(c, "master", Null);
    if master == Null then Station(App(c, []), true, [])
    else Station(App(c, []), false, [Send(master, Str("v0.1.0 " + Format(ValueOf(c, "poweron-label", Null))))])
  }

  // ---------------------------------------------------------------------
  // Properties of the loop
  // ---------------------------------------------------------------------

  /** A factory-fresh station sends nothing and waits for its master. */
  lemma FreshStationWaitsForMaster()
    ensures Start(CreateConfig()) == Station(App(CreateConfig(), []), true, [])
  {
    DefaultConfigHasNoPhones();
    assert "master" in CreateConfig().main;
  }

  /** Output switching is granted exactly to the registered phones whose
      rights hold `C1` (resp. `C2`). */
  lemma OutputAuthIffRight(c: Config, phone: string)
    requires RightsWellFormed(c)
    ensures IsOutputAuth(c, 1, phone) <==>
      IsRegistered(c, phone) && WellFormed(GetRights(c, phone).value) && CAN_OUT1 in Tags(GetRights(c, phone).value)
    ensures IsOutputAuth(c, 2, phone) <==>
      IsRegistered(c, phone) && WellFormed(GetRights(c, phone).value) && CAN_OUT2 in Tags(GetRights(c, phone).value)
  {
    assert NatToString(1) == "1" && NatToString(2) == "2";
    assert "C" + "1" == CAN_OUT1 && "C" + "2" == CAN_OUT2;
    if IsRegistered(c, phone) {
      RightsOfRegistered(c, phone);
      KnownRightsAreTags();
      assert IsTag(ALL_RIGHTS[7]) && IsTag(ALL_RIGHTS[8]);
      MarkerIffHeld(GetRights(c, phone).value, CAN_OUT1);
      MarkerIffHeld(GetRights(c, phone).value, CAN_OUT2);
    }
  }

  /** Only the first comma field of an SMS selects an output: whatever
      follows the comma is ignored. */
  lemma OutCmdIgnoresParameters(c: Config, cmd: string, params: string)
    requires ',' !in cmd
    ensures IsOutCmd(c, cmd + "," + params) == IsOutCmd(c, cmd)
  {
    SplitField(cmd, params, ',');
    assert cmd + "," + params == cmd + [','] + params;
  }

  /** With the factory configuration both outputs pulse for 3 seconds. */
  lemma DefaultOutputsPulse()
    ensures OutputAction(CreateConfig(), 1) == Success(Pulse(1, Int(3)))
    ensures OutputAction(CreateConfig(), 2) == Success(Pulse(2, Int(3)))
  {
    OutKeys();
    DefaultOutputModes();
    assert Upper(MODE_PULSE) == MODE_PULSE;
    assert ValueOf(CreateConfig(), "out1-sec", Null) == Int(3);
    assert ValueOf(CreateConfig(), "out2-sec", Null) == Int(3);
  }

  /** The first call of a station waiting for a master makes the caller
      the master, an admin holding every right, tells it so, and drops
      every other pending call and SMS. */
  lemma FirstCallerBecomesMaster(st: Station, calls: seq<string>, msgs: seq<Sms>)
    requires st.app.config.Valid() && st.waitMaster && |calls| > 0
    ensures var phone := calls[|calls| - 1];
      var r := Calls(st, calls, msgs);
      && r.Success? && r.value.1 == [] && !r.value.0.waitMaster
      && ValueOf(r.value.0.app.config, "master", Null) == Str(phone)
      && r.value.0.app.config.admins.rights[phone] == DEFAULT_MASTER
      && r.value.0.app.config.users == st.app.config.users
      && (forall x | x in ALL_RIGHTS :: Holds(r.value.0.app.config, phone, x))
      && r.value.0.effects == st.effects + [Send(Str(phone), Str("You are master now!"))]
  {
    var phone := calls[|calls| - 1];
    var c := Calls(st, calls, msgs).value.0.app.config;
    assert GetRights(c, phone) == Some(DEFAULT_MASTER);
    DefaultMasterWellFormed();
    DefaultMasterRights();
    KnownRightsAreTags();
    forall x | x in ALL_RIGHTS
      ensures Holds(c, phone, x)
    {
      MarkerIffHeld(DEFAULT_MASTER, x);
    }
  }

  /** A refusal queues `Denied!` for the phone and then the reason for
      the master. */
  lemma DenyQueues(st: Station, phone: string, reason: string)
    requires st.app.config.Valid() && MasterIsPhone(st.app.config) && IsPhoneNr(phone)
    ensures Deny(st, phone, reason) == Success(st.(app := App(st.app.config, st.app.queue + [
      Notif(phone, Str(DENIED_STR), None),
      Notif(ValueOf(st.app.config, "master", Null).s, Str(reason), Some(phone))])))
  {
    var c := st.app.config;
    var q1 := st.app.queue + [Notif(phone, Str(DENIED_STR), None)];
    var m := ValueOf(c, "master", Null).s;
    NotifyPhone(c, st.app.queue, phone, Str(DENIED_STR), None);
    NotifyPhone(c, q1, m, Str(reason), Some(phone));
    assert q1 + [Notif(m, Str(reason), Some(phone))] == st.app.queue + [
      Notif(phone, Str(DENIED_STR), None), Notif(m, Str(reason), Some(phone))];
  }

  /** A call from a holder of `C1` switches output 1, and exactly the
      holders of `O1` are told who did it. */
  lemma AuthorizedCallSwitches(st: Station, phone: string, p: string)
    requires st.app.config.Valid() && RightsWellFormed(st.app.config)
    requires IsOutputAuth(st.app.config, 1, phone) && OutputAction(st.app.config, 1).Success?
    ensures var r := CallStep(st, phone);
      var q := st.app.queue;
      && r.Success?
      && r.value.effects == st.effects + [OutputAction(st.app.config, 1).value]
      && |q| <= |r.value.app.queue| && r.value.app.queue[..|q|] == q
      && (forall i | |q| <= i < |r.value.app.queue| ::
            r.value.app.queue[i].msg == Str("@out1-label") && r.value.app.queue[i].source == Some(phone))
      && (p in Recipients(r.value.app.queue[|q|..]) <==>
           || (p in st.app.config.admins.rights && NOTIF_OUT1 in Tags(st.app.config.admins.rights[p]))
           || (p in st.app.config.users.rights && NOTIF_OUT1 in Tags(st.app.config.users.rights[p])))
  {
    KnownRightsAreTags();
    assert IsTag(ALL_RIGHTS[5]);
    NotifyRight(st.app.config, st.app.queue, NOTIF_OUT1, Str("@out1-label"), Some(phone), p);
  }

  /** A call from anyone not holding `C1` is refused and reported to the
      master. */
  lemma UnauthorizedCallRefused(st: Station, phone: string)
    requires st.app.config.Valid() && MasterIsPhone(st.app.config) && IsPhoneNr(phone)
    requires !IsOutputAuth(st.app.config, 1, phone)
    ensures CallStep(st, phone) == Success(st.(app := App(st.app.config, st.app.queue + [
      Notif(phone, Str(DENIED_STR), None),
      Notif(ValueOf(st.app.config, "master", Null).s, Str("CAN_OUT1 denied"), Some(phone))])))
  {
    DenyQueues(st, phone, "CAN_OUT1 denied");
  }

  /** An SMS that is not an output command, from a phone that is not an
      admin, is refused and reported to the master. */
  lemma NonAdminSmsRefused(st: Station, m: Sms)
    requires st.app.config.Valid() && MasterIsPhone(st.app.config) && IsPhoneNr(m.phone)
    requires IsOutCmd(st.app.config, m.message) == Success(0) && m.phone !in st.app.config.admins.rights
    ensures MsgStep(st, m) == Success(st.(app := App(st.app.config, st.app.queue + [
      Notif(m.phone, Str(DENIED_STR), None),
      Notif(ValueOf(st.app.config, "master", Null).s, Str("Denied SMS"), Some(m.phone))])))
  {
    DenyQueues(st, m.phone, "Denied SMS");
  }

  /** Before a master exists, the same refusal reports to a master of
      `None`, whose indexing raises and so ends the loop. */
  lemma SmsWithoutMasterHalts(st: Station, m: Sms)
    requires st.app.config.Valid() && ValueOf(st.app.config, "master", Null) == Null && IsPhoneNr(m.phone)
    requires IsOutCmd(st.app.config, m.message) == Success(0) && m.phone !in st.app.config.admins.rights
    ensures MsgStep(st, m) == Failure(NotSubscriptable(Null))
  {
    NotifyPhone(st.app.config, st.app.queue, m.phone, Str(DENIED_STR), None);
  }

  /** The refusal as it is evidently meant: the sender is always told,
      and the master only once there is one. */
  function DenyGuarded(st: Station, phone: string, reason: string): (r: Result<Station, Exc>)
    requires st.app.config.Valid()
    ensures r.Success? ==> r.value == st.(app := r.value.app) && r.value.app.config == st.app.config
  {
    var c := st.app.config;
    if ValueOf(c, "master", Null) == Null then
      match RegisterNotifications(c, st.app.queue, Str(phone), Str(DENIED_STR), None)
      case Failure(e) => Failure(e)
      case Success(q1) => Success(st.(app := App(c, q1)))
    else Deny(st, phone, reason)
  }

  /** A refusal to a phone never halts the guarded station: before a
      master exists only the sender hears of it, and afterwards it is the
      source's refusal. */
  lemma DenyGuardedNeverHalts(st: Station, phone: string, reason: string)
    requires st.app.config.Valid() && IsPhoneNr(phone)
    requires ValueOf(st.app.config, "master", Null) == Null || MasterIsPhone(st.app.config)
    ensures DenyGuarded(st, phone, reason).Success?
    ensures ValueOf(st.app.config, "master", Null) == Null ==>
      DenyGuarded(st, phone, reason) == Success(st.(app := App(st.app.config, st.app.queue + [Notif(phone, Str(DENIED_STR), None)])))
    ensures MasterIsPhone(st.app.config) ==> DenyGuarded(st, phone, reason) == Deny(st, phone, reason)
  {
    NotifyPhone(st.app.config, st.app.queue, phone, Str(DENIED_STR), None);
    if MasterIsPhone(st.app.config) {
      DenyQueues(st, phone, reason);
    }
  }

  /** An output-2 command from a holder of `C2` switches output 2, thanks
      the sender, and reports to the holders of `O1` (not `O2`). */
  lemma SecondOutputReportsToO1(st: Station, m: Sms)
    requires st.app.config.Valid() && IsPhoneNr(m.phone)
    requires IsOutCmd(st.app.config, m.message) == Success(2)
    requires IsOutputAuth(st.app.config, 2, m.phone) && OutputAction(st.app.config, 2).Success?
    ensures MsgStep(st, m) == Success(Station(
      App(st.app.config, st.app.queue + [Notif(m.phone, Str(DONE_STR), None)]
        + Fanout(PhonesFor(st.app.config, NOTIF_OUT1), Str("@out2-label"), Some(m.phone))),
      st.waitMaster, st.effects + [OutputAction(st.app.config, 2).value]))
  {
    OutputCommandRouted(st, m, 2);
    OutputStepQueues(st, 2, m.phone);
    SecondLabel();
  }

  lemma SecondLabel()
    ensures "@" + OutKey(2, "-label") == "@out2-label"
  {
    OutKeys();
  }

  /** An output command from a phone allowed to switch that output goes
      to `OutputStep`, whoever the sender is. */
  lemma OutputCommandRouted(st: Station, m: Sms, n: nat)
    requires st.app.config.Valid() && n > 0
    requires IsOutCmd(st.app.config, m.message) == Success(n) && IsOutputAuth(st.app.config, n, m.phone)
    ensures MsgStep(st, m) == OutputStep(st, n, m.phone)
  {
  }

  /** An authorised output command thanks the sender, then tells the
      holders of `O1` which label changed. */
  lemma OutputStepQueues(st: Station, n: nat, phone: string)
    requires st.app.config.Valid() && IsPhoneNr(phone) && OutputAction(st.app.config, n).Success?
    ensures OutputStep(st, n, phone) == Success(Station(
      App(st.app.config, st.app.queue + [Notif(phone, Str(DONE_STR), None)]
        + Fanout(PhonesFor(st.app.config, NOTIF_OUT1), Str("@" + OutKey(n, "-label")), Some(phone))),
      st.waitMaster, st.effects + [OutputAction(st.app.config, n).value]))
  {
    var c := st.app.config;
    var q1 := st.app.queue + [Notif(phone, Str(DONE_STR), None)];
    NotifyPhone(c, st.app.queue, phone, Str(DONE_STR), None);
    assert RegisterNotifications(c, q1, Str(NOTIF_OUT1), Str("@" + OutKey(n, "-label")), Some(phone))
      == Success(q1 + Fanout(PhonesFor(c, NOTIF_OUT1), Str("@" + OutKey(n, "-label")), Some(phone)));
  }

  /** SMS from phones that are not admins never change the
      configuration. */
  lemma {:induction false} OnlyAdminsReconfigure(st: Station, msgs: seq<Sms>)
    requires st.app.config.Valid()
    requires forall i | 0 <= i < |msgs| :: msgs[i].phone !in st.app.config.admins.rights
    ensures Msgs(st, msgs).Success? ==> Msgs(st, msgs).value.app.config == st.app.config
    decreases |msgs|
  {
    if |msgs| > 0 {
      var m := msgs[|msgs| - 1];
      assert m.phone !in st.app.config.admins.rights;
      var r := MsgStep(st, m);
      if r.Success? {
        var rest := msgs[..|msgs| - 1];
        assert Msgs(st, msgs) == Msgs(r.value, rest);
        assert r.value.app.config == st.app.config;
        assert forall i | 0 <= i < |rest| :: rest[i] == msgs[i];
        OnlyAdminsReconfigure(r.value, rest);
      }
    }
  }

  /** The digits after a digit-free prefix are read as a decimal number. */
  lemma {:induction false} AlarmIdDigits(p: string, d: string)
    requires AlarmId(p) == 0 && AllDigits(d)
    ensures AlarmId(p + d) == DigitsValue(d)
    decreases |d|
  {
    if |d| == 0 {
      assert p + d == p;
    } else {
      var d1 := d[..|d| - 1];
      assert (p + d)[..|p + d| - 1] == p + d1;
      assert (p + d)[|p + d| - 1] == d[|d| - 1];
      AlarmIdDigits(p, d1);
    }
  }

  /** The alarm of input `in<n>` is numbered n. */
  lemma AlarmIdOfPrefix(n: nat)
    ensures AlarmId("in" + NatToString(n)) == n
  {
    assert AlarmId("i") == 0;
    assert AlarmId("in") == 0;
    AlarmIdDigits("in", NatToString(n));
    DigitsOfNat(n);
  }

  /** An SMS-type alarm of input n sends its label to every holder of
      `I<n>`, in the order of `phones_for`. */
  lemma SmsAlarmNotifiesHolders(st: Station, n: nat)
    requires st.app.config.Valid()
    requires var t := ValueOf(st.app.config, "in" + NatToString(n) + "-ntyp", Null); t.Str? && Upper(t.s) != "C"
    requires forall p | p in PhonesFor(st.app.config, "I" + NatToString(n)) :: IsPhoneNr(p)
    ensures AlarmNotify(st, "in" + NatToString(n)) == Success(st.(app := App(st.app.config, st.app.queue
      + Fanout(PhonesFor(st.app.config, "I" + NatToString(n)),
               ValueOf(st.app.config, "in" + NatToString(n) + "-label", Str("no-msg")), None))))
  {
    AlarmIdOfPrefix(n);
    var phones := PhonesFor(st.app.config, "I" + NatToString(n));
    assert forall i | 0 <= i < |phones| :: phones[i] in phones;
    NotifyEachPhone(st.app.config, st.app.queue, phones,
      ValueOf(st.app.config, "in" + NatToString(n) + "-label", Str("no-msg")));
  }

  /** A call-type alarm of input n calls the first holder of `I<n>` and
      queues nothing. */
  lemma CallAlarmCallsFirstHolder(st: Station, n: nat)
    requires st.app.config.Valid()
    requires var t := ValueOf(st.app.config, "in" + NatToString(n) + "-ntyp", Null); t.Str? && Upper(t.s) == "C"
    ensures var phones := PhonesFor(st.app.config, "I" + NatToString(n));
      AlarmNotify(st, "in" + NatToString(n))
        == Success(if |phones| > 0 then st.(effects := st.effects + [Call(phones[0])]) else st)
  {
    AlarmIdOfPrefix(n);
  }

  /** A scan in which no alarm has fired changes nothing but the flags. */
  lemma {:induction false} QuietScan(st: Station, monitors: seq<Monitor>)
    requires st.app.config.Valid()
    requires forall i | 0 <= i < |monitors| :: !monitors[i].notif
    ensures Scan(st, monitors) == Success((st, monitors))
    decreases |monitors|
  {
    if |monitors| > 0 {
      var rest := monitors[1..];
      assert forall i | 0 <= i < |rest| :: rest[i] == monitors[i + 1];
      QuietScan(st, rest);
      assert [monitors[0]] + rest == monitors;
    }
  }

  /** A pass with nothing new, no alarm and nothing queued only updates
      the monitors. */
  lemma QuietPass(st: Station, monitors: seq<Monitor>, levels: seq<bool>, now: int,
                  calls: seq<string>, msgs: seq<Sms>)
    requires st.app.config.Valid() && |levels| == |monitors| && st.app.queue == []
    requires forall i | 0 <= i < |monitors| :: !Update(monitors[i], levels[i], now).notif
    ensures Pass(st, monitors, levels, now, false, calls, msgs) == Success((st, UpdateAll(monitors, levels, now)))
  {
    QuietScan(st, UpdateAll(monitors, levels, now));
  }

  /** An `@key` notification about a phone is sent as the phone, ` : `,
      and the current value of parameter `key`. */
  lemma SendResolvesReference(st: Station, to: string, key: string, src: string)
    requires |st.app.queue| > 0 && st.app.queue[|st.app.queue| - 1] == Notif(to, Str("@" + key), Some(src))
    ensures SendOne(st) == Success(Station(App(st.app.config, st.app.queue[..|st.app.queue| - 1]), st.waitMaster,
      st.effects + [Send(Str(to), Str(src + " : " + Format(ValueOf(st.app.config, key, Null))))]))
  {
    assert ("@" + key)[1..] == key;
  }

  /** A plain notification is sent as queued. */
  lemma SendPlainText(st: Station, to: string, text: string)
    requires text != "" && text[0] != '@'
    requires |st.app.queue| > 0 && st.app.queue[|st.app.queue| - 1] == Notif(to, Str(text), None)
    ensures SendOne(st) == Success(Station(App(st.app.config, st.app.queue[..|st.app.queue| - 1]), st.waitMaster,
      st.effects + [Send(Str(to), Str(text))]))
  {
  }
}

=== FILE: inalarm.dfy ===
/** The input alarm state machine (`InAlarm`).

    An input is watched for its active level. The machine leaves `Off` when
    the signal appears, raises the alarm once the signal has been held for
    longer than the observation time, and then rests in `Idle` until the
    signal drops (when idle reset is on) or the idle time runs out. The
    transition out of `Alarm` raises a one-shot notification flag that the
    main loop reads and clears.

    The pin level and the millisecond clock are explicit inputs of every
    step. The model takes one pin level per step; in the observation state
    `update` reads the pin twice, and the two readings are taken to agree. */
module InAlarm {
  import opened Wrappers
  import opened Text
  import opened Errors
  import opened PlatformConfig

  datatype Mode = High | Low | Disabled

  datatype State = Off | Obs | Alarm | Idle

  /** One watched input. `obs` is in seconds and `idl` in minutes, as in
      the configuration; `rst` is the idle-reset switch. */
  datatype Monitor = Monitor(
    prefix: string,
    mode: Mode,
    obs: int,
    idl: int,
    rst: bool,
    state: State,
    notif: bool,
    obsStart: int,
    idleStart: int)

  /** The mode a valid upper-cased mode letter selects. */
  function ModeOf(m: string): Option<Mode> {
    if m == "H" then Some(High)
    else if m == "L" then Some(Low)
    else if m == "D" then Some(Disabled)
    else None
  }

  /** `params[key]`, raising `KeyError` when absent. */
  function Lookup(params: map<string, Value>, key: string): (r: Result<Value, Exc>)
    ensures r.Success? <==> key in params
    ensures r.Success? ==> r.value == params[key]
    ensures r.Failure? ==> r.error == KeyError(key)
  {
    if key in params then Success(params[key]) else Failure(KeyError(key))
  }

  /** `assert type(params[key]) is int`, then the integer. */
  function IntParam(params: map<string, Value>, key: string): (r: Result<int, Exc>)
    ensures r.Success? <==> key in params && params[key].Int?
    ensures r.Success? ==> r.value == params[key].i
  {
    var v :- Lookup(params, key);
    if v.Int? then Success(v.i) else Failure(AssertionError())
  }

  /** What `init` demands of the parameters of input `prefix`. */
  predicate ParamsOk(params: map<string, Value>, prefix: string) {
    && prefix + "-mode" in params && params[prefix + "-mode"].Str?
    && ModeOf(Upper(params[prefix + "-mode"].s)).Some?
    && prefix + "-obs" in params && params[prefix + "-obs"].Int?
    && prefix + "-idle" in params && params[prefix + "-idle"].Int?
    && prefix + "-irst" in params && params[prefix + "-irst"].Int?
  }

  /** The constructor followed by `init(params)` at time `now`: the mode
      is case-folded and must be H, L or D; observation, idle and
      idle-reset settings must be integers; the machine starts `Off` with
      the flag cleared. */
  function Init(params: map<string, Value>, prefix: string, now: int): (r: Result<Monitor, Exc>)
    ensures r.Success? <==> ParamsOk(params, prefix)
    ensures r.Success? ==>
      && r.value.state == Off && !r.value.notif && r.value.prefix == prefix
      && Some(r.value.mode) == ModeOf(Upper(params[prefix + "-mode"].s))
      && r.value.obs == params[prefix + "-obs"].i
      && r.value.idl == params[prefix + "-idle"].i
      && (r.value.rst <==> params[prefix + "-irst"].i > 0)
  {
    var mv :- Lookup(params, prefix + "-mode");
    if !mv.Str? then Failure(NoUpper(mv))
    else
      var mode := ModeOf(Upper(mv.s));
      if mode.None? then Failure(AssertionError())
      else
        var obs :- IntParam(params, prefix + "-obs");
        var idl :- IntParam(params, prefix + "-idle");
        var irst :- IntParam(params, prefix + "-irst");
        Success(Monitor(prefix, mode.value, obs, idl, irst > 0, Off, false, now, now))
  }

  /** `alarm_signal()`: never in disabled mode, otherwise the pin is at
      the active level (high for H, low for L). */
  function AlarmSignal(m: Monitor, level: bool): (r: bool)
    ensures m.mode == Disabled ==> !r
    ensures m.mode == High ==> (r <==> level)
    ensures m.mode == Low ==> (r <==> !level)
  {
    m.mode != Disabled && level == (m.mode == High)
  }

  /** `update()` with the pin at `level` and the clock at `now`. */
  function Update(m: Monitor, level: bool, now: int): (r: Monitor)
    ensures r.prefix == m.prefix && r.mode == m.mode && r.obs == m.obs && r.idl == m.idl && r.rst == m.rst
    ensures m.mode == Disabled ==> r == m
    ensures r.notif && !m.notif ==> m.state == Alarm && r.state == Idle
  {
    if m.mode == Disabled then m
    else
      var signal := AlarmSignal(m, level);
      match m.state
      case Off =>
        if signal then m.(obsStart := now, notif := false, state := Obs) else m
      case Obs =>
        if signal && now - m.obsStart > m.obs * 1000 then m.(state := Alarm)
        else if !signal then m.(state := Off)
        else m
      case Alarm =>
        m.(idleStart := now, notif := true, state := Idle)
      case Idle =>
        if (m.rst && !signal) || now - m.idleStart > m.idl * 60 * 1000 then m.(state := Off)
        else m
  }

  /** `alarm_notif_once`: the flag, which reading clears. */
  function NotifOnce(m: Monitor): (r: (Monitor, bool))
    ensures r.1 == m.notif && !r.0.notif
    ensures r.0 == m.(notif := false)
  {
    (m.(notif := false), m.notif)
  }

  // ---------------------------------------------------------------------
  // Transition properties
  // ---------------------------------------------------------------------

  /** Off: the signal starts an observation, stamping its start and
      clearing the flag; without it nothing changes. */
  lemma OffStep(m: Monitor, level: bool, now: int)
    requires m.state == Off && m.mode != Disabled
    ensures var r := Update(m, level, now);
      && (r.state == Obs <==> AlarmSignal(m, level))
      && (AlarmSignal(m, level) ==> r.obsStart == now && !r.notif && r.idleStart == m.idleStart)
      && (!AlarmSignal(m, level) ==> r == m)
  {
  }

  /** Obs: the alarm needs the signal and strictly more than `obs` seconds
      since the observation started; a dropped signal goes back to Off;
      otherwise the observation goes on. Nothing else changes. */
  lemma ObsStep(m: Monitor, level: bool, now: int)
    requires m.state == Obs && m.mode != Disabled
    ensures var r := Update(m, level, now);
      && (r.state == Alarm <==> AlarmSignal(m, level) && now - m.obsStart > m.obs * 1000)
      && (r.state == Off <==> !AlarmSignal(m, level))
      && r == m.(state := r.state)
  {
  }

  /** Alarm: the next update always moves to Idle, stamps the idle start
      and raises the flag. */
  lemma AlarmStep(m: Monitor, level: bool, now: int)
    requires m.state == Alarm && m.mode != Disabled
    ensures var r := Update(m, level, now);
      r.state == Idle && r.notif && r.idleStart == now && r.obsStart == m.obsStart
  {
  }

  /** Idle: back to Off when idle reset is on and the signal is gone, or
      when more than `idl` minutes have passed; otherwise stay. */
  lemma IdleStep(m: Monitor, level: bool, now: int)
    requires m.state == Idle && m.mode != Disabled
    ensures var r := Update(m, level, now);
      && (r.state == Off <==> (m.rst && !AlarmSignal(m, level)) || now - m.idleStart > m.idl * 60 * 1000)
      && r == m.(state := r.state)
  {
  }

  /** The flag goes up only on the step from Alarm to Idle, and that step
      always raises it. */
  lemma FlagRaisedOnlyLeavingAlarm(m: Monitor, level: bool, now: int)
    ensures var r := Update(m, level, now);
      r.notif && !m.notif <==> m.mode != Disabled && m.state == Alarm && !m.notif
  {
  }

  /** While observing or alarmed, no notification is pending. */
  predicate Inv(m: Monitor) {
    (m.state == Obs || m.state == Alarm) ==> !m.notif
  }

  lemma InitEstablishesInv(params: map<string, Value>, prefix: string, now: int)
    requires Init(params, prefix, now).Success?
    ensures Inv(Init(params, prefix, now).value)
  {
  }

  lemma UpdateKeepsInv(m: Monitor, level: bool, now: int)
    requires Inv(m)
    ensures Inv(Update(m, level, now))
  {
  }

  lemma NotifOnceKeepsInv(m: Monitor)
    requires Inv(m)
    ensures Inv(NotifOnce(m).0)
  {
  }

  /** Two reads of the flag with no update in between are never both
      true. */
  lemma NotifReadTwice(m: Monitor)
    ensures !(NotifOnce(m).1 && NotifOnce(NotifOnce(m).0).1)
  {
  }

  /** An alarm lasts exactly one update: whatever the pin and the clock,
      the update after the one entering Alarm leaves it. */
  lemma AlarmLastsOneUpdate(m: Monitor, l1: bool, t1: int, l2: bool, t2: int)
    requires Update(m, l1, t1).state == Alarm && m.state != Alarm
    ensures m.state == Obs
    ensures Update(Update(m, l1, t1), l2, t2).state == Idle
    ensures Update(Update(m, l1, t1), l2, t2).notif
  {
  }

  /** A full episode: a signal held from `t0` past the observation time
      raises the alarm at `t1`, the next update at `t2` delivers exactly
      one notification. */
  lemma Episode(m: Monitor, level: bool, t0: int, t1: int, t2: int)
    requires m.state == Off && m.mode != Disabled && AlarmSignal(m, level)
    requires t1 - t0 > m.obs * 1000
    ensures var a := Update(m, level, t0);
      var b := Update(a, level, t1);
      var c := Update(b, level, t2);
      && a.state == Obs && !a.notif
      && b.state == Alarm && !b.notif
      && c.state == Idle && NotifOnce(c).1 && !NotifOnce(NotifOnce(c).0).1
  {
    var a := Update(m, level, t0);
    OffStep(m, level, t0);
    ObsStep(a, level, t1);
  }

  /** A disabled input never notifies, whatever happens on its pin. */
  lemma {:induction false} DisabledNeverNotifies(m: Monitor, levels: seq<bool>, times: seq<int>)
    requires m.mode == Disabled && !m.notif && |levels| == |times|
    ensures !Run(m, levels, times).notif
    ensures Run(m, levels, times) == m
    decreases |levels|
  {
    if |levels| > 0 {
      DisabledNeverNotifies(Update(m, levels[0], times[0]), levels[1..], times[1..]);
    }
  }

  /** A sequence of updates. */
  function Run(m: Monitor, levels: seq<bool>, times: seq<int>): Monitor
    requires |levels| == |times|
    decreases |levels|
  {
    if |levels| == 0 then m else Run(Update(m, levels[0], times[0]), levels[1..], times[1..])
  }

  /** Mode "D" in any case, with integer timings, gives a disabled input. */
  lemma InitDisabled(params: map<string, Value>, prefix: string, now: int)
    requires prefix + "-mode" in params && params[prefix + "-mode"] == Str("D")
    requires prefix + "-obs" in params && params[prefix + "-obs"].Int?
    requires prefix + "-idle" in params && params[prefix + "-idle"].Int?
    requires prefix + "-irst" in params && params[prefix + "-irst"].Int?
    ensures Init(params, prefix, now).Success?
    ensures Init(params, prefix, now).value.mode == Disabled
  {
    assert Upper("D") == "D";
  }

  /** The mode and observation time of the first input in a fresh
      configuration... */
  lemma DefaultInput1Mode()
    ensures var main := CreateConfig().main;
      && "in1-mode" in main && main["in1-mode"] == Str("D")
      && "in1-obs" in main && main["in1-obs"] == Int(1)
  {
  }

  /** ...and its idle time and idle-reset switch. */
  lemma DefaultInput1Idle()
    ensures var main := CreateConfig().main;
      && "in1-idle" in main && main["in1-idle"] == Int(2)
      && "in1-irst" in main && main["in1-irst"] == Int(1)
  {
  }

  /** The first input of a fresh configuration starts disabled. */
  lemma DefaultInput1Disabled(now: int)
    ensures Init(CreateConfig().main, "in1", now).Success?
    ensures Init(CreateConfig().main, "in1", now).value.mode == Disabled
  {
    assert "in1" + "-mode" == "in1-mode" && "in1" + "-obs" == "in1-obs";
    assert "in1" + "-idle" == "in1-idle" && "in1" + "-irst" == "in1-irst";
    DefaultInput1Mode();
    DefaultInput1Idle();
    InitDisabled(CreateConfig().main, "in1", now);
  }
}

=== FILE: platformconfig.dfy ===
/** The gate controller's persistent configuration (`PlateformConfig`).

    The configuration holds a `main` map of named parameters and two tiers
    of phone numbers, `admins` and `users`, each mapping a phone number to
    its rights string. `phones_for` reports phones in dict iteration order;
    the model fixes that order as insertion order, so a tier keeps its keys
    in a sequence next to the map. */
module PlatformConfig {
  import opened Wrappers
  import opened Text
  import opened Rights
  import opened Errors

  /** A parameter value: the configuration only ever holds strings,
      integers and `None`. */
  datatype Value = Str(s: string) | Int(i: int) | Null

  /** The Python type name of a value, as error messages report it. */
  function TypeName(v: Value): string {
    match v
    case Str(_) => "str"
    case Int(_) => "int"
    case Null => "NoneType"
  }

  /** `v.upper()` on a value that is not a string. */
  function NoUpper(v: Value): Exc {
    AttributeError("'" + TypeName(v) + "' object has no attribute 'upper'")
  }

  /** `v[0]` on a value that is not a string. */
  function NotSubscriptable(v: Value): Exc {
    TypeError("'" + TypeName(v) + "' object isn't subscriptable")
  }

  /** `x in None`. */
  function NotIterable(): Exc {
    TypeError("'NoneType' object isn't iterable")
  }

  /** One tier of phones: a dict from phone number to rights string. */
  datatype Tier = Tier(order: seq<string>, rights: map<string, string>) {
    /** The order lists every key exactly once. */
    ghost predicate Valid() {
      Distinct(order) && forall p :: p in rights <==> p in order
    }
  }

  const EMPTY_TIER := Tier([], map[])

  datatype Config = Config(version: int, main: map<string, Value>, admins: Tier, users: Tier) {
    ghost predicate Valid() {
      admins.Valid() && users.Valid()
    }
  }

  const MODE_PULSE := "P"
  const MODE_TOGGLE := "T"

  /** The parameters a fresh configuration starts with. */
  function DefaultMain(): map<string, Value> {
    map[
      "master" := Null, "pswd" := Null,
      "poweron-label" := Str("Starting"),
      "in1-label" := Str("IN1 activated!"), "in2-label" := Str("IN2 activated!"),
      "in3-label" := Str("IN3 activated!"), "in4-label" := Str("IN4 activated!"),
      "out1-label" := Str("OUT1 activated"), "out2-label" := Str("OUT2 activated"),
      "out1-cmd" := Str("OUT1"), "out1-mode" := Str(MODE_PULSE), "out1-sec" := Int(3),
      "out2-cmd" := Str("OUT2"), "out2-mode" := Str(MODE_PULSE), "out2-sec" := Int(3),
      "in1-mode" := Str("D"), "in1-obs" := Int(1), "in1-idle" := Int(2), "in1-irst" := Int(1), "in1-ntyp" := Str("S"),
      "in2-mode" := Str("D"), "in2-obs" := Int(1), "in2-idle" := Int(2), "in2-irst" := Int(1), "in2-ntyp" := Str("S"),
      "in3-mode" := Str("D"), "in3-obs" := Int(1), "in3-idle" := Int(2), "in3-irst" := Int(1), "in3-ntyp" := Str("S"),
      "in4-mode" := Str("D"), "in4-obs" := Int(1), "in4-idle" := Int(2), "in4-irst" := Int(1), "in4-ntyp" := Str("S")
    ]
  }

  /** `create_config()`: version 1, the default parameters, no phones. */
  function CreateConfig(): (c: Config)
    ensures c.Valid()
    ensures c.admins.order == [] && c.users.order == []
  {
    Config(1, DefaultMain(), EMPTY_TIER, EMPTY_TIER)
  }

  // ---------------------------------------------------------------------
  // Tier updates: `d[k] = v` and `del d[k]`
  // ---------------------------------------------------------------------

  lemma DistinctAppend(s: seq<string>, x: string)
    requires Distinct(s) && x !in s
    ensures Distinct(s + [x])
  {
    var r := s + [x];
    forall i, j | 0 <= i < j < |r| ensures r[i] != r[j] {
      assert r[i] == s[i];
    }
  }

  /** `d[k] = v`: an existing key keeps its place, a new key goes last. */
  function Put(t: Tier, k: string, v: string): (r: Tier)
    requires t.Valid()
    ensures r.Valid()
    ensures r.rights == t.rights[k := v]
    ensures k in t.rights ==> r.order == t.order
    ensures k !in t.rights ==> r.order == t.order + [k]
  {
    if k in t.rights then Tier(t.order, t.rights[k := v])
    else
      DistinctAppend(t.order, k);
      Tier(t.order + [k], t.rights[k := v])
  }

  /** `del d[k]`: the other keys keep their order. */
  function Remove(t: Tier, k: string): (r: Tier)
    requires t.Valid()
    ensures r.Valid()
    ensures r.rights == t.rights - {k}
    ensures r.order == Without(t.order, k)
  {
    Tier(Without(t.order, k), t.rights - {k})
  }

  /** Deleting a key just inserted gives the tier back. */
  lemma RemoveUndoesPut(t: Tier, k: string, v: string)
    requires t.Valid() && k !in t.rights
    ensures Remove(Put(t, k, v), k) == t
  {
    WithoutAppended(t.order, k);
    assert t.rights[k := v] - {k} == t.rights;
  }

  lemma {:induction false} WithoutAppended(ts: seq<string>, x: string)
    requires x !in ts
    ensures Without(ts + [x], x) == ts
    decreases |ts|
  {
    if |ts| > 0 {
      assert (ts + [x])[1..] == ts[1..] + [x];
      WithoutAppended(ts[1..], x);
      assert ts == [ts[0]] + ts[1..];
    }
  }

  // ---------------------------------------------------------------------
  // value / set_value
  // ---------------------------------------------------------------------

  /** `value(key, default)`. */
  function ValueOf(c: Config, key: string, default: Value): Value {
    if key in c.main then c.main[key] else default
  }

  /** `set_value(key, value)`: afterwards `value` reports the new value for
      `key` and the old value for every other key; the phones are
      untouched. */
  function SetValue(c: Config, key: string, v: Value): (r: Config)
    ensures r.admins == c.admins && r.users == c.users && r.version == c.version
    ensures key in r.main && r.main.Keys == c.main.Keys + {key}
    ensures forall k, d :: ValueOf(r, k, d) == if k == key then v else ValueOf(c, k, d)
  {
    c.(main := c.main[key := v])
  }

  // ---------------------------------------------------------------------
  // get_rights / set_rights
  // ---------------------------------------------------------------------

  predicate IsRegistered(c: Config, phone: string) {
    phone in c.admins.rights || phone in c.users.rights
  }

  /** `get_rights(phone)`: the admins entry wins over the users entry;
      `None` for an unknown phone. */
  function GetRights(c: Config, phone: string): (r: Option<string>)
    ensures r.Some? <==> IsRegistered(c, phone)
    ensures phone in c.admins.rights ==> r == Some(c.admins.rights[phone])
    ensures phone !in c.admins.rights && phone in c.users.rights ==> r == Some(c.users.rights[phone])
  {
    if phone in c.admins.rights then Some(c.admins.rights[phone])
    else if phone in c.users.rights then Some(c.users.rights[phone])
    else None
  }

  /** Two configurations that differ at most in the rights string of
      `phone`, in the tier `get_rights` reads it from. */
  ghost predicate OnlyRightsOf(c: Config, r: Config, phone: string) {
    && r.Valid() && r.main == c.main && r.version == c.version
    && r.admins.order == c.admins.order && r.users.order == c.users.order
    && r.admins.rights.Keys == c.admins.rights.Keys && r.users.rights.Keys == c.users.rights.Keys
    && (forall p | p != phone :: GetRights(r, p) == GetRights(c, p))
    && (forall p | p != phone && p in c.admins.rights :: r.admins.rights[p] == c.admins.rights[p])
    && (forall p | p != phone && p in c.users.rights :: r.users.rights[p] == c.users.rights[p])
    && (phone in c.admins.rights ==> r.users == c.users)
    && (phone !in c.admins.rights ==> r.admins == c.admins)
  }

  /** `set_rights(phone, rights)`: overwrite the entry in the tier the phone
      already occupies (admins first); an unknown phone raises. */
  function SetRights(c: Config, phone: string, rights: string): (r: Result<Config, Exc>)
    requires c.Valid()
    ensures r.Failure? <==> !IsRegistered(c, phone)
    ensures r.Failure? ==> r.error == GenericError("set_right: invalid " + phone + "s")
    ensures r.Success? ==> GetRights(r.value, phone) == Some(rights) && OnlyRightsOf(c, r.value, phone)
  {
    if phone in c.admins.rights then Success(c.(admins := Put(c.admins, phone, rights)))
    else if phone in c.users.rights then Success(c.(users := Put(c.users, phone, rights)))
    else Failure(GenericError("set_right: invalid " + phone + "s"))
  }

  // ---------------------------------------------------------------------
  // add_right / del_right
  // ---------------------------------------------------------------------

  /** `shortcode.strip().upper()`. */
  function NormalizeTag(tag: string): string {
    Upper(Strip(tag))
  }

  /** The phone has a rights string that is truthy (not `None`, not
      empty): what `assert rights` demands. */
  predicate HasRights(c: Config, phone: string) {
    GetRights(c, phone).Some? && GetRights(c, phone).value != ""
  }

  /** `add_right(phone, shortcode)`: a marker already present changes
      nothing; otherwise `:X:` is appended and `::` collapsed. */
  function AddRight(c: Config, phone: string, tag: string): (r: Result<Config, Exc>)
    requires c.Valid()
    ensures r.Failure? <==> !HasRights(c, phone) || NormalizeTag(tag) !in ALL_RIGHTS
    ensures r.Failure? ==> r.error == AssertionError()
    ensures r.Success? && IsSubstring(Marker(NormalizeTag(tag)), GetRights(c, phone).value) ==> r.value == c
    ensures r.Success? && !IsSubstring(Marker(NormalizeTag(tag)), GetRights(c, phone).value) ==>
      && OnlyRightsOf(c, r.value, phone)
      && GetRights(r.value, phone) == Some(Replace(GetRights(c, phone).value + Marker(NormalizeTag(tag)), "::", ":"))
  {
    var x := NormalizeTag(tag);
    var cur := GetRights(c, phone);
    if cur.None? || cur.value == "" then Failure(AssertionError())
    else if x !in ALL_RIGHTS then Failure(AssertionError())
    else if IsSubstring(Marker(x), cur.value) then Success(c)
    else SetRights(c, phone, Replace(cur.value + Marker(x), "::", ":"))
  }

  /** `del_right(phone, shortcode)`: every `:X:` is replaced by `:`. */
  function DelRight(c: Config, phone: string, tag: string): (r: Result<Config, Exc>)
    requires c.Valid()
    ensures r.Failure? <==> !HasRights(c, phone) || NormalizeTag(tag) !in ALL_RIGHTS
    ensures r.Failure? ==> r.error == AssertionError()
    ensures r.Success? ==>
      && OnlyRightsOf(c, r.value, phone)
      && GetRights(r.value, phone) == Some(Replace(GetRights(c, phone).value, Marker(NormalizeTag(tag)), ":"))
  {
    var x := NormalizeTag(tag);
    var cur := GetRights(c, phone);
    if cur.None? || cur.value == "" then Failure(AssertionError())
    else if x !in ALL_RIGHTS then Failure(AssertionError())
    else SetRights(c, phone, Replace(cur.value, Marker(x), ":"))
  }

  // ---------------------------------------------------------------------
  // phones_for
  // ---------------------------------------------------------------------

  /** The phones of `order`, in order, whose rights string contains `m`. */
  function Holders(order: seq<string>, rights: map<string, string>, m: string): (r: seq<string>)
    ensures forall p :: p in r <==> p in order && p in rights && IsSubstring(m, rights[p])
    ensures Distinct(order) ==> Distinct(r)
    decreases |order|
  {
    if |order| == 0 then []
    else
      var rest := Holders(order[1..], rights, m);
      DistinctTail(order);
      var p := order[0];
      if p in rights && IsSubstring(m, rights[p]) then [p] + rest else rest
  }

  /** `phones_for(right)`: the admins holding `:right:`, then the users
      holding it, each tier in insertion order. */
  function PhonesFor(c: Config, right: string): (r: seq<string>)
    requires c.Valid()
    ensures forall p :: p in r <==>
      || (p in c.admins.rights && IsSubstring(Marker(right), c.admins.rights[p]))
      || (p in c.users.rights && IsSubstring(Marker(right), c.users.rights[p]))
    ensures r == Holders(c.admins.order, c.admins.rights, Marker(right))
               + Holders(c.users.order, c.users.rights, Marker(right))
  {
    Holders(c.admins.order, c.admins.rights, Marker(right))
      + Holders(c.users.order, c.users.rights, Marker(right))
  }

  // ---------------------------------------------------------------------
  // Properties
  // ---------------------------------------------------------------------

  /** Every rights string in the configuration is well formed. */
  ghost predicate RightsWellFormed(c: Config) {
    && (forall p | p in c.admins.rights :: WellFormed(c.admins.rights[p]))
    && (forall p | p in c.users.rights :: WellFormed(c.users.rights[p]))
  }

  /** A registered phone's rights string is well formed. */
  lemma RightsOfRegistered(c: Config, phone: string)
    requires RightsWellFormed(c) && IsRegistered(c, phone)
    ensures WellFormed(GetRights(c, phone).value)
  {
  }

  /** Rewriting one phone's entry with a well-formed string keeps every
      rights string well formed. */
  lemma OnlyRightsOfKeepsWellFormed(c: Config, r: Config, phone: string)
    requires RightsWellFormed(c) && OnlyRightsOf(c, r, phone)
    requires GetRights(r, phone).Some? ==> WellFormed(GetRights(r, phone).value)
    ensures RightsWellFormed(r)
  {
    forall p | p in r.admins.rights ensures WellFormed(r.admins.rights[p]) {
      if p == phone {
        assert GetRights(r, p) == Some(r.admins.rights[p]);
      }
    }
    forall p | p in r.users.rights ensures WellFormed(r.users.rights[p]) {
      if p == phone && phone !in c.admins.rights {
        assert GetRights(r, p) == Some(r.users.rights[p]);
      }
    }
  }

  /** The tags a well-formed rights string holds. */
  function Tags(s: string): seq<string>
    requires WellFormed(s)
  {
    Decode(s).value
  }

  /** On a well-formed rights string, the substring test for `:X:` is
      membership of X. */
  lemma MarkerIffHeld(s: string, x: string)
    requires WellFormed(s) && IsTag(x)
    ensures IsSubstring(Marker(x), s) <==> x in Tags(s)
  {
    EncodeDecode(s);
    MarkerIffTag(Tags(s), x);
  }

  lemma NormalizedIsTag(x: string)
    requires x in ALL_RIGHTS
    ensures IsTag(x)
  {
    KnownRightsAreTags();
  }

  /** Appending a new known tag to a well-formed string. */
  lemma AppendKeepsWellFormed(s: string, x: string)
    requires WellFormed(s) && x in ALL_RIGHTS && x !in Tags(s)
    ensures WellFormed(Replace(s + Marker(x), "::", ":"))
    ensures Tags(Replace(s + Marker(x), "::", ":")) == Tags(s) + [x]
  {
    var ts := Tags(s);
    NormalizedIsTag(x);
    EncodeDecode(s);
    AppendMarker(ts, x);
    AppendKnown(ts, x);
    DecodeEncode(ts + [x]);
    WellFormedOf(Replace(s + Marker(x), "::", ":"), ts + [x]);
  }

  /** `add_right` on a well-formed rights string is set insertion: the
      string stays well formed and its tags become the old tags plus X,
      appended at the end when X was missing. */
  lemma AddRightInserts(c: Config, phone: string, tag: string)
    requires c.Valid() && HasRights(c, phone) && WellFormed(GetRights(c, phone).value)
    requires NormalizeTag(tag) in ALL_RIGHTS
    ensures AddRight(c, phone, tag).Success?
    ensures var c' := AddRight(c, phone, tag).value;
      var old_tags := Tags(GetRights(c, phone).value);
      var x := NormalizeTag(tag);
      && HasRights(c', phone) && WellFormed(GetRights(c', phone).value)
      && Tags(GetRights(c', phone).value) == (if x in old_tags then old_tags else old_tags + [x])
  {
    var s := GetRights(c, phone).value;
    var x := NormalizeTag(tag);
    NormalizedIsTag(x);
    MarkerIffHeld(s, x);
    if x !in Tags(s) {
      AppendKeepsWellFormed(s, x);
    }
  }

  /** Adding the same right twice to a well-formed rights string is
      adding it once. */
  lemma AddRightIdempotent(c: Config, phone: string, tag: string)
    requires c.Valid() && HasRights(c, phone) && WellFormed(GetRights(c, phone).value)
    requires NormalizeTag(tag) in ALL_RIGHTS
    ensures AddRight(c, phone, tag).Success?
    ensures AddRight(c, phone, tag).value.Valid()
    ensures AddRight(AddRight(c, phone, tag).value, phone, tag) == AddRight(c, phone, tag)
  {
    AddRightInserts(c, phone, tag);
    var c1 := AddRight(c, phone, tag).value;
    var x := NormalizeTag(tag);
    var s1 := GetRights(c1, phone).value;
    NormalizedIsTag(x);
    MarkerIffHeld(s1, x);
  }

  /** Removing a known tag from a well-formed string. */
  lemma RemoveKeepsWellFormed(s: string, x: string)
    requires WellFormed(s) && x in ALL_RIGHTS
    ensures WellFormed(Replace(s, Marker(x), ":"))
    ensures Tags(Replace(s, Marker(x), ":")) == Without(Tags(s), x)
  {
    var ts := Tags(s);
    NormalizedIsTag(x);
    EncodeDecode(s);
    RemoveMarker(ts, x);
    var us := Without(ts, x);
    assert AllKnown(us);
    DecodeEncode(us);
    WellFormedOf(Replace(s, Marker(x), ":"), us);
  }

  /** `del_right` on a well-formed rights string is set deletion: X is
      gone, the other tags keep their order, and the string stays well
      formed; an absent X leaves the string as it was. */
  lemma DelRightRemoves(c: Config, phone: string, tag: string)
    requires c.Valid() && HasRights(c, phone) && WellFormed(GetRights(c, phone).value)
    requires NormalizeTag(tag) in ALL_RIGHTS
    ensures DelRight(c, phone, tag).Success?
    ensures var c' := DelRight(c, phone, tag).value;
      var old_tags := Tags(GetRights(c, phone).value);
      var x := NormalizeTag(tag);
      && GetRights(c', phone).Some? && WellFormed(GetRights(c', phone).value)
      && Tags(GetRights(c', phone).value) == Without(old_tags, x)
      && (x !in old_tags ==> GetRights(c', phone) == GetRights(c, phone))
  {
    var s := GetRights(c, phone).value;
    var x := NormalizeTag(tag);
    RemoveKeepsWellFormed(s, x);
    if x !in Tags(s) {
      NormalizedIsTag(x);
      MarkerIffHeld(s, x);
      ReplaceAbsent(s, Marker(x), ":");
    }
  }

  /** `phones_for(X)` is the reverse index of the rights: with well-formed
      rights strings, a phone is listed exactly when one of its entries
      holds X. */
  lemma PhonesForIsReverseIndex(c: Config, x: string, p: string)
    requires c.Valid() && RightsWellFormed(c) && IsTag(x)
    ensures p in PhonesFor(c, x) <==>
      || (p in c.admins.rights && x in Tags(c.admins.rights[p]))
      || (p in c.users.rights && x in Tags(c.users.rights[p]))
  {
    if p in c.admins.rights {
      MarkerIffHeld(c.admins.rights[p], x);
    }
    if p in c.users.rights {
      MarkerIffHeld(c.users.rights[p], x);
    }
  }

  /** When no phone sits in both tiers, `phones_for` lists each phone at
      most once. */
  lemma PhonesForNoDuplicates(c: Config, right: string)
    requires c.Valid()
    requires forall p | p in c.admins.rights :: p !in c.users.rights
    ensures Distinct(PhonesFor(c, right))
  {
    var a := Holders(c.admins.order, c.admins.rights, Marker(right));
    var u := Holders(c.users.order, c.users.rights, Marker(right));
    var r := a + u;
    forall i, j | 0 <= i < j < |r| ensures r[i] != r[j] {
      if j < |a| {
        assert r[i] == a[i] && r[j] == a[j];
      } else if i >= |a| {
        assert r[i] == u[i - |a|] && r[j] == u[j - |a|];
      } else {
        assert r[i] == a[i] && r[i] in c.admins.rights;
        assert r[j] == u[j - |a|] && r[j] in c.users.rights;
      }
    }
  }

  /** A fresh configuration has no master and no password, and no phone
      holds any right. */
  lemma DefaultConfigHasNoPhones()
    ensures var c := CreateConfig();
      && c.version == 1
      && ValueOf(c, "master", Str("")) == Null && ValueOf(c, "pswd", Str("")) == Null
      && forall x :: PhonesFor(c, x) == []
  {
  }

  /** A fresh configuration disables every input alarm. */
  lemma DefaultAlarmsDisabled()
    ensures var c := CreateConfig();
      && ValueOf(c, "in1-mode", Null) == Str("D") && ValueOf(c, "in2-mode", Null) == Str("D")
      && ValueOf(c, "in3-mode", Null) == Str("D") && ValueOf(c, "in4-mode", Null) == Str("D")
  {
  }

  /** A fresh configuration drives both outputs in pulse mode... */
  lemma DefaultOutputModes()
    ensures var c := CreateConfig();
      ValueOf(c, "out1-mode", Null) == Str(MODE_PULSE) && ValueOf(c, "out2-mode", Null) == Str(MODE_PULSE)
  {
  }

  /** ...on the commands `OUT1` and `OUT2`. */
  lemma DefaultOutputCommands()
    ensures var c := CreateConfig();
      ValueOf(c, "out1-cmd", Null) == Str("OUT1") && ValueOf(c, "out2-cmd", Null) == Str("OUT2")
  {
  }
}

=== FILE: rights.dfy ===
/** Capability tags and the colon-bounded rights strings that hold them.

    A phone's rights are stored as one string such as `:C1:O1:`: every tag is
    surrounded by colons, and `:` alone is the empty set. `Encode` and
    `Decode` translate between such a string and the list of its tags; the
    lemmas below show what the store's string surgery (appending `:X:` then
    collapsing `::`, or replacing `:X:` by `:`) does to that list. */
module Rights {
  import opened Wrappers
  import opened Text

  const ADD_USER := "AU"
  const NOTIF_IN1 := "I1"
  const NOTIF_IN2 := "I2"
  const NOTIF_IN3 := "I3"
  const NOTIF_IN4 := "I4"
  const NOTIF_OUT1 := "O1"
  const NOTIF_OUT2 := "O2"
  const CAN_OUT1 := "C1"
  const CAN_OUT2 := "C2"

  const ALL_RIGHTS: seq<string> :=
    [ADD_USER, NOTIF_IN1, NOTIF_IN2, NOTIF_IN3, NOTIF_IN4, NOTIF_OUT1, NOTIF_OUT2, CAN_OUT1, CAN_OUT2]

  /** Rights only a holder may grant or revoke. */
  const RESTRICTED_RIGHTS: seq<string> := [ADD_USER]

  const DEFAULT_MASTER := ":AU:I1:I2:I3:I4:O1:O2:C1:C2:"
  const DEFAULT_ADMINS := ":I1:I2:I3:I4:O1:O2:C1:C2:"
  const DEFAULT_USERS := ":C1:"

  /** A tag can sit between two colons: non-empty and colon-free. */
  predicate IsTag(t: string) {
    |t| > 0 && ':' !in t
  }

  predicate AllTags(ts: seq<string>) {
    forall i | 0 <= i < |ts| :: IsTag(ts[i])
  }

  predicate Distinct(ts: seq<string>) {
    forall i, j | 0 <= i < j < |ts| :: ts[i] != ts[j]
  }

  /** Every known right is a tag. */
  lemma KnownRightsAreTags()
    ensures AllTags(ALL_RIGHTS) && Distinct(ALL_RIGHTS)
  {
  }

  /** The search pattern `':%s:' % t`. */
  function Marker(t: string): string {
    ":" + t + ":"
  }

  /** The rights string holding the tags `ts` in order. */
  function Encode(ts: seq<string>): (r: string)
    ensures |r| > 0 && r[0] == ':' && r[|r| - 1] == ':'
  {
    if |ts| == 0 then ":" else ":" + ts[0] + Encode(ts[1..])
  }

  /** The tags of a well-formed rights string, or `None` when the string is
      not colon-bounded or holds an empty tag (`::`). */
  function Decode(s: string): Option<seq<string>>
    decreases |s|
  {
    if |s| == 0 || s[0] != ':' then None
    else if |s| == 1 then Some([])
    else
      match IndexOf(s[1..], ':')
      case None => None
      case Some(j) =>
        if j == 0 then None
        else
          match Decode(s[1 + j..])
          case None => None
          case Some(rest) => Some([s[1..1 + j]] + rest)
  }

  /** A rights string is well formed when it decodes to known, distinct
      rights. */
  predicate WellFormed(s: string) {
    var d := Decode(s);
    d.Some? && Distinct(d.value) && AllKnown(d.value)
  }

  /** Every tag of `ts` is a known right. */
  predicate AllKnown(ts: seq<string>) {
    forall t | t in ts :: t in ALL_RIGHTS
  }

  /** Appending a known right that is not there yet keeps a list of
      distinct known rights. */
  lemma AppendKnown(ts: seq<string>, x: string)
    requires AllTags(ts) && Distinct(ts) && AllKnown(ts)
    requires IsTag(x) && x !in ts && x in ALL_RIGHTS
    ensures AllTags(ts + [x]) && Distinct(ts + [x]) && AllKnown(ts + [x])
  {
    var us := ts + [x];
    assert forall i | 0 <= i < |ts| :: us[i] == ts[i];
  }

  /** Decoding a string that starts with one tag yields that tag followed
      by the decoding of the rest. */
  lemma DecodeCons(t: string, e: string)
    requires IsTag(t) && |e| > 0 && e[0] == ':'
    ensures Decode(":" + t + e) == if Decode(e).Some? then Some([t] + Decode(e).value) else None
  {
    var s := ":" + t + e;
    assert s[1..] == t + e;
    assert forall j | 0 <= j < |t| :: s[1..][j] == t[j] && t[j] in t;
    assert s[1..][|t|] == ':';
    assert IndexOf(s[1..], ':') == Some(|t|);
    assert s[1..1 + |t|] == t;
    assert s[1 + |t|..] == e;
  }

  lemma {:induction false} DecodeEncode(ts: seq<string>)
    requires AllTags(ts)
    ensures Decode(Encode(ts)) == Some(ts)
    decreases |ts|
  {
    if |ts| > 0 {
      DecodeCons(ts[0], Encode(ts[1..]));
      DecodeEncode(ts[1..]);
      assert [ts[0]] + ts[1..] == ts;
    }
  }

  lemma {:induction false} EncodeDecode(s: string)
    requires Decode(s).Some?
    ensures AllTags(Decode(s).value)
    ensures Encode(Decode(s).value) == s
    decreases |s|
  {
    if |s| > 1 {
      var j := IndexOf(s[1..], ':').value;
      var t := s[1..1 + j];
      var tail := s[1 + j..];
      DecodeStep(s);
      EncodeDecode(tail);
      EncodeCons(t, Decode(tail).value);
      SplitAfterHead(s, j);
    }
  }

  lemma SplitAfterHead(s: string, j: nat)
    requires 0 < |s| && s[0] == ':' && j < |s|
    ensures s == ":" + s[1..1 + j] + s[1 + j..]
  {
    assert s == s[..1] + s[1..1 + j] + s[1 + j..];
  }

  /** One step of `Decode`: the first tag and the rest of the string. */
  lemma DecodeStep(s: string)
    requires Decode(s).Some? && |s| > 1
    ensures IndexOf(s[1..], ':').Some?
    ensures var j := IndexOf(s[1..], ':').value;
      && 0 < j && IsTag(s[1..1 + j])
      && Decode(s[1 + j..]).Some?
      && Decode(s).value == [s[1..1 + j]] + Decode(s[1 + j..]).value
  {
    var u := s[1..];
    var j := IndexOf(u, ':').value;
    HeadIsTag(u, j);
    assert s[1..1 + j] == u[..j];
  }

  /** The text before the first colon, when non-empty, is a tag. */
  lemma HeadIsTag(u: string, j: nat)
    requires IndexOf(u, ':') == Some(j) && j > 0
    ensures IsTag(u[..j])
  {
    assert forall k | 0 <= k < j :: u[..j][k] == u[k];
  }

  lemma EncodeCons(t: string, ts: seq<string>)
    ensures Encode([t] + ts) == ":" + t + Encode(ts)
    ensures AllTags(ts) && IsTag(t) ==> AllTags([t] + ts)
  {
    assert ([t] + ts)[1..] == ts;
  }

  /** The marker of `x` starts a rights string whose first tag is `t`
      exactly when `x == t`. */
  lemma MarkerAtHead(x: string, t: string, e: string)
    requires IsTag(x) && IsTag(t) && |e| > 0 && e[0] == ':'
    ensures IsPrefix(Marker(x), ":" + t + e) <==> x == t
  {
    var s := ":" + t + e;
    var m := Marker(x);
    if x == t {
      assert s[..|m|] == m;
    }
    if IsPrefix(m, s) {
      assert s[..|m|] == m;
      assert forall j | 1 <= j <= |x| :: m[j] == x[j - 1] && x[j - 1] in x;
      assert m[|x| + 1] == ':';
      assert forall j | 1 <= j <= |t| :: s[j] == t[j - 1] && t[j - 1] in t;
      assert s[|t| + 1] == ':';
      assert |x| == |t|;
      assert x == m[1..1 + |x|] == s[1..1 + |t|] == t;
    }
  }

  /** `':%s:' % x in rights` is tag membership. */
  lemma {:induction false} MarkerIffTag(ts: seq<string>, x: string)
    requires AllTags(ts) && IsTag(x)
    ensures IsSubstring(Marker(x), Encode(ts)) <==> x in ts
    decreases |ts|
  {
    var m := Marker(x);
    if |ts| == 0 {
      assert !IsSubstring(m, ":"[1..]);
    } else {
      var t := ts[0];
      var e := Encode(ts[1..]);
      var s := Encode(ts);
      assert s[1..] == t + e;
      MarkerAtHead(x, t, e);
      SubstringSkip(m, t, e);
      MarkerIffTag(ts[1..], x);
      assert x in ts <==> x == t || x in ts[1..];
    }
  }

  /** `ts` with every `x` removed, the rest in order. */
  function Without(ts: seq<string>, x: string): (r: seq<string>)
    ensures forall y :: y in r <==> y in ts && y != x
    ensures Distinct(ts) ==> Distinct(r)
    ensures AllTags(ts) ==> AllTags(r)
    decreases |ts|
  {
    if |ts| == 0 then []
    else
      var rest := Without(ts[1..], x);
      DistinctTail(ts);
      if ts[0] == x then rest else [ts[0]] + rest
  }

  lemma DistinctTail(ts: seq<string>)
    requires |ts| > 0
    ensures forall y :: y in ts <==> y == ts[0] || y in ts[1..]
    ensures Distinct(ts) ==> Distinct(ts[1..]) && ts[0] !in ts[1..]
    ensures forall r: seq<string> | ts[0] !in r && Distinct(r) :: Distinct([ts[0]] + r)
    ensures AllTags(ts) ==> AllTags(ts[1..]) && IsTag(ts[0])
    ensures forall r: seq<string> | IsTag(ts[0]) && AllTags(r) :: AllTags([ts[0]] + r)
  {
    assert ts == [ts[0]] + ts[1..];
    if Distinct(ts) {
      forall k | 0 <= k < |ts[1..]| ensures ts[1..][k] != ts[0] {
        assert ts[1..][k] == ts[k + 1];
      }
    }
    forall r: seq<string> | ts[0] !in r && Distinct(r) ensures Distinct([ts[0]] + r) {
      forall i, j | 0 <= i < j < |[ts[0]] + r| ensures ([ts[0]] + r)[i] != ([ts[0]] + r)[j] {
        if i > 0 {
          assert ([ts[0]] + r)[i] == r[i - 1];
        }
        assert ([ts[0]] + r)[j] == r[j - 1];
      }
    }
    forall r: seq<string> | IsTag(ts[0]) && AllTags(r) ensures AllTags([ts[0]] + r) {
      forall i | 0 <= i < |[ts[0]] + r| ensures IsTag(([ts[0]] + r)[i]) {
        if i > 0 {
          assert ([ts[0]] + r)[i] == r[i - 1];
        }
      }
    }
  }

  lemma WithoutAbsent(ts: seq<string>, x: string)
    requires x !in ts
    ensures Without(ts, x) == ts
  {
  }

  /** The string after the leading colon of a non-empty encoding starts with
      the first tag. */
  lemma EncodeTail(ts: seq<string>)
    requires |ts| > 0
    ensures Encode(ts) == ":" + ts[0] + Encode(ts[1..])
    ensures Encode(ts)[1..] == ts[0] + Encode(ts[1..])
  {
    var e := Encode(ts[1..]);
    assert Encode(ts) == ":" + (ts[0] + e);
  }

  /** When `pat` (which starts with a colon) does not match at the front of
      `":" + t + w`, replacement skips the colon and the tag. */
  lemma ReplacePastTag(t: string, w: string, pat: string, rep: string)
    requires IsTag(t) && |pat| > 0 && pat[0] == ':'
    requires !IsPrefix(pat, ":" + t + w)
    ensures Replace(":" + t + w, pat, rep) == ":" + t + Replace(w, pat, rep)
  {
    var s := ":" + t + w;
    if |s| < |pat| {
      ReplaceShort(w, pat, rep);
    } else {
      ReplaceNoMatchHere(s, pat, rep);
      assert s[1..] == t + w;
      ReplaceSkip(t, w, pat, rep);
      ConsAssoc(t, Replace(w, pat, rep));
    }
  }

  lemma ConsAssoc(t: string, r: string)
    ensures [':'] + (t + r) == ":" + t + r
  {
  }


  /** Replacement of the marker of `x` at the front of `":" + x + e`. */
  lemma ReplaceAtMarker(x: string, e: string, rep: string)
    requires |e| > 0 && e[0] == ':'
    ensures Replace(":" + x + e, Marker(x), rep) == rep + Replace(e[1..], Marker(x), rep)
  {
    var s := ":" + x + e;
    var m := Marker(x);
    assert s[..|m|] == m;
    assert s[|m|..] == e[1..];
  }

  /** `"::" + x + ":"` collapses to the encoding of `[x]`. */
  lemma CollapseFirst(x: string)
    requires IsTag(x)
    ensures Replace(Encode([]) + Marker(x), "::", ":") == Encode([x])
  {
    var s := Encode([]) + Marker(x);
    assert s[..2] == "::";
    assert s[2..] == x + ":";
    ReplaceSkip(x, ":", "::", ":");
    ReplaceShort(":", "::", ":");
  }

  /** `(rights + ':%s:' % x).replace('::', ':')` appends `x` to the list. */
  lemma {:induction false} AppendMarker(ts: seq<string>, x: string)
    requires AllTags(ts) && IsTag(x)
    ensures Replace(Encode(ts) + Marker(x), "::", ":") == Encode(ts + [x])
    decreases |ts|
  {
    if |ts| == 0 {
      CollapseFirst(x);
      assert ts + [x] == [x];
    } else {
      var t := ts[0];
      var w := Encode(ts[1..]) + Marker(x);
      EncodeTail(ts);
      assert Encode(ts) + Marker(x) == ":" + t + w;
      assert (":" + t + w)[1] == t[0] && t[0] in t;
      ReplacePastTag(t, w, "::", ":");
      AppendMarker(ts[1..], x);
      EncodeTail(ts + [x]);
      assert (ts + [x])[1..] == ts[1..] + [x];
    }
  }

  /** On a duplicate-free list, `rights.replace(':%s:' % x, ':')` removes `x`
      and keeps the other tags in order (a no-op when `x` is absent). */
  lemma {:induction false} RemoveMarker(ts: seq<string>, x: string)
    requires AllTags(ts) && Distinct(ts) && IsTag(x)
    ensures Replace(Encode(ts), Marker(x), ":") == Encode(Without(ts, x))
    decreases |ts|
  {
    var m := Marker(x);
    if |ts| > 0 {
      var t := ts[0];
      var rest := ts[1..];
      var e := Encode(rest);
      EncodeTail(ts);
      DistinctTail(ts);
      MarkerAtHead(x, t, e);
      if t != x {
        RemoveMarker(rest, x);
        ReplacePastTag(t, e, m, ":");
        EncodeTail([t] + Without(rest, x));
        assert ([t] + Without(rest, x))[1..] == Without(rest, x);
      } else {
        ReplaceAtMarker(x, e, ":");
        WithoutAbsent(rest, x);
        if |rest| > 0 {
          EncodeTail(rest);
          DistinctTail(rest);
          ReplaceSkip(rest[0], Encode(rest[1..]), m, ":");
          RemoveMarker(rest[1..], x);
          WithoutAbsent(rest[1..], x);
        }
      }
    }
  }

  /** The known rights, one by one. */
  lemma RightsAt()
    ensures |ALL_RIGHTS| == 9
    ensures ALL_RIGHTS[0] == "AU" && ALL_RIGHTS[1] == "I1" && ALL_RIGHTS[2] == "I2"
    ensures ALL_RIGHTS[3] == "I3" && ALL_RIGHTS[4] == "I4" && ALL_RIGHTS[5] == "O1"
    ensures ALL_RIGHTS[6] == "O2" && ALL_RIGHTS[7] == "C1" && ALL_RIGHTS[8] == "C2"
  {
  }

  /** One step of encoding a suffix of the known rights: if the rest
      encodes to `e`, the suffix from `k` encodes to `:` + tag + `e`. */
  lemma EncodeRightsFrom(k: nat, head: string, e: string, r: string)
    requires k < |ALL_RIGHTS| && Encode(ALL_RIGHTS[k + 1..]) == e
    requires ":" + ALL_RIGHTS[k] == head && head + e == r
    ensures Encode(ALL_RIGHTS[k..]) == r
  {
    EncodeCons(ALL_RIGHTS[k], ALL_RIGHTS[k + 1..]);
    assert [ALL_RIGHTS[k]] + ALL_RIGHTS[k + 1..] == ALL_RIGHTS[k..];
  }

  /* The encodings of the default tag lists are built one tag at a time
     from the end; every step compares two short literals only. */

  lemma EncodeRights9()
    ensures Encode(ALL_RIGHTS[9..]) == ":"
  {
    assert ALL_RIGHTS[9..] == [];
  }

  lemma DefaultPiece8()
    ensures ":C2" + ":" == ":C2:"
  {
  }

  lemma EncodeRights8()
    ensures Encode(ALL_RIGHTS[8..]) == ":C2:"
  {
    EncodeRights9();
    DefaultPiece8();
    RightsAt();
    EncodeRightsFrom(8, ":C2", ":", ":C2:");
  }

  lemma DefaultPiece7()
    ensures ":C1" + ":C2:" == ":C1:C2:"
  {
  }

  lemma EncodeRights7()
    ensures Encode(ALL_RIGHTS[7..]) == ":C1:C2:"
  {
    EncodeRights8();
    DefaultPiece7();
    RightsAt();
    EncodeRightsFrom(7, ":C1", ":C2:", ":C1:C2:");
  }

  lemma DefaultPiece6()
    ensures ":O2" + ":C1:C2:" == ":O2:C1:C2:"
  {
  }

  lemma EncodeRights6()
    ensures Encode(ALL_RIGHTS[6..]) == ":O2:C1:C2:"
  {
    EncodeRights7();
    DefaultPiece6();
    RightsAt();
    EncodeRightsFrom(6, ":O2", ":C1:C2:", ":O2:C1:C2:");
  }

  lemma DefaultPiece5()
    ensures ":O1" + ":O2:C1:C2:" == ":O1:O2:C1:C2:"
  {
  }

  lemma EncodeRights5()
    ensures Encode(ALL_RIGHTS[5..]) == ":O1:O2:C1:C2:"
  {
    EncodeRights6();
    DefaultPiece5();
    RightsAt();
    EncodeRightsFrom(5, ":O1", ":O2:C1:C2:", ":O1:O2:C1:C2:");
  }

  lemma DefaultPiece4()
    ensures ":I4" + ":O1:O2:C1:C2:" == ":I4:O1:O2:C1:C2:"
  {
  }

  lemma EncodeRights4()
    ensures Encode(ALL_RIGHTS[4..]) == ":I4:O1:O2:C1:C2:"
  {
    EncodeRights5();
    DefaultPiece4();
    RightsAt();
    EncodeRightsFrom(4, ":I4", ":O1:O2:C1:C2:", ":I4:O1:O2:C1:C2:");
  }

  lemma DefaultPiece3()
    ensures ":I3" + ":I4:O1:O2:C1:C2:" == ":I3:I4:O1:O2:C1:C2:"
  {
  }

  lemma EncodeRights3()
    ensures Encode(ALL_RIGHTS[3..]) == ":I3:I4:O1:O2:C1:C2:"
  {
    EncodeRights4();
    DefaultPiece3();
    RightsAt();
    EncodeRightsFrom(3, ":I3", ":I4:O1:O2:C1:C2:", ":I3:I4:O1:O2:C1:C2:");
  }

  lemma DefaultPiece2()
    ensures ":I2" + ":I3:I4:O1:O2:C1:C2:" == ":I2:I3:I4:O1:O2:C1:C2:"
  {
  }

  lemma EncodeRights2()
    ensures Encode(ALL_RIGHTS[2..]) == ":I2:I3:I4:O1:O2:C1:C2:"
  {
    EncodeRights3();
    DefaultPiece2();
    RightsAt();
    EncodeRightsFrom(2, ":I2", ":I3:I4:O1:O2:C1:C2:", ":I2:I3:I4:O1:O2:C1:C2:");
  }

  lemma DefaultPiece1()
    ensures ":I1" + ":I2:I3:I4:O1:O2:C1:C2:" == DEFAULT_ADMINS
  {
  }

  lemma EncodeRights1()
    ensures Encode(ALL_RIGHTS[1..]) == DEFAULT_ADMINS
  {
    EncodeRights2();
    DefaultPiece1();
    RightsAt();
    EncodeRightsFrom(1, ":I1", ":I2:I3:I4:O1:O2:C1:C2:", DEFAULT_ADMINS);
  }

  lemma DefaultPiece0()
    ensures ":AU" + DEFAULT_ADMINS == DEFAULT_MASTER
  {
  }

  lemma EncodeRights0()
    ensures Encode(ALL_RIGHTS[0..]) == DEFAULT_MASTER
  {
    EncodeRights1();
    DefaultPiece0();
    RightsAt();
    EncodeRightsFrom(0, ":AU", DEFAULT_ADMINS, DEFAULT_MASTER);
  }

  lemma EncodeAllRights()
    ensures Encode(ALL_RIGHTS) == DEFAULT_MASTER
  {
    EncodeRights0();
    assert ALL_RIGHTS[0..] == ALL_RIGHTS;
  }

  /** A string that decodes to distinct known rights is well formed. */
  lemma WellFormedOf(s: string, ts: seq<string>)
    requires Decode(s) == Some(ts)
    requires Distinct(ts) && AllKnown(ts)
    ensures WellFormed(s)
  {
  }

  /** The master's default rights string holds every known right. */
  lemma DefaultMasterRights()
    ensures Decode(DEFAULT_MASTER) == Some(ALL_RIGHTS)
  {
    EncodeAllRights();
    KnownRightsAreTags();
    DecodeEncode(ALL_RIGHTS);
  }

  lemma DefaultMasterWellFormed()
    ensures WellFormed(DEFAULT_MASTER)
  {
    DefaultMasterRights();
    KnownRightsAreTags();
    WellFormedOf(DEFAULT_MASTER, ALL_RIGHTS);
  }

  /** The rights an admin gets by default: all but the first. */
  lemma AdminRightsKnown()
    ensures AllTags(ALL_RIGHTS[1..]) && Distinct(ALL_RIGHTS[1..])
    ensures AllKnown(ALL_RIGHTS[1..])
    ensures ADD_USER !in ALL_RIGHTS[1..]
  {
    var ts := ALL_RIGHTS[1..];
    KnownRightsAreTags();
    assert forall i | 0 <= i < |ts| :: ts[i] == ALL_RIGHTS[i + 1];
  }

  /** An admin's default rights string holds every right except `AU`. */
  lemma DefaultAdminRights()
    ensures Decode(DEFAULT_ADMINS) == Some(ALL_RIGHTS[1..])
    ensures ADD_USER !in ALL_RIGHTS[1..]
    ensures WellFormed(DEFAULT_ADMINS)
  {
    AdminRightsKnown();
    EncodeRights1();
    DecodeEncode(ALL_RIGHTS[1..]);
    WellFormedOf(DEFAULT_ADMINS, ALL_RIGHTS[1..]);
  }

  /** A user's default rights string holds `C1` alone. */
  lemma DefaultUserRights()
    ensures Decode(DEFAULT_USERS) == Some([CAN_OUT1])
    ensures WellFormed(DEFAULT_USERS)
  {
    EncodeCons(CAN_OUT1, []);
    assert Encode([CAN_OUT1]) == DEFAULT_USERS;
    assert AllTags([CAN_OUT1]);
    DecodeEncode([CAN_OUT1]);
    assert CAN_OUT1 == ALL_RIGHTS[7];
    WellFormedOf(DEFAULT_USERS, [CAN_OUT1]);
  }
}

=== FILE: smsapp.dfy ===
/** The SMS control example application (`MyApp`).

    Eight short codes over the generic SMS station: `say` answers with a
    greeting, `info` with the versions, the two inputs and the parameters,
    `error` fails on purpose, `punish` texts another phone, and `on1`,
    `off1`, `on2`, `off2` switch the relays. The application's own state is
    the board: the two relays it switches and the two inputs `info`
    reads. */
module SmsApp {
  import opened Wrappers
  import opened Text
  import opened Errors
  import opened Command
  import opened SmsCtrl

  const APP_VERSION := "0.1.0"
  const SMSCTRL_VERSION := "0.1.0"

  /** The relays (on or off) and the levels of inputs 1 and 2. */
  datatype Board = Board(rel1: bool, rel2: bool, in1: bool, in2: bool)

  datatype Handler = Say | Info | SendError | Punish | Relay

  /** The registrations of `MyApp.__init__`, in order. */
  function MyTable(): seq<(string, Handler)> {
    var t := Register([], "say", Say);
    var t := Register(t, "info", Info);
    var t := Register(t, "error", SendError);
    var t := Register(t, "punish", Punish);
    var t := Register(t, "on1", Relay);
    var t := Register(t, "off1", Relay);
    var t := Register(t, "on2", Relay);
    Register(t, "off2", Relay)
  }

  /** `say_handler`: greets the sender with the first parameter, or with
      `Hello` when there is none. */
  function SayHandler(a: Ctrl<Board>, m: Sms, p1: Option<string>): (r: Outcome<Board>)
    ensures r.err.None? && r.state.own == a.own
    ensures r.state.queue == a.queue + Replies(m.phone, ["I say " + (if p1.None? then "Hello" else p1.value) + "!"])
  {
    Outcome(RegisterMessage(a, m.phone, "I say " + (if p1.None? then "Hello" else p1.value) + "!", None), None)
  }

  /** `'%s' % pin.value()`. */
  function Level(b: bool): string {
    if b then "1" else "0"
  }

  /** `'%r' % param`. */
  function ReprParam(p: Option<string>): string {
    if p.None? then "None" else ReprText(p.value)
  }

  /** `info_handler`: the two versions, the input levels, and the
      parameters as Python shows them. */
  function InfoHandler(a: Ctrl<Board>, m: Sms, p1: Option<string>, p2: Option<string>): (r: Outcome<Board>)
    ensures r.err.None? && r.state.own == a.own
    ensures |r.state.queue| == |a.queue| + 4 && r.state.queue[..|a.queue|] == a.queue
  {
    var b := a.own;
    var a1 := RegisterMessage(a, m.phone, "MyApp Version is " + APP_VERSION, None);
    var a2 := RegisterMessage(a1, m.phone, "SmsCtrl Version is " + SMSCTRL_VERSION, None);
    var a3 := RegisterMessage(a2, m.phone, "IN1 = " + Level(b.in1) + ", IN2 = " + Level(b.in2), None);
    Outcome(RegisterMessage(a3, m.phone, "params are : " + ReprParam(p1) + " , " + ReprParam(p2), None), None)
  }

  /** `send_error_handler`: divides by zero before anything else. */
  function SendErrorHandler(a: Ctrl<Board>): (r: Outcome<Board>)
    ensures r.state == a && r.err.Some? && !r.err.value.HandlerError?
  {
    Outcome(a, Some(ZeroDivisionError()))
  }

  /** `punish_handler`: texts the phone given as first parameter, naming
      the sender. A missing parameter has no length; one that is not a
      phone number is refused. */
  function PunishHandler(a: Ctrl<Board>, m: Sms, p1: Option<string>): (r: Outcome<Board>)
    ensures r.state.own == a.own
    ensures r.err.None? <==> p1.Some? && IsPhoneNr(p1.value)
    ensures r.err.None? ==> r.state.queue == a.queue + [Note(p1.value, PUNISHED, Some(m.phone))]
    ensures r.err.Some? ==> r.state == a
  {
    if p1.None? then Outcome(a, Some(NoLen()))
    else if !IsPhoneNr(p1.value) then Outcome(a, Some(HandlerError(BAD_TARGET)))
    else Outcome(RegisterMessage(a, p1.value, PUNISHED, Some(m.phone)), None)
  }

  const RELAY_USAGE := "only \"on\" or \"off\" maybe used!"
  const PUNISHED := "You have been punished!"
  const BAD_TARGET := "Invalid phone Number as parameter!"

  /** `relay_handler`: the relay is 1 if the whole SMS text holds a `1`,
      else 2 if it holds a `2`; it goes on if the upper-cased text holds
      `ON`, else off if it holds `OFF`. With no relay digit the handler
      names a class that does not exist and raises `NameError`. */
  function RelayHandler(a: Ctrl<Board>, m: Sms): (r: Outcome<Board>)
    ensures r.state.queue == a.queue && r.state.sent == a.sent
    ensures r.err.None? <==> ('1' in m.message || '2' in m.message)
                             && (IsSubstring("ON", Upper(m.message)) || IsSubstring("OFF", Upper(m.message)))
    ensures r.err.None? ==> (r.state.own.rel1 != a.own.rel1 ==> '1' in m.message)
    ensures r.err.None? ==> (r.state.own.rel2 != a.own.rel2 ==> '1' !in m.message)
  {
    var text := Upper(m.message);
    if !('1' in m.message || '2' in m.message) then Outcome(a, Some(NameError("HandleError")))
    else if !(IsSubstring("ON", text) || IsSubstring("OFF", text)) then
      Outcome(a, Some(HandlerError(RELAY_USAGE)))
    else
      var on := IsSubstring("ON", text);
      var b := a.own;
      var b1 := if '1' in m.message then b.(rel1 := on) else b.(rel2 := on);
      Outcome(a.(own := b1), None)
  }

  /** Run handler `h`. */
  function Run(h: Handler, a: Ctrl<Board>, m: Sms, p1: Option<string>, p2: Option<string>): (r: Outcome<Board>)
    ensures r.state.sent == a.sent
    ensures h != Relay ==> r.state.own == a.own
    ensures |a.queue| <= |r.state.queue| && r.state.queue[..|a.queue|] == a.queue
  {
    match h
    case Say => SayHandler(a, m, p1)
    case Info => InfoHandler(a, m, p1, p2)
    case SendError => SendErrorHandler(a)
    case Punish => PunishHandler(a, m, p1)
    case Relay => RelayHandler(a, m)
  }

  /** `run_sms_handler` of `MyApp`, over the registered table written out
      (`DispatchUsesMyTable`). */
  function Dispatch(a: Ctrl<Board>, m: Sms): Result<Ctrl<Board>, Exc> {
    RunSmsHandler(a, MY_CODES, Run, m)
  }

  // ---------------------------------------------------------------------
  // The table
  // ---------------------------------------------------------------------

  const MY_CODES := [("SAY", Say), ("INFO", Info), ("ERROR", SendError), ("PUNISH", Punish),
                     ("ON1", Relay), ("OFF1", Relay), ("ON2", Relay), ("OFF2", Relay)]

  lemma UpperCodesA()
    ensures Upper("say") == "SAY" && Upper("info") == "INFO" && Upper("error") == "ERROR"
  {
  }

  lemma UpperCodesB()
    ensures Upper("punish") == "PUNISH" && Upper("on1") == "ON1" && Upper("off1") == "OFF1"
  {
  }

  lemma UpperCodesC()
    ensures Upper("on2") == "ON2" && Upper("off2") == "OFF2"
  {
  }

  lemma MyTableShape()
    ensures MyTable() == MY_CODES
  {
    UpperCodesA();
    UpperCodesB();
    UpperCodesC();
    var t1 := Register([], "say", Say);
    var t2 := Register(t1, "info", Info);
    var t3 := Register(t2, "error", SendError);
    var t4 := Register(t3, "punish", Punish);
    assert t4 == MY_CODES[..4];
    var t5 := Register(t4, "on1", Relay);
    var t6 := Register(t5, "off1", Relay);
    var t7 := Register(t6, "on2", Relay);
    assert t7 == MY_CODES[..7];
  }

  /** The eight shortcodes are pairwise different. */
  lemma MyCodesDistinct()
    ensures forall i, j | 0 <= i < j < |MY_CODES| :: MY_CODES[i].0 != MY_CODES[j].0
  {
    var t := MY_CODES;
    forall i, j | 0 <= i < j < |t| ensures t[i].0 != t[j].0 {
      var a, b := t[i].0, t[j].0;
      assert |a| != |b| || a[0] != b[0] || a[1] != b[1] || a[|a| - 1] != b[|b| - 1];
    }
  }

  /** No shortcode shadows another: each one reaches its own handler. */
  lemma MyTableReachesEveryHandler()
    ensures forall i | 0 <= i < |MyTable()| :: Find(MyTable(), MyTable()[i].0) == Some(i)
  {
    MyTableShape();
    MyCodesDistinct();
  }

  /** Dispatching over the table the registrations build. */
  lemma DispatchUsesMyTable(a: Ctrl<Board>, m: Sms)
    ensures Dispatch(a, m) == RunSmsHandler(a, MyTable(), Run, m)
  {
    MyTableShape();
  }

  // ---------------------------------------------------------------------
  // Properties of the handlers
  // ---------------------------------------------------------------------

  /** A well-formed SMS whose code is the i-th registered one runs the
      i-th handler. */
  lemma DispatchTo(a: Ctrl<Board>, m: Sms, i: nat)
    requires i < |MY_CODES|
    requires Parse(m.message, SMS_CODE_MAX).ok && Parse(m.message, SMS_CODE_MAX).code == Some(MY_CODES[i].0)
    ensures var p := Parse(m.message, SMS_CODE_MAX);
      Dispatch(a, m) == Conclude(Run(MY_CODES[i].1, a, m, p.p1, p.p2), m.phone)
  {
    MyCodesDistinct();
    assert Find(MY_CODES, MY_CODES[i].0) == Some(i);
  }

  /** `say` greets, then the station adds `Done`. */
  lemma SayConcludes(a: Ctrl<Board>, m: Sms, p1: Option<string>)
    ensures var g := "I say " + (if p1.None? then "Hello" else p1.value) + "!";
      Conclude(SayHandler(a, m, p1), m.phone)
        == Success(a.(queue := a.queue + [Note(m.phone, g, None), Note(m.phone, DONE_STR, None)]))
  {
    var g := "I say " + (if p1.None? then "Hello" else p1.value) + "!";
    assert a.queue + [Note(m.phone, g, None)] + [Note(m.phone, DONE_STR, None)]
      == a.queue + [Note(m.phone, g, None), Note(m.phone, DONE_STR, None)];
  }

  /** A well-formed `say` SMS is answered with the greeting, then `Done`. */
  lemma SayAnswers(a: Ctrl<Board>, m: Sms)
    requires Parse(m.message, SMS_CODE_MAX).ok && Parse(m.message, SMS_CODE_MAX).code == Some(MY_CODES[0].0)
    ensures var p1 := Parse(m.message, SMS_CODE_MAX).p1;
      var g := "I say " + (if p1.None? then "Hello" else p1.value) + "!";
      Dispatch(a, m) == Success(a.(queue := a.queue + [Note(m.phone, g, None), Note(m.phone, DONE_STR, None)]))
  {
    var p := Parse(m.message, SMS_CODE_MAX);
    assert MY_CODES[0].1 == Say;
    assert Run(Say, a, m, p.p1, p.p2) == SayHandler(a, m, p.p1);
    DispatchTo(a, m, 0);
    SayConcludes(a, m, p.p1);
  }

  /** The four lines of `info`. */
  function InfoLines(b: Board, p1: Option<string>, p2: Option<string>): seq<string> {
    ["MyApp Version is " + APP_VERSION,
     "SmsCtrl Version is " + SMSCTRL_VERSION,
     "IN1 = " + Level(b.in1) + ", IN2 = " + Level(b.in2),
     "params are : " + ReprParam(p1) + " , " + ReprParam(p2)]
  }

  /** `info` queues its four lines in order, then the station adds `Done`. */
  lemma InfoConcludes(a: Ctrl<Board>, m: Sms, p1: Option<string>, p2: Option<string>)
    ensures Conclude(InfoHandler(a, m, p1, p2), m.phone)
      == Success(a.(queue := a.queue + Replies(m.phone, InfoLines(a.own, p1, p2) + [DONE_STR])))
  {
    var t := InfoLines(a.own, p1, p2);
    var q := a.queue + [Note(m.phone, t[0], None)] + [Note(m.phone, t[1], None)]
      + [Note(m.phone, t[2], None)] + [Note(m.phone, t[3], None)];
    var o := InfoHandler(a, m, p1, p2);
    assert o.err.None? && o.state == a.(queue := q);
    assert Conclude(o, m.phone) == Success(a.(queue := q + [Note(m.phone, DONE_STR, None)]));
    assert q + [Note(m.phone, DONE_STR, None)] == a.queue + Replies(m.phone, t + [DONE_STR]);
  }

  /** A well-formed `info` SMS is answered with the two versions, the input
      levels and the parameters, then `Done`. */
  lemma InfoAnswers(a: Ctrl<Board>, m: Sms)
    requires Parse(m.message, SMS_CODE_MAX).ok && Parse(m.message, SMS_CODE_MAX).code == Some(MY_CODES[1].0)
    ensures var p := Parse(m.message, SMS_CODE_MAX);
      Dispatch(a, m) == Success(a.(queue := a.queue + Replies(m.phone, InfoLines(a.own, p.p1, p.p2) + [DONE_STR])))
  {
    var p := Parse(m.message, SMS_CODE_MAX);
    assert MY_CODES[1].1 == Info;
    assert Run(Info, a, m, p.p1, p.p2) == InfoHandler(a, m, p.p1, p.p2);
    DispatchTo(a, m, 1);
    InfoConcludes(a, m, p.p1, p.p2);
  }

  /** The `error` code always ends in `ERROR!` and the repr of the
      division error; nothing else changes. */
  lemma ErrorReportsDivision(a: Ctrl<Board>, m: Sms)
    requires Parse(m.message, SMS_CODE_MAX).ok && Parse(m.message, SMS_CODE_MAX).code == Some(MY_CODES[2].0)
    ensures Dispatch(a, m) == Success(a.(queue := a.queue + [Note(m.phone, ERROR_STR, None),
                                                             Note(m.phone, ZeroDivisionError().Repr(), None)]))
  {
    var p := Parse(m.message, SMS_CODE_MAX);
    assert MY_CODES[2].1 == SendError;
    assert Run(SendError, a, m, p.p1, p.p2) == Outcome(a, Some(ZeroDivisionError()));
    DispatchTo(a, m, 2);
    ReportInternal(a, m.phone, ZeroDivisionError());
  }

  /** `punish`: the punishment for a phone number, else the `TypeError` of
      a missing parameter, else the refusal. */
  lemma PunishConcludes(a: Ctrl<Board>, m: Sms, p1: Option<string>)
    ensures p1.Some? && IsPhoneNr(p1.value) ==> (Conclude(PunishHandler(a, m, p1), m.phone)
      == Success(a.(queue := a.queue + [Note(p1.value, PUNISHED, Some(m.phone)), Note(m.phone, DONE_STR, None)])))
    ensures p1.None? ==> (Conclude(PunishHandler(a, m, p1), m.phone)
      == Success(a.(queue := a.queue + [Note(m.phone, ERROR_STR, None), Note(m.phone, NoLen().Repr(), None)])))
    ensures p1.Some? && !IsPhoneNr(p1.value) ==> (Conclude(PunishHandler(a, m, p1), m.phone)
      == Success(a.(queue := a.queue + [Note(m.phone, BAD_TARGET, None)])))
  {
    if p1.None? {
      ReportInternal(a, m.phone, NoLen());
    } else if IsPhoneNr(p1.value) {
      var n := Note(p1.value, PUNISHED, Some(m.phone));
      assert a.queue + [n] + [Note(m.phone, DONE_STR, None)] == a.queue + [n, Note(m.phone, DONE_STR, None)];
    }
  }

  /** A `punish` SMS naming a phone queues the punishment for that phone,
      with the sender as source, then `Done` for the sender. */
  lemma PunishTextsTarget(a: Ctrl<Board>, m: Sms)
    requires Parse(m.message, SMS_CODE_MAX).ok && Parse(m.message, SMS_CODE_MAX).code == Some(MY_CODES[3].0)
    requires Parse(m.message, SMS_CODE_MAX).p1.Some? && IsPhoneNr(Parse(m.message, SMS_CODE_MAX).p1.value)
    ensures var t := Parse(m.message, SMS_CODE_MAX).p1.value;
      Dispatch(a, m) == Success(a.(queue := a.queue + [Note(t, PUNISHED, Some(m.phone)), Note(m.phone, DONE_STR, None)]))
  {
    var p := Parse(m.message, SMS_CODE_MAX);
    assert MY_CODES[3].1 == Punish;
    assert Run(Punish, a, m, p.p1, p.p2) == PunishHandler(a, m, p.p1);
    DispatchTo(a, m, 3);
    PunishConcludes(a, m, p.p1);
  }

  /** A `punish` SMS without a parameter gets `ERROR!` and the repr of the
      `TypeError`; one whose parameter is not a phone number gets the
      refusal. Nothing is queued for anybody else. */
  lemma PunishRefusesNonPhone(a: Ctrl<Board>, m: Sms)
    requires Parse(m.message, SMS_CODE_MAX).ok && Parse(m.message, SMS_CODE_MAX).code == Some(MY_CODES[3].0)
    requires !(Parse(m.message, SMS_CODE_MAX).p1.Some? && IsPhoneNr(Parse(m.message, SMS_CODE_MAX).p1.value))
    ensures Parse(m.message, SMS_CODE_MAX).p1.None? ==>
      Dispatch(a, m) == Success(a.(queue := a.queue + [Note(m.phone, ERROR_STR, None), Note(m.phone, NoLen().Repr(), None)]))
    ensures Parse(m.message, SMS_CODE_MAX).p1.Some? ==>
      Dispatch(a, m) == Success(a.(queue := a.queue + [Note(m.phone, BAD_TARGET, None)]))
  {
    var p := Parse(m.message, SMS_CODE_MAX);
    assert MY_CODES[3].1 == Punish;
    assert Run(Punish, a, m, p.p1, p.p2) == PunishHandler(a, m, p.p1);
    DispatchTo(a, m, 3);
    PunishConcludes(a, m, p.p1);
  }

  /** The board after a relay SMS that names a relay and a state. */
  function Switched(b: Board, t: string): Board {
    var on := IsSubstring("ON", Upper(t));
    if '1' in t then b.(rel1 := on) else b.(rel2 := on)
  }

  /** `on1`, `off1`, `on2`, `off2`: no relay digit raises `NameError`,
      reported as `ERROR!` and its repr; neither `ON` nor `OFF` gets the
      usage line; otherwise the board is switched and `Done` follows. */
  lemma RelayConcludes(a: Ctrl<Board>, m: Sms)
    ensures var t := m.message;
      Conclude(RelayHandler(a, m), m.phone) == Success(
        if '1' !in t && '2' !in t then
          a.(queue := a.queue + [Note(m.phone, ERROR_STR, None), Note(m.phone, NameError("HandleError").Repr(), None)])
        else if !IsSubstring("ON", Upper(t)) && !IsSubstring("OFF", Upper(t)) then
          a.(queue := a.queue + [Note(m.phone, RELAY_USAGE, None)])
        else
          Ctrl(a.queue + [Note(m.phone, DONE_STR, None)], a.sent, Switched(a.own, t)))
  {
    if '1' !in m.message && '2' !in m.message {
      ReportInternal(a, m.phone, NameError("HandleError"));
    }
  }

  /** The relay codes switch by the whole text, not by the code: relay 1
      whenever the text holds a `1`, on whenever the upper-cased text holds
      `ON`, whichever of the four codes was sent. */
  lemma RelayAnswers(a: Ctrl<Board>, m: Sms, i: nat)
    requires 4 <= i < |MY_CODES|
    requires Parse(m.message, SMS_CODE_MAX).ok && Parse(m.message, SMS_CODE_MAX).code == Some(MY_CODES[i].0)
    ensures var t := m.message;
      Dispatch(a, m) == Success(
        if '1' !in t && '2' !in t then
          a.(queue := a.queue + [Note(m.phone, ERROR_STR, None), Note(m.phone, NameError("HandleError").Repr(), None)])
        else if !IsSubstring("ON", Upper(t)) && !IsSubstring("OFF", Upper(t)) then
          a.(queue := a.queue + [Note(m.phone, RELAY_USAGE, None)])
        else
          Ctrl(a.queue + [Note(m.phone, DONE_STR, None)], a.sent, Switched(a.own, t)))
  {
    RelayDispatched(a, m, i);
    RelayConcludes(a, m);
  }

  /** The four relay codes run the same handler. */
  lemma RelayDispatched(a: Ctrl<Board>, m: Sms, i: nat)
    requires 4 <= i < |MY_CODES|
    requires Parse(m.message, SMS_CODE_MAX).ok && Parse(m.message, SMS_CODE_MAX).code == Some(MY_CODES[i].0)
    ensures Dispatch(a, m) == Conclude(RelayHandler(a, m), m.phone)
  {
    var p := Parse(m.message, SMS_CODE_MAX);
    assert MY_CODES[i].1 == Relay;
    assert Run(Relay, a, m, p.p1, p.p2) == RelayHandler(a, m);
    DispatchTo(a, m, i);
  }
}

=== FILE: smsctrl.dfy ===
/** The generic SMS command station (`SmsControlApp`).

    An application registers handlers under short codes. Every SMS from an
    authorised phone is parsed as `code,param1,param2` and handed to the
    first handler registered under its code; replies go into a queue that
    the main loop sends one per pass, last queued first. The dispatcher is
    generic in the handler type `H` and in the application's own state `S`
    (whatever its handlers change besides the queue); `run` performs a
    handler, and reports the state it left and the exception it raised, if
    any. */
module SmsCtrl {
  import opened Wrappers
  import opened Text
  import opened Errors
  import opened Command

  /** An entry of the reply queue: the phone to text, the text, and the
      phone it is about. */
  datatype Note = Note(to: string, msg: string, source: Option<string>)

  /** An SMS handed to the modem. */
  datatype Sent = Sent(to: string, text: string)

  /** The station: the reply queue, the SMS sent so far, and the
      application's own state. */
  datatype Ctrl<S> = Ctrl(queue: seq<Note>, sent: seq<Sent>, own: S)

  /** What running a handler left behind. A handler that raises keeps the
      changes it made before raising. */
  datatype Outcome<S> = Outcome(state: Ctrl<S>, err: Option<Exc>)

  /** `register_message(to, msg, source)`: queued as is, to be sent
      later. */
  function RegisterMessage<S>(a: Ctrl<S>, to: string, msg: string, source: Option<string>): (r: Ctrl<S>)
    ensures r.own == a.own && r.sent == a.sent
    ensures |r.queue| == |a.queue| + 1 && r.queue[..|a.queue|] == a.queue
  {
    a.(queue := a.queue + [Note(to, msg, source)])
  }

  /** The `except` clauses around a handler: a `HandlerError` sends its
      text back; any other exception sends `ERROR!` and then the
      exception's repr. An exception outside `Exception` escapes. */
  function Report<S>(a: Ctrl<S>, phone: string, e: Exc): (r: Result<Ctrl<S>, Exc>)
    ensures r.Failure? <==> !IsException(e)
    ensures r.Failure? ==> r.error == e
    ensures r.Success? ==> r.value.own == a.own && r.value.sent == a.sent
  {
    if !IsException(e) then Failure(e)
    else if e.HandlerError? then Success(RegisterMessage(a, phone, e.Arg(), None))
    else Success(RegisterMessage(RegisterMessage(a, phone, ERROR_STR, None), phone, e.Repr(), None))
  }

  /** Any exception other than a `HandlerError` reaches the sender as two
      texts: `ERROR!`, then the exception's repr. */
  lemma ReportInternal<S>(a: Ctrl<S>, phone: string, e: Exc)
    requires IsException(e) && !e.HandlerError?
    ensures Report(a, phone, e) == Success(a.(queue := a.queue + [Note(phone, ERROR_STR, None), Note(phone, e.Repr(), None)]))
  {
    assert a.queue + [Note(phone, ERROR_STR, None)] + [Note(phone, e.Repr(), None)]
      == a.queue + [Note(phone, ERROR_STR, None), Note(phone, e.Repr(), None)];
  }

  /** The `except` clauses around a handler catch every class a handler
      can raise: a `HandlerError` sends back exactly its text, any other
      class is reported, and only `SystemExit` escapes. */
  lemma ReportCatches<S>(a: Ctrl<S>, phone: string, msg: string)
    ensures Report(a, phone, HandlerError(msg)) == Success(a.(queue := a.queue + [Note(phone, msg, None)]))
    ensures Report(a, phone, AssertionError()).Success? && Report(a, phone, TypeError(msg)).Success?
    ensures Report(a, phone, IndexError(msg)).Success? && Report(a, phone, KeyError(msg)).Success?
    ensures Report(a, phone, AttributeError(msg)).Success? && Report(a, phone, NameError(msg)).Success?
    ensures Report(a, phone, ZeroDivisionError()).Success? && Report(a, phone, GenericError(msg)).Success?
    ensures Report(a, phone, UnboundLocal()).Success?
    ensures Report(a, phone, SystemExit()) == Failure(SystemExit())
  {
  }

  /** What follows a handler: `Done` if it returned, else the `except`
      clauses. */
  function Conclude<S>(o: Outcome<S>, phone: string): (r: Result<Ctrl<S>, Exc>)
    ensures o.err.None? ==> r == Success(o.state.(queue := o.state.queue + [Note(phone, DONE_STR, None)]))
    ensures o.err.Some? ==> (r.Failure? <==> !IsException(o.err.value))
    ensures r.Failure? ==> o.err == Some(r.error)
    ensures o.err.Some? && o.err.value.HandlerError? ==>
              r == Success(o.state.(queue := o.state.queue + [Note(phone, o.err.value.Arg(), None)]))
    ensures o.err.Some? && IsException(o.err.value) && !o.err.value.HandlerError? ==>
              r == Success(o.state.(queue := o.state.queue + [Note(phone, ERROR_STR, None), Note(phone, o.err.value.Repr(), None)]))
  {
    assert forall q: seq<Note>, x: Note, y: Note :: q + [x] + [y] == q + [x, y];
    if o.err.None? then Success(RegisterMessage(o.state, phone, DONE_STR, None))
    else Report(o.state, phone, o.err.value)
  }

  /** `run_sms_handler(msg)`. A format error queues `Invalid format!` and
      the code is dispatched all the same; a text with more than three
      fields leaves the code unbound, which raises as soon as a table entry
      is compared with it. */
  function RunSmsHandler<H, S>(a: Ctrl<S>, table: seq<(string, H)>,
                               run: (H, Ctrl<S>, Sms, Option<string>, Option<string>) -> Outcome<S>,
                               m: Sms): (r: Result<Ctrl<S>, Exc>)
    ensures r.Failure? && Parse(m.message, SMS_CODE_MAX).code.None? ==> r.error == UnboundLocal()
    ensures Find(table, Upper(Split(m.message, ',')[0])).None? && |Split(m.message, ',')| <= 3 ==> r.Success?
  {
    var p := Parse(m.message, SMS_CODE_MAX);
    var a0 := if p.ok then a else RegisterMessage(a, m.phone, "Invalid format!", None);
    if p.code.None? then
      if |table| == 0 then Success(RegisterMessage(a0, m.phone, ERROR_STR, None))
      else Failure(UnboundLocal())
    else
      match Find(table, p.code.value)
      case None => Success(RegisterMessage(a0, m.phone, ERROR_STR, None))
      case Some(i) =>
        Conclude(run(table[i].1, a0, m, p.p1, p.p2), m.phone)
  }

  /** `is_auth` as the base class defines it: every phone. */
  predicate AllowAll(phone: string) {
    true
  }

  /** The pending SMS, last first: an authorised sender's SMS is
      dispatched, anyone else gets `Denied!`. */
  function HandleMsgs<H, S>(a: Ctrl<S>, table: seq<(string, H)>,
                            run: (H, Ctrl<S>, Sms, Option<string>, Option<string>) -> Outcome<S>,
                            isAuth: string -> bool, msgs: seq<Sms>): (r: Result<Ctrl<S>, Exc>)
    ensures (forall i | 0 <= i < |msgs| :: !isAuth(msgs[i].phone)) ==> r.Success? && r.value.own == a.own
    decreases |msgs|
  {
    if |msgs| == 0 then Success(a)
    else
      var m := msgs[|msgs| - 1];
      var a1 :- if isAuth(m.phone) then RunSmsHandler(a, table, run, m)
                else Success(RegisterMessage(a, m.phone, DENIED_STR, None));
      HandleMsgs(a1, table, run, isAuth, msgs[..|msgs| - 1])
  }

  /** The text sent for a queue entry: `msg : phone` when it is about a
      phone. */
  function Render(n: Note): string {
    if n.source.Some? then n.msg + " : " + n.source.value else n.msg
  }

  /** Send the last queued entry. It leaves the queue before sending, and a
      failed send is ignored, so either way the entry is gone. */
  function SendOne<S>(a: Ctrl<S>): (r: Ctrl<S>)
    ensures |a.queue| == 0 ==> r == a
    ensures |a.queue| > 0 ==> |r.queue| == |a.queue| - 1 && r.own == a.own
    ensures |a.queue| > 0 ==> r.queue == a.queue[..|a.queue| - 1]
  {
    if |a.queue| == 0 then a
    else
      var n := a.queue[|a.queue| - 1];
      Ctrl(a.queue[..|a.queue| - 1], a.sent + [Sent(n.to, Render(n))], a.own)
  }

  /** One pass of the loop: when the modem reported new SMS, handle them;
      then send one queued reply. */
  function Pass<H, S>(a: Ctrl<S>, table: seq<(string, H)>,
                      run: (H, Ctrl<S>, Sms, Option<string>, Option<string>) -> Outcome<S>,
                      isAuth: string -> bool, news: bool, msgs: seq<Sms>): (r: Result<Ctrl<S>, Exc>)
    ensures !news ==> r == Success(SendOne(a))
  {
    var a1 :- if news then HandleMsgs(a, table, run, isAuth, msgs) else Success(a);
    Success(SendOne(a1))
  }

  // ---------------------------------------------------------------------
  // Properties
  // ---------------------------------------------------------------------

  /** The replies queued after `a`, as texts to one phone. */
  function Replies(to: string, texts: seq<string>): (r: seq<Note>)
    ensures |r| == |texts| && forall i | 0 <= i < |r| :: r[i] == Note(to, texts[i], None)
  {
    seq(|texts|, i requires 0 <= i < |texts| => Note(to, texts[i], None))
  }

  /** A well-formed SMS whose code nobody registered gets one `ERROR!`. */
  lemma DispatchUnknownCode<H, S>(a: Ctrl<S>, table: seq<(string, H)>,
                                  run: (H, Ctrl<S>, Sms, Option<string>, Option<string>) -> Outcome<S>,
                                  m: Sms)
    requires Parse(m.message, SMS_CODE_MAX).ok
    requires Find(table, Parse(m.message, SMS_CODE_MAX).code.value).None?
    ensures RunSmsHandler(a, table, run, m) == Success(a.(queue := a.queue + Replies(m.phone, [ERROR_STR])))
  {
    assert Replies(m.phone, [ERROR_STR]) == [Note(m.phone, ERROR_STR, None)];
  }

  /** An SMS whose code is bound reaches the first handler registered
      under it; a format error only queues `Invalid format!` first. If the
      handler returns, `Done` follows its own replies; if it
      raises a `HandlerError`, the error's text does; any other
      `Exception` gives `ERROR!` and then its repr. */
  lemma DispatchHandled<H, S>(a: Ctrl<S>, table: seq<(string, H)>,
                              run: (H, Ctrl<S>, Sms, Option<string>, Option<string>) -> Outcome<S>,
                              m: Sms, i: nat)
    requires Parse(m.message, SMS_CODE_MAX).code.Some?
    requires Find(table, Parse(m.message, SMS_CODE_MAX).code.value) == Some(i)
    ensures var p := Parse(m.message, SMS_CODE_MAX);
      var a0 := if p.ok then a else a.(queue := a.queue + [Note(m.phone, "Invalid format!", None)]);
      var o := run(table[i].1, a0, m, p.p1, p.p2);
      var s := o.state;
      RunSmsHandler(a, table, run, m) ==
        if o.err.None? then Success(s.(queue := s.queue + Replies(m.phone, [DONE_STR])))
        else if !IsException(o.err.value) then Failure(o.err.value)
        else if o.err.value.HandlerError? then Success(s.(queue := s.queue + Replies(m.phone, [o.err.value.Arg()])))
        else Success(s.(queue := s.queue + Replies(m.phone, [ERROR_STR, o.err.value.Repr()])))
  {
    var p := Parse(m.message, SMS_CODE_MAX);
    var a0 := if p.ok then a else a.(queue := a.queue + [Note(m.phone, "Invalid format!", None)]);
    DispatchReaches(a, table, run, m, i);
    ConcludeReplies(run(table[i].1, a0, m, p.p1, p.p2), m.phone);
  }

  /** The handler found runs on the state the format check left. */
  lemma DispatchReaches<H, S>(a: Ctrl<S>, table: seq<(string, H)>,
                              run: (H, Ctrl<S>, Sms, Option<string>, Option<string>) -> Outcome<S>,
                              m: Sms, i: nat)
    requires Parse(m.message, SMS_CODE_MAX).code.Some?
    requires Find(table, Parse(m.message, SMS_CODE_MAX).code.value) == Some(i)
    ensures var p := Parse(m.message, SMS_CODE_MAX);
      var a0 := if p.ok then a else a.(queue := a.queue + [Note(m.phone, "Invalid format!", None)]);
      RunSmsHandler(a, table, run, m) == Conclude(run(table[i].1, a0, m, p.p1, p.p2), m.phone)
  {
  }

  /** The replies that follow a handler's outcome. */
  lemma ConcludeReplies<S>(o: Outcome<S>, phone: string)
    ensures var s := o.state;
      Conclude(o, phone) ==
        if o.err.None? then Success(s.(queue := s.queue + Replies(phone, [DONE_STR])))
        else if !IsException(o.err.value) then Failure(o.err.value)
        else if o.err.value.HandlerError? then Success(s.(queue := s.queue + Replies(phone, [o.err.value.Arg()])))
        else Success(s.(queue := s.queue + Replies(phone, [ERROR_STR, o.err.value.Repr()])))
  {
    var s := o.state;
    assert Replies(phone, [DONE_STR]) == [Note(phone, DONE_STR, None)];
    if o.err.Some? {
      var e := o.err.value;
      assert Replies(phone, [e.Arg()]) == [Note(phone, e.Arg(), None)];
      assert Replies(phone, [ERROR_STR, e.Repr()]) == [Note(phone, ERROR_STR, None), Note(phone, e.Repr(), None)];
      assert s.queue + [Note(phone, ERROR_STR, None)] + [Note(phone, e.Repr(), None)]
        == s.queue + [Note(phone, ERROR_STR, None), Note(phone, e.Repr(), None)];
    }
  }

  /** More than three comma-separated fields: with any handler registered
      the unbound code raises; with none, the sender gets `Invalid format!`
      and `ERROR!`. */
  lemma DispatchTooManyFields<H, S>(a: Ctrl<S>, table: seq<(string, H)>,
                                    run: (H, Ctrl<S>, Sms, Option<string>, Option<string>) -> Outcome<S>,
                                    m: Sms)
    requires |Split(m.message, ',')| > 3
    ensures |table| > 0 ==> RunSmsHandler(a, table, run, m) == Failure(UnboundLocal())
    ensures |table| == 0 ==> (RunSmsHandler(a, table, run, m)
      == Success(a.(queue := a.queue + Replies(m.phone, ["Invalid format!", ERROR_STR]))))
  {
    var n1 := Note(m.phone, "Invalid format!", None);
    var n2 := Note(m.phone, ERROR_STR, None);
    assert Replies(m.phone, ["Invalid format!", ERROR_STR]) == [n1, n2];
    assert a.queue + [n1] + [n2] == a.queue + [n1, n2];
  }

  /** An SMS from a phone `is_auth` refuses only gets `Denied!`. */
  lemma UnauthorisedDenied<H, S>(a: Ctrl<S>, table: seq<(string, H)>,
                                 run: (H, Ctrl<S>, Sms, Option<string>, Option<string>) -> Outcome<S>,
                                 isAuth: string -> bool, m: Sms)
    requires !isAuth(m.phone)
    ensures HandleMsgs(a, table, run, isAuth, [m]) == Success(a.(queue := a.queue + Replies(m.phone, [DENIED_STR])))
  {
    assert [m][..0] == [];
    assert Replies(m.phone, [DENIED_STR]) == [Note(m.phone, DENIED_STR, None)];
  }

  /** With the base class's `is_auth`, every SMS goes to the
      dispatcher. */
  lemma DefaultAuthDispatches<H, S>(a: Ctrl<S>, table: seq<(string, H)>,
                                    run: (H, Ctrl<S>, Sms, Option<string>, Option<string>) -> Outcome<S>,
                                    m: Sms)
    ensures HandleMsgs(a, table, run, AllowAll, [m]) == RunSmsHandler(a, table, run, m)
  {
    assert [m][..0] == [];
  }

  /** `n` passes of the drain. */
  function SendMany<S>(a: Ctrl<S>, n: nat): (r: Ctrl<S>)
    decreases n
  {
    if n == 0 then a else SendMany(SendOne(a), n - 1)
  }

  /** The reverse of a run of entries, rendered. */
  function RenderedBackwards(to: seq<Note>): (r: seq<Sent>)
    ensures |r| == |to|
    decreases |to|
  {
    if |to| == 0 then [] else [Sent(to[|to| - 1].to, Render(to[|to| - 1]))] + RenderedBackwards(to[..|to| - 1])
  }

  /** The drain sends the last `n` queued entries newest first, leaves the
      rest queued, and changes nothing else. */
  lemma {:induction false} DrainIsLastInFirstOut<S>(a: Ctrl<S>, n: nat)
    requires n <= |a.queue|
    ensures var k := |a.queue| - n;
      SendMany(a, n) == Ctrl(a.queue[..k], a.sent + RenderedBackwards(a.queue[k..]), a.own)
    decreases n
  {
    var k := |a.queue| - n;
    if n == 0 {
      assert a.queue[..k] == a.queue;
      assert a.sent + RenderedBackwards(a.queue[k..]) == a.sent;
    } else {
      var b := SendOne(a);
      var last := a.queue[|a.queue| - 1];
      DrainIsLastInFirstOut(b, n - 1);
      assert b.queue[..k] == a.queue[..k];
      assert b.queue[k..] == a.queue[k..|a.queue| - 1];
      assert a.queue[k..][..|a.queue[k..]| - 1] == a.queue[k..|a.queue| - 1];
      assert RenderedBackwards(a.queue[k..]) == [Sent(last.to, Render(last))] + RenderedBackwards(a.queue[k..|a.queue| - 1]);
      assert b.sent == a.sent + [Sent(last.to, Render(last))];
    }
  }

  /** A reply about another phone is sent as the text, ` : `, then that
      phone; a plain reply is sent as queued. */
  lemma SentAfterRegistering<S>(a: Ctrl<S>, to: string, msg: string, source: Option<string>)
    ensures var r := SendOne(RegisterMessage(a, to, msg, source));
      && r.queue == a.queue && r.own == a.own
      && r.sent == a.sent + [Sent(to, if source.Some? then msg + " : " + source.value else msg)]
  {
    assert (a.queue + [Note(to, msg, source)])[..|a.queue|] == a.queue;
  }
}

=== FILE: text.dfy ===
/** The string primitives the controller scripts rely on, with MicroPython's
    semantics: `in` on strings, `str.replace`, `str.upper`, `str.strip`,
    `str.split`, `str.isdigit`, `int()` on a decimal text and `%i`
    formatting, plus the two text checks shared by both applications,
    `valid_text` and `is_phone_nr`. */
module Text {
  import opened Wrappers

  // ---------------------------------------------------------------------
  // Substring search (`sub in s`)
  // ---------------------------------------------------------------------

  predicate IsPrefix(p: string, s: string) {
    |p| <= |s| && s[..|p|] == p
  }

  /** Python's `sub in s`; the empty string occurs in every string. */
  predicate IsSubstring(sub: string, s: string)
    decreases |s|
  {
    IsPrefix(sub, s) || (|s| > 0 && IsSubstring(sub, s[1..]))
  }

  /** `sub` occurs in `s` starting at index `i`. */
  predicate OccursAt(sub: string, s: string, i: int) {
    0 <= i && i + |sub| <= |s| && s[i..i + |sub|] == sub
  }

  /** A positional occurrence is found by the recursive search. */
  lemma {:induction false} OccursIsSubstring(sub: string, s: string, i: int)
    requires OccursAt(sub, s, i)
    ensures IsSubstring(sub, s)
    decreases i
  {
    if i == 0 {
      assert IsPrefix(sub, s);
    } else {
      assert s[1..][i - 1..i - 1 + |sub|] == s[i..i + |sub|];
      OccursIsSubstring(sub, s[1..], i - 1);
    }
  }

  /** The recursive search agrees with the positional definition. */
  lemma {:induction false} SubstringIffOccurs(sub: string, s: string)
    ensures IsSubstring(sub, s) <==> exists i :: OccursAt(sub, s, i)
    decreases |s|
  {
    if IsPrefix(sub, s) {
      assert OccursAt(sub, s, 0);
    } else if IsSubstring(sub, s) {
      SubstringIffOccurs(sub, s[1..]);
      var i :| OccursAt(sub, s[1..], i);
      assert s[i + 1..i + 1 + |sub|] == s[1..][i..i + |sub|];
      assert OccursAt(sub, s, i + 1);
    }
    forall i | OccursAt(sub, s, i) ensures IsSubstring(sub, s) {
      OccursIsSubstring(sub, s, i);
    }
  }

  /** A pattern that starts with a character absent from `u` cannot start
      inside `u`, so searching `u + v` is searching `v`. */
  lemma {:induction false} SubstringSkip(sub: string, u: string, v: string)
    requires |sub| > 0 && sub[0] !in u
    ensures IsSubstring(sub, u + v) == IsSubstring(sub, v)
    decreases |u|
  {
    if |u| > 0 {
      var s := u + v;
      assert s[0] == u[0];
      assert !IsPrefix(sub, s);
      assert s[1..] == u[1..] + v;
      SubstringSkip(sub, u[1..], v);
    } else {
      assert u + v == v;
    }
  }

  /** A pattern found in a suffix is found in the whole string. */
  lemma {:induction false} SubstringOfSuffix(sub: string, u: string, v: string)
    requires IsSubstring(sub, v)
    ensures IsSubstring(sub, u + v)
    decreases |u|
  {
    if |u| > 0 {
      assert (u + v)[1..] == u[1..] + v;
      SubstringOfSuffix(sub, u[1..], v);
    } else {
      assert u + v == v;
    }
  }

  /** The position of the first `c` in `s`. */
  function IndexOf(s: string, c: char): (r: Option<nat>)
    ensures r.None? <==> c !in s
    ensures r.Some? ==> r.value < |s| && s[r.value] == c
    ensures r.Some? ==> forall j | 0 <= j < r.value :: s[j] != c
  {
    if |s| == 0 then None
    else if s[0] == c then Some(0)
    else
      match IndexOf(s[1..], c)
      case None => None
      case Some(k) => Some(k + 1)
  }

  // ---------------------------------------------------------------------
  // str.replace(pat, rep): left to right, non-overlapping
  // ---------------------------------------------------------------------

  function Replace(s: string, pat: string, rep: string): string
    requires |pat| > 0
    decreases |s|
  {
    if |s| < |pat| then s
    else if s[..|pat|] == pat then rep + Replace(s[|pat|..], pat, rep)
    else [s[0]] + Replace(s[1..], pat, rep)
  }

  /** Replacing with a non-empty text never empties a non-empty text. */
  lemma ReplaceNonEmpty(s: string, pat: string, rep: string)
    requires |pat| > 0 && |rep| > 0 && |s| > 0
    ensures |Replace(s, pat, rep)| > 0
  {
  }

  /** Text before the first possible match start is copied unchanged. */
  lemma {:induction false} ReplaceSkip(u: string, v: string, pat: string, rep: string)
    requires |pat| > 0 && pat[0] !in u
    ensures Replace(u + v, pat, rep) == u + Replace(v, pat, rep)
    decreases |u|
  {
    if |u| > 0 {
      var s := u + v;
      assert s[0] == u[0];
      assert s[1..] == u[1..] + v;
      ReplaceSkip(u[1..], v, pat, rep);
      if |s| < |pat| {
        ReplaceShort(v, pat, rep);
        ReplaceShort(u[1..] + v, pat, rep);
      } else {
        assert s[..|pat|][0] != pat[0];
        calc {
          Replace(s, pat, rep);
          [u[0]] + Replace(u[1..] + v, pat, rep);
          [u[0]] + (u[1..] + Replace(v, pat, rep));
          u + Replace(v, pat, rep);
        }
      }
    } else {
      assert u + v == v;
    }
  }

  /** Where `pat` does not start, the first character is copied. */
  lemma ReplaceNoMatchHere(s: string, pat: string, rep: string)
    requires 0 < |pat| <= |s| && !IsPrefix(pat, s)
    ensures Replace(s, pat, rep) == [s[0]] + Replace(s[1..], pat, rep)
  {
  }

  lemma ReplaceShort(s: string, pat: string, rep: string)
    requires 0 < |pat| && |s| < |pat|
    ensures Replace(s, pat, rep) == s
  {
  }

  /** A string without an occurrence of `pat` is left unchanged. */
  lemma {:induction false} ReplaceAbsent(s: string, pat: string, rep: string)
    requires |pat| > 0 && !IsSubstring(pat, s)
    ensures Replace(s, pat, rep) == s
    decreases |s|
  {
    if |s| >= |pat| {
      assert !IsPrefix(pat, s);
      ReplaceAbsent(s[1..], pat, rep);
      assert [s[0]] + s[1..] == s;
    }
  }

  // ---------------------------------------------------------------------
  // str.upper() and str.strip() (ASCII only, as in MicroPython)
  // ---------------------------------------------------------------------

  function UpperChar(c: char): char {
    if 'a' <= c <= 'z' then (c as int - 32) as char else c
  }

  predicate IsLowerChar(c: char) {
    'a' <= c <= 'z'
  }

  function Upper(s: string): (r: string)
    ensures |r| == |s|
    ensures forall i | 0 <= i < |s| :: r[i] == UpperChar(s[i])
  {
    if |s| == 0 then [] else [UpperChar(s[0])] + Upper(s[1..])
  }

  /** An upper-cased text holds no lower-case letter, so folding it again
      changes nothing. */
  lemma UpperIsFolded(s: string)
    ensures forall i | 0 <= i < |Upper(s)| :: !IsLowerChar(Upper(s)[i])
    ensures Upper(Upper(s)) == Upper(s)
  {
  }

  /** The whitespace set MicroPython's `str.strip()` removes. */
  predicate IsSpace(c: char) {
    c == ' ' || c == '\r' || c == '\n' || c == '\t' || c as int == 11 || c as int == 12
  }

  /** How many whitespace characters start `s`. */
  function LeadingSpaces(s: string): (n: nat)
    ensures n <= |s|
    ensures forall i | 0 <= i < n :: IsSpace(s[i])
    ensures n < |s| ==> !IsSpace(s[n])
    decreases |s|
  {
    if |s| > 0 && IsSpace(s[0]) then 1 + LeadingSpaces(s[1..]) else 0
  }

  /** How many whitespace characters end `s`. */
  function TrailingSpaces(s: string): (n: nat)
    ensures n <= |s|
    ensures forall i | |s| - n <= i < |s| :: IsSpace(s[i])
    ensures n < |s| ==> !IsSpace(s[|s| - 1 - n])
    decreases |s|
  {
    if |s| > 0 && IsSpace(s[|s| - 1]) then 1 + TrailingSpaces(s[..|s| - 1]) else 0
  }

  /** `str.strip()`: the result is the slice of `s` left when the leading and
      trailing whitespace is removed, and it neither starts nor ends with
      whitespace. */
  function Strip(s: string): (r: string)
    ensures LeadingSpaces(s) + |r| <= |s|
    ensures r == s[LeadingSpaces(s)..LeadingSpaces(s) + |r|]
    ensures forall i | 0 <= i < LeadingSpaces(s) :: IsSpace(s[i])
    ensures forall i | LeadingSpaces(s) + |r| <= i < |s| :: IsSpace(s[i])
    ensures |r| > 0 ==> !IsSpace(r[0]) && !IsSpace(r[|r| - 1])
  {
    var k := LeadingSpaces(s);
    if k == |s| then ""
    else
      var n := TrailingSpaces(s);
      assert k < |s| - n by {
        assert !IsSpace(s[k]);
      }
      s[k..|s| - n]
  }

  /** A text with no whitespace at either end strips to itself. */
  lemma StripUnchanged(s: string)
    requires |s| > 0 ==> !IsSpace(s[0]) && !IsSpace(s[|s| - 1])
    ensures Strip(s) == s
  {
    if |s| > 0 {
      assert LeadingSpaces(s) == 0;
      assert TrailingSpaces(s) == 0;
    }
  }

  /** Stripping twice is stripping once. */
  lemma StripIdempotent(s: string)
    ensures Strip(Strip(s)) == Strip(s)
  {
    var r := Strip(s);
    if |r| > 0 {
      assert LeadingSpaces(r) == 0;
      assert TrailingSpaces(r) == 0;
    }
  }

  // ---------------------------------------------------------------------
  // str.split(sep) with an explicit one-character separator
  // ---------------------------------------------------------------------

  /** `s.split(sep)`: always at least one field, none holding `sep`. */
  function Split(s: string, sep: char): (r: seq<string>)
    ensures |r| > 0
    ensures forall i | 0 <= i < |r| :: sep !in r[i]
    decreases |s|
  {
    match IndexOf(s, sep)
    case None => [s]
    case Some(k) => [s[..k]] + Split(s[k + 1..], sep)
  }

  /** `sep.join(parts)`. */
  function Join(parts: seq<string>, sep: char): string
    requires |parts| > 0
  {
    if |parts| == 1 then parts[0] else parts[0] + [sep] + Join(parts[1..], sep)
  }

  /** Joining the fields of a split gives back the text. */
  lemma {:induction false} JoinSplit(s: string, sep: char)
    ensures Join(Split(s, sep), sep) == s
    decreases |s|
  {
    match IndexOf(s, sep)
    case None =>
    case Some(k) =>
      var rest := Split(s[k + 1..], sep);
      JoinSplit(s[k + 1..], sep);
      assert Split(s, sep) == [s[..k]] + rest;
      assert (([s[..k]] + rest)[1..]) == rest;
      assert s == s[..k] + [sep] + s[k + 1..];
  }

  /** The first field of a split is a prefix of the text. */
  lemma SplitHeadIsPrefix(s: string, sep: char)
    ensures |Split(s, sep)[0]| <= |s| && Split(s, sep)[0] == s[..|Split(s, sep)[0]|]
  {
    match IndexOf(s, sep)
    case None => assert s[..|s|] == s;
    case Some(k) =>
  }

  /** The first separator of `p + [sep] + tail` is the one after `p`. */
  lemma IndexAfterField(p: string, tail: string, sep: char)
    requires sep !in p
    ensures IndexOf(p + [sep] + tail, sep) == Some(|p|)
  {
    var s := p + [sep] + tail;
    assert s[|p|] == sep;
    assert forall j | 0 <= j < |p| :: s[j] == p[j] && p[j] in p;
  }

  /** Splitting a text that starts with a separator-free field. */
  lemma SplitField(p: string, tail: string, sep: char)
    requires sep !in p
    ensures Split(p + [sep] + tail, sep) == [p] + Split(tail, sep)
  {
    var s := p + [sep] + tail;
    IndexAfterField(p, tail, sep);
    assert s[..|p|] == p;
    assert s[|p| + 1..] == tail;
  }

  /** Splitting a join of separator-free fields gives back the fields. */
  lemma {:induction false} SplitJoin(parts: seq<string>, sep: char)
    requires |parts| > 0
    requires forall i | 0 <= i < |parts| :: sep !in parts[i]
    ensures Split(Join(parts, sep), sep) == parts
    decreases |parts|
  {
    if |parts| == 1 {
      assert IndexOf(parts[0], sep).None?;
    } else {
      SplitField(parts[0], Join(parts[1..], sep), sep);
      SplitJoin(parts[1..], sep);
      assert [parts[0]] + parts[1..] == parts;
    }
  }

  // ---------------------------------------------------------------------
  // Digits, decimal numbers and int()
  // ---------------------------------------------------------------------

  predicate IsDigitChar(c: char) {
    '0' <= c <= '9'
  }

  predicate AllDigits(s: string) {
    forall i | 0 <= i < |s| :: IsDigitChar(s[i])
  }

  /** `str.isdigit()`: false on the empty string. */
  predicate IsDigits(s: string) {
    |s| > 0 && AllDigits(s)
  }

  function DigitValue(c: char): nat
    requires IsDigitChar(c)
  {
    c as int - '0' as int
  }

  function DigitChar(d: nat): char
    requires d < 10
  {
    ('0' as int + d) as char
  }

  /** The number a string of decimal digits denotes. */
  function DigitsValue(s: string): nat
    requires AllDigits(s)
    decreases |s|
  {
    if |s| == 0 then 0 else DigitsValue(s[..|s| - 1]) * 10 + DigitValue(s[|s| - 1])
  }

  /** `'%i' % n` for a natural number. */
  function NatToString(n: nat): (r: string)
    ensures IsDigits(r)
    ensures |r| > 1 ==> r[0] != '0'
    decreases n
  {
    if n < 10 then [DigitChar(n)] else NatToString(n / 10) + [DigitChar(n % 10)]
  }

  /** `'%i' % i`. */
  function IntToString(i: int): string {
    if i < 0 then "-" + NatToString(-i) else NatToString(i)
  }

  /** Python's `int(s)` on an already stripped text, reduced to an optional
      sign followed by decimal digits; `None` stands for the `ValueError`. */
  function ParseInt(s: string): (r: Option<int>)
    ensures r.Some? <==> IsDigits(s) || (|s| > 0 && (s[0] == '+' || s[0] == '-') && IsDigits(s[1..]))
  {
    if |s| > 0 && (s[0] == '+' || s[0] == '-') then
      if IsDigits(s[1..]) then
        var n: int := DigitsValue(s[1..]);
        Some(if s[0] == '-' then -n else n)
      else None
    else if IsDigits(s) then Some(DigitsValue(s))
    else None
  }

  lemma {:induction false} DigitsOfNat(n: nat)
    ensures DigitsValue(NatToString(n)) == n
    decreases n
  {
    if n >= 10 {
      var s := NatToString(n / 10);
      DigitsOfNat(n / 10);
      var t := s + [DigitChar(n % 10)];
      assert t[..|t| - 1] == s;
    }
  }

  /** `int('%i' % i) == i`: formatting then parsing is the identity. */
  lemma IntToStringRoundTrip(i: int)
    ensures ParseInt(IntToString(i)) == Some(i)
  {
    if i < 0 {
      DigitsOfNat(-i);
      assert IntToString(i)[1..] == NatToString(-i);
    } else {
      DigitsOfNat(i);
    }
  }

  // ---------------------------------------------------------------------
  // valid_text and is_phone_nr
  // ---------------------------------------------------------------------

  /** A character `valid_text` accepts: codes 48..90 (which includes
      `:;<=>?@` between the digits and the capitals), 97..122, or one of
      `!#+ -.`. */
  predicate ValidChar(c: char) {
    (48 <= c as int <= 90) || (97 <= c as int <= 122) || c in "!#+ -."
  }

  predicate ValidText(s: string) {
    forall i | 0 <= i < |s| :: ValidChar(s[i])
  }

  /** The source's character-by-character scan with early exit. */
  method CheckValidText(s: string) returns (ok: bool)
    ensures ok <==> ValidText(s)
  {
    var i := 0;
    while i < |s|
      invariant 0 <= i <= |s|
      invariant forall j | 0 <= j < i :: ValidChar(s[j])
    {
      if !ValidChar(s[i]) {
        return false;
      }
      i := i + 1;
    }
    return true;
  }

  /** The character-code ranges let the punctuation between `9` and `A`
      through, and the empty text is valid. */
  lemma ValidTextAdmitsPunctuation()
    ensures ValidText(":;<=>?@")
    ensures ValidText("")
    ensures !ValidText(",") && !ValidText("_") && !ValidText("*")
  {
    assert !ValidChar(","[0]);
    assert !ValidChar("_"[0]);
    assert !ValidChar("*"[0]);
  }

  /** `is_phone_nr`: longer than two characters, a `+`, then only digits. */
  predicate IsPhoneNr(v: string) {
    |v| > 2 && v[0] == '+' && IsDigits(v[1..])
  }

  /** A phone number is accepted as text and is recognised as a single
      recipient (leading `+`) by the notification queue. */
  lemma PhoneNrShape(v: string)
    requires IsPhoneNr(v)
    ensures ValidText(v)
    ensures |v| > 0 && v[0] == '+'
    ensures forall i | 1 <= i < |v| :: IsDigitChar(v[i])
  {
    forall i | 1 <= i < |v| ensures IsDigitChar(v[i]) {
      assert v[1..][i - 1] == v[i];
    }
  }

  // ---------------------------------------------------------------------
  // repr() of a text
  // ---------------------------------------------------------------------

  /** The lower-case hexadecimal digit for `d`. */
  function HexChar(d: nat): char
    requires d < 16
  {
    if d < 10 then ('0' as int + d) as char else ('a' as int + d - 10) as char
  }

  /** The last `w` hexadecimal digits of `n`, as `'%0<w>x'` writes a
      number below `16^w`. */
  function Hex(n: nat, w: nat): (r: string)
    ensures |r| == w
    decreases w
  {
    if w == 0 then "" else Hex(n / 16, w - 1) + [HexChar(n % 16)]
  }

  /** The quote `repr` puts around a text: a double quote when the text
      holds a single quote and no double quote, else a single quote. */
  function QuoteFor(s: string): char {
    if '\'' in s && '"' !in s then '"' else '\''
  }

  /** One character inside a quoted repr: the quote and the backslash are
      escaped, printable ASCII is kept, newline, carriage return and tab
      get their short escapes, anything else its code in hexadecimal. */
  function EscapeChar(c: char, q: char): (r: string)
    ensures |r| > 0
  {
    if c == q then ['\\', q]
    else if c == '\\' then "\\\\"
    else if 32 <= c as int <= 126 then [c]
    else if c == '\n' then "\\n"
    else if c == '\r' then "\\r"
    else if c == '\t' then "\\t"
    else if c as int < 0x100 then "\\x" + Hex(c as int, 2)
    else if c as int < 0x10000 then "\\u" + Hex(c as int, 4)
    else "\\U" + Hex(c as int, 8)
  }

  function Escape(s: string, q: char): (r: string)
    ensures |r| >= |s|
    decreases |s|
  {
    if |s| == 0 then "" else EscapeChar(s[0], q) + Escape(s[1..], q)
  }

  /** `repr(s)` for a text, as MicroPython prints it. */
  function ReprText(s: string): (r: string)
    ensures |r| >= |s| + 2 && r[0] == r[|r| - 1] == QuoteFor(s)
  {
    [QuoteFor(s)] + Escape(s, QuoteFor(s)) + [QuoteFor(s)]
  }

  /** A character `repr` keeps as is under quote `q`. */
  predicate Plain(c: char, q: char) {
    32 <= c as int <= 126 && c != q && c != '\\'
  }

  /** Escaping leaves a text of plain characters unchanged. */
  lemma {:induction false} EscapePlain(s: string, q: char)
    requires forall i | 0 <= i < |s| :: Plain(s[i], q)
    ensures Escape(s, q) == s
    decreases |s|
  {
    if |s| > 0 {
      EscapePlain(s[1..], q);
      assert s == [s[0]] + s[1..];
    }
  }

  /** A printable text without quotes or backslashes is shown between
      single quotes; one with single quotes but no double quote, between
      double quotes, with nothing escaped. */
  lemma ReprPlain(s: string)
    requires forall i | 0 <= i < |s| :: 32 <= s[i] as int <= 126 && s[i] != '\\' && s[i] != '"'
    ensures '\'' !in s ==> ReprText(s) == "'" + s + "'"
    ensures '\'' in s ==> ReprText(s) == "\"" + s + "\""
  {
    EscapePlain(s, QuoteFor(s));
  }
}

=== FILE: wrappers.dfy ===
/** Failure-compatible Option and Result types used throughout the model.
    A `Result` failure stands for a Python exception that escapes the
    function being modelled. */
module Wrappers {

  datatype Option<+T> = None | Some(value: T) {

    predicate IsFailure() {
      None?
    }

    function PropagateFailure<U>(): Option<U>
      requires None?
    {
      None
    }

    function Extract(): T
      requires Some?
    {
      value
    }
  }

  datatype Result<+R, +E> = Success(value: R) | Failure(error: E) {

    predicate IsFailure() {
      Failure?
    }

    function PropagateFailure<U>(): Result<U, E>
      requires Failure?
    {
      Failure(error)
    }

    function Extract(): R
      requires Success?
    {
      value
    }
  }
}
